=== FILE: README.md ===
# urdf2mjcf core, modelled in Dafny

This project models the tree-editing core of urdf2mjcf, a converter from a
robot description in URDF to a MuJoCo model in MJCF, and proves properties of
that model. Every XML document is an immutable `Tree.Element`. An element has
a tag, an attribute dictionary, a text and a sequence of children. The
attribute dictionary is an association list in insertion order: setting an
existing key keeps its place, a new key goes to the end, and deleting removes
the key. A node is named by its path of child indices from the root. An
operation that mutates nodes in place in the source is a function returning
the new tree here.

The modules follow the source:

- `AttrParser` (parser.dfy) models the attribute mini-language of the
  annotations in a URDF `<mujoco>` block:
  - `key='v'` / `key:="v"` pairs;
  - the conditional replacement `conditions:replacements`;
  - decoding the four reserved attributes `inject_attr`, `inject_attrs`,
    `replace_attrs` and `inject_children` into operations.
- `Applier` (applier.dfy) applies inject, replace and conditional replace
  to one target.
- `Matcher` (matcher.dfy) models the descendant search of xml_utils.py:
  - exact matching;
  - `*` glob matching;
  - the quirks of the exact mode: a pattern without attributes matches
    nothing, and a pattern with two or more literal attributes builds a
    query that ElementTree rejects, so it also matches nothing.
- `Placement` (placement.dfy) models the `ensure_*` helpers that find or
  create a top-level section.
- `Dispatcher` (dispatcher.dfy) models
  `post_process_inject_custom_mujoco_elements` and its recursive
  `_process_element_recursively`, with its four paths:
  - `inject_children`;
  - scoped operations;
  - parent-context child processing;
  - plain merge with a fallback section before `<worldbody>`.

  The source holds node references across mutations. The model holds
  paths, and a step reports the root indices at which it inserted
  sections, so that held paths can be shifted. `Keeps` states that every
  node survives a step at its shifted path.
- `Preprocess` (preprocess.dfy) models the URDF side:
  - `_merge_nodes_recursively`;
  - the `<mujoco>` block extraction;
  - the `<compiler>` precedence;
  - the mimic-joint table;
  - the ros2_control interface table.
- `Table` (table.dfy) models a Python dict with values of any type, plus
  the fold that builds one entry by entry.
- `Actuators` (actuators.dfy) models `post_process_add_actuators` and
  `post_process_add_mimic_plugins`.
- `Sections` (sections.dfy) models the smaller MJCF passes:
  - grouping the MujocoRosUtils plugins;
  - the floating base;
  - the simulation options;
  - the floor.
- `Tree`, `AttrList`, `Text` and `Options` are the shared vocabulary:
  - the element tree, paths and child selection;
  - the attribute dictionary;
  - `\w` and `str.strip()`;
  - `Option`.

## Model

| member | source | states |
|---|---|---|
| AttrParser.WordLenRun | urdf2mjcf/mjcf_postprocess.py:57 | The key of a match is the maximal run of word characters (`\w+`): every counted character is a word character and the one after is not. |
| AttrParser.QuoteEndRun | urdf2mjcf/mjcf_postprocess.py:57 | The lazy value `(.*?)` ends at the first closing quote: everything before it is neither that quote nor a newline. |
| AttrParser.QuoteEndAt | urdf2mjcf/mjcf_postprocess.py:57 | Conversely, a quote- and newline-free run followed by the quote is found exactly there. |
| AttrParser.MatchAtSound | urdf2mjcf/mjcf_postprocess.py:57 | Whatever the pair pattern matches at a position is a well-formed token that the text starts with. |
| AttrParser.MatchAtComplete | urdf2mjcf/mjcf_postprocess.py:57 | A text starting with a well-formed token's rendering is matched as exactly that token. |
| AttrParser.ScanSound | urdf2mjcf/mjcf_postprocess.py:57-58 | Every pair `re.findall` returns has a word key and a value free of its quote and of newlines. |
| AttrParser.ScanToken | urdf2mjcf/mjcf_postprocess.py:58 | A token at the front is found, and the scan resumes right after it, so matches never overlap. |
| AttrParser.ScanSkip | urdf2mjcf/mjcf_postprocess.py:58 | A non-word character at the front starts no match and is skipped. |
| AttrParser.ScanWithoutEquals | urdf2mjcf/mjcf_postprocess.py:58 | A string without `=` yields no pair. |
| AttrParser.ScanRoundTrip | urdf2mjcf/mjcf_postprocess.py:57-58 | Rendering well-formed tokens with a non-word separator and scanning the result gives back the same tokens. |
| AttrParser.ParseAttrString | urdf2mjcf/mjcf_postprocess.py:52-70 | The parse is a dict: no key occurs twice. |
| AttrParser.ParseRoundTrip | urdf2mjcf/mjcf_postprocess.py:60-65 | Rendered tokens with distinct keys parse back to their pairs, in order. |
| AttrParser.ParseLastWins | urdf2mjcf/mjcf_postprocess.py:62-65 | When a key repeats, its value is the one written last. |
| AttrParser.ParseWithoutEquals | urdf2mjcf/mjcf_postprocess.py:67-70 | A string without any pair parses to the empty dict. |
| AttrParser.ParseConditional | urdf2mjcf/mjcf_postprocess.py:72-106 | A result exists only when both sides of the first `:` hold pairs, and each side then has unique keys; a string without `:` gives none. |
| AttrParser.ConditionalRoundTrip | urdf2mjcf/mjcf_postprocess.py:79-102 | `conditions:replacements`, written out with `=` and colon-free condition values, parses back to the two pair lists. |
| AttrParser.ConditionWithoutEqualsDropped | urdf2mjcf/mjcf_postprocess.py:80-96 | When the text before the first `:` has no `=`, the whole conditional replacement is dropped. |
| AttrParser.WalrusConditionDropped | urdf2mjcf/mjcf_postprocess.py:80-96 | A single `key:='v'` is split at its own colon, so it never yields a conditional replacement. |
| AttrParser.Reserved | urdf2mjcf/mjcf_postprocess.py:120-121 | A reserved attribute counts as given exactly when it is present and non-empty, and then it has its value. |
| AttrParser.InjectOp | urdf2mjcf/mjcf_postprocess.py:119-131 | An inject of a dict is produced iff the attribute is given and its parse is that dict and non-empty; at most one is produced. |
| AttrParser.ReplaceOp | urdf2mjcf/mjcf_postprocess.py:133-145 | A plain replace of a dict is produced iff the value has no `:` and parses to that non-empty dict. A conditional replace is produced iff the value has a `:` and the conditional parse gives exactly those two lists. At most one is produced. |
| AttrParser.ChildrenOp | urdf2mjcf/mjcf_postprocess.py:147-152 | A child injection with a match dict is produced iff the attribute is given and parses to that non-empty dict; at most one is produced. |
| AttrParser.ParseCustomSyntax | urdf2mjcf/mjcf_postprocess.py:108-154 | At most four operations, in the order inject, replace, inject_children. Every payload is a non-empty dict, and an inject_children operation comes last. |
| AttrParser.ReservedText | urdf2mjcf/mjcf_postprocess.py:120-121 | An attribute that is absent or empty reads as the empty text, and the empty text parses to no pair and no conditional replacement. |
| AttrParser.Decoding | urdf2mjcf/mjcf_postprocess.py:108-154 | Attribute by attribute, the operations are exactly: an inject for each non-empty parse of `inject_attr` and of `inject_attrs`, the `inject_attr` one first and the `inject_attrs` one right after it; a plain replace for a colon-free `replace_attrs` with a non-empty parse, or a conditional replace for one with a `:` whose conditional parse succeeds; a child injection for a non-empty parse of `inject_children`. |
| AttrParser.NoReservedNoOps | urdf2mjcf/mjcf_postprocess.py:117-154 | An element with no reserved attribute set yields no operation. |
| AttrParser.InjectAttrOnly | urdf2mjcf/mjcf_postprocess.py:119-124 | An element whose only reserved attribute is `inject_attr`, holding a pair, yields exactly one inject of its parse. |
| AttrParser.WalrusReplaceIgnored | urdf2mjcf/mjcf_postprocess.py:133-140 | `replace_attrs="k:='v'"` alone yields no operation at all. |
| Applier.ReplaceExisting | urdf2mjcf/mjcf_postprocess.py:169-177 | Replace keeps the key list and the key set. A key present on both sides takes the (last) replacement value; every other key is untouched. |
| Applier.CondReplaceAttrs | urdf2mjcf/mjcf_postprocess.py:179-215 | A failed condition leaves the attributes exactly as they were. Otherwise each key gets its replacement, a condition key without a replacement is gone, and every other key is untouched. |
| Applier.ApplyOp | urdf2mjcf/mjcf_postprocess.py:158-215 | Applying an operation keeps the attributes a dict (unique keys). |
| Applier.ApplyOps | urdf2mjcf/mjcf_postprocess.py:156-215 | Applying the operations in order keeps the attributes a dict. |
| Applier.InjectSets | urdf2mjcf/mjcf_postprocess.py:159-167 | After an inject, each injected key has its injected value (overwriting), and every other key is untouched. |
| Applier.InjectIdempotent | urdf2mjcf/mjcf_postprocess.py:159-167 | Injecting the same pairs twice gives the same dict as injecting them once. |
| Applier.ReplaceKeepsKeys | urdf2mjcf/mjcf_postprocess.py:169-177 | A replace never adds, removes or moves an attribute, and present keys take the replacement value. |
| Applier.CondReplaceAllOrNothing | urdf2mjcf/mjcf_postprocess.py:184-192 | One failed condition, including an absent key, leaves the target unchanged. |
| Applier.CondReplaceOrder | urdf2mjcf/mjcf_postprocess.py:192-211 | When the conditions hold, the result is the target without the condition keys followed by the replacements, so a deleted-then-set key moves to the end. |
| Applier.CondReplaceExample | urdf2mjcf/mjcf_postprocess.py:179-215 | `class='old':class='new'` on `class="old" other="x"` gives `other="x" class="new"`. |
| Tree.DescendantsOrdered | urdf2mjcf/xml_utils.py:108-118 | The descendant walk visits paths in document order: a node before its subtree, a subtree before later siblings. |
| Tree.OrderedUnique | urdf2mjcf/xml_utils.py:108-118 | Two lists in document order with the same members are the same list. |
| Matcher.GlobLiteral | urdf2mjcf/xml_utils.py:77 | A pattern without `*` matches exactly itself. |
| Matcher.GlobStar | urdf2mjcf/xml_utils.py:77 | `*` matches every value. |
| Matcher.GlobPrefix | urdf2mjcf/xml_utils.py:77 | `prefix*` matches exactly the values starting with the prefix. |
| Matcher.GlobAllLiteral | urdf2mjcf/xml_utils.py:105-108 | Without `*` in any pattern value, glob matching coincides with exact matching. |
| Matcher.FindAll | urdf2mjcf/xml_utils.py:108-118 | The results are exactly the descendants of the context (never the context itself) with the tag and every listed attribute, each once, in document order. |
| Matcher.FindAllUnique | urdf2mjcf/xml_utils.py:108-118 | The result is the only list in document order with those members. |
| Matcher.FindFirst | urdf2mjcf/mjcf_postprocess.py:417 | `find` returns such a descendant when there is one, and none only when no descendant qualifies. The one returned comes first in document order. |
| Matcher.FindWithWildcards | urdf2mjcf/xml_utils.py:56-94 | The results are exactly the descendants with the tag that carry every pattern attribute with a glob-matching value, each once, in document order. |
| Matcher.FindMatching | urdf2mjcf/xml_utils.py:96-124 | The results are exactly the descendants the pattern matches, each once, in document order: wildcard mode iff some value holds `*`, and the exact-mode quirks included. |
| Matcher.SeveralLiteralsMatchNothing | urdf2mjcf/xml_utils.py:110-121 | Two or more literal attributes make the rejected query, so the result is `[]`. |
| Matcher.EmptyPatternMatchesNothing | urdf2mjcf/xml_utils.py:99-101 | A pattern with no attributes matches nothing. |
| Placement.EnsureExtension | urdf2mjcf/xml_utils.py:5-24 | An existing `<extension>` is returned with the tree unchanged. Otherwise exactly one new section is inserted: right after `<compiler>`, else right before `<worldbody>`, else last, with the other children keeping their order. |
| Placement.EnsureChildAfter | urdf2mjcf/xml_utils.py:26-39 | An existing section is reused. Otherwise one section is inserted right after the anchor, else first. |
| Placement.EnsureBeforeWorldbody | urdf2mjcf/xml_utils.py:41-54 | An existing section is reused. Otherwise one section is inserted right before `<worldbody>`, else last. |
| Placement.EnsureAfterWorldbody | urdf2mjcf/mjcf_postprocess.py:749-761 | An existing `<actuator>` is reused. Otherwise one is inserted right after `<worldbody>`, else last. |
| Placement.InsertedIsFound | urdf2mjcf/xml_utils.py:7-9 | A section an `ensure_*` call created is the one the next `find` returns. |
| Placement.EnsureExtensionIdempotent | urdf2mjcf/xml_utils.py:7-9 | Ensuring `<extension>` twice is ensuring it once. |
| Placement.EnsureChildAfterIdempotent | urdf2mjcf/xml_utils.py:28-30 | Ensuring a section after an anchor twice is ensuring it once. |
| Placement.EnsureBeforeWorldbodyIdempotent | urdf2mjcf/xml_utils.py:43-45 | Ensuring a section before `<worldbody>` twice is ensuring it once. |
| Placement.EnsureAfterWorldbodyIdempotent | urdf2mjcf/mjcf_postprocess.py:749-750 | Ensuring `<actuator>` after `<worldbody>` twice is ensuring it once. |
| Dispatcher.MatchingAttrs | urdf2mjcf/mjcf_postprocess.py:291-292 | The match pattern is the annotation's attributes minus exactly the four reserved names. |
| Dispatcher.ChildrenMatch | urdf2mjcf/mjcf_postprocess.py:243 | A child-injection operation is found iff one is present, and the result is the match dict of one of them. |
| Dispatcher.InjectChildrenIn | urdf2mjcf/mjcf_postprocess.py:244-286 | Path 1 keeps every existing node (same tag, same path) and inserts nothing at the root. |
| Dispatcher.ApplyOpsIn | urdf2mjcf/mjcf_postprocess.py:289-310 | Path 2 keeps every existing node and inserts nothing at the root. |
| Dispatcher.MergePlain | urdf2mjcf/mjcf_postprocess.py:341-378 | Path 4 keeps every existing node at its path shifted past the reported root insertion. |
| Dispatcher.Process | urdf2mjcf/mjcf_postprocess.py:231-378 | Processing an annotation keeps every existing node at its shifted path, so references the source holds stay valid. What each path changes is stated by `InjectChildrenEffect`, `ApplyOpsInEffect` with `ScopedPath`, `ParentContextEffect` with `ChildInTags`, and the `Merge*Effect` lemmas. |
| Dispatcher.ProcessKids | urdf2mjcf/mjcf_postprocess.py:311-314 | Processing the children in the same scope keeps every node. |
| Dispatcher.ProcessParents | urdf2mjcf/mjcf_postprocess.py:319-339 | Processing under each matching parent, in turn, keeps every node. |
| Dispatcher.ProcessChildrenIn | urdf2mjcf/mjcf_postprocess.py:326-335 | Processing or appending each child under one parent keeps every node. |
| Dispatcher.InjectAll | urdf2mjcf/mjcf_postprocess.py:381-382 | Processing every annotation in turn keeps every node. |
| Dispatcher.InjectCustomElements | urdf2mjcf/mjcf_postprocess.py:221-226 | With no annotations the document is unchanged, and the root is never replaced. |
| Dispatcher.FoundBelow | urdf2mjcf/mjcf_postprocess.py:251-262 | A search from the scope finds exactly the nodes strictly below the scope that satisfy the match. |
| Dispatcher.InjectChildrenEffect | urdf2mjcf/mjcf_postprocess.py:243-286 | inject_children changes no attribute and inserts nothing at the root. It appends the annotation's children, in order, to exactly the nodes below the scope with its tag and every match attribute. |
| Dispatcher.ApplyOpsEffect | urdf2mjcf/mjcf_postprocess.py:289-314 | For an annotation with operations but without children: the operations are applied to exactly the nodes below the scope that the non-reserved attributes match, nothing is inserted at the root, and every other node's attributes, and every child count, are unchanged. |
| Dispatcher.ApplyOpsInEffect | urdf2mjcf/mjcf_postprocess.py:289-309 | For any annotation, children or not: the operations are applied to exactly the nodes below the scope that the non-reserved attributes match; every other node's attributes, and every child count, are unchanged. |
| Dispatcher.ScopedPath | urdf2mjcf/mjcf_postprocess.py:289-314 | With operations other than `inject_children`, the result is applying them and then processing every child of the annotation in the same scope. |
| Dispatcher.ParentPath | urdf2mjcf/mjcf_postprocess.py:316-321 | Without operations but with a child that has some, the annotation is processed under each of its matches in the whole document, in document order. |
| Dispatcher.AppendCopy | urdf2mjcf/mjcf_postprocess.py:333-334 | Appending a copy to a parent keeps every node and inserts nothing at the root. |
| Dispatcher.AppendCopyEffect | urdf2mjcf/mjcf_postprocess.py:333-334 | The parent's children become the old ones followed by the copy. Every other node keeps its attributes and its number of children, and every node keeps its tag. |
| Dispatcher.ChildInTags | urdf2mjcf/mjcf_postprocess.py:326-334 | One child under one parent: when it carries attribute operations only, no node gains a child, and its operations apply to exactly the nodes strictly below that parent that its own pattern matches; every other node keeps its attributes. When plain, only the parent gains one child, with the child's tag, at the end, and no attribute changes. |
| Dispatcher.ChildrenInEffect | urdf2mjcf/mjcf_postprocess.py:326-334 | Under one parent, the parent gains exactly the plain children, by tag and in order, and no other node gains a child. A node not strictly below the parent keeps its attributes. |
| Dispatcher.ParentsEffect | urdf2mjcf/mjcf_postprocess.py:322-334 | Over distinct parents, exactly the parents gain the plain children, by tag and in order. A node strictly below none of the parents keeps its attributes. |
| Dispatcher.ParentContextEffect | urdf2mjcf/mjcf_postprocess.py:316-339 | Path 3, when the children with operations carry attribute operations only: nothing is inserted at the root and every node keeps its tag. A node gains the plain children, by tag and in order, iff the annotation matches it somewhere in the document; every other node's children keep their tags. A node strictly below none of the matched nodes keeps its attributes, so the children with operations act only inside the matched subtrees. |
| Dispatcher.PlainPath | urdf2mjcf/mjcf_postprocess.py:316-342 | An annotation with no operations, and no children that have any, takes the plain-merge path. |
| Dispatcher.MergeMatchedEffect | urdf2mjcf/mjcf_postprocess.py:342-361 | Every global match gets the annotation's attributes (overwriting) and copies of its children. Nothing else changes and nothing is inserted at the root. |
| Dispatcher.MergeCreatesEffect | urdf2mjcf/mjcf_postprocess.py:363-378 | With no match and no root child of the tag, the annotation is inserted as a new root child right before `<worldbody>` (last without one), and that insertion is reported. |
| Dispatcher.MergeExistingEffect | urdf2mjcf/mjcf_postprocess.py:363-378 | With no match but a root child of the tag, the first such child takes the attributes and the children. |
| Dispatcher.UnmatchedParentNoChange | urdf2mjcf/mjcf_postprocess.py:319-339 | A parent annotation that matches nothing changes nothing. |
| Preprocess.FindEquivalent | urdf2mjcf/urdf_preprocess.py:250-257 | A child from the given position on that is equivalent to the incoming one (same tag, equal attribute dicts, equal stripped text); none only when no such child is equivalent. |
| Preprocess.MergeChild | urdf2mjcf/urdf_preprocess.py:248-270 | Merging a child keeps the node's own tag, attributes and text. With no equivalent child, the incoming one is appended. With one, the number of children stays: two equivalent leaves leave the node as it was; otherwise the first equivalent child is taken out, the others keep their order, and a child equivalent to the incoming one goes last. |
| Preprocess.MergeNodes | urdf2mjcf/urdf_preprocess.py:235-244 | No nodes give none; a single node gives that node itself. Otherwise the result carries the first node's tag, attributes and text. |
| Preprocess.MergeIntoSelfLeaves | urdf2mjcf/urdf_preprocess.py:248-270 | Merging the leaf children of a node into that same node changes nothing. |
| Preprocess.MergeSelfLeaves | urdf2mjcf/urdf_preprocess.py:235-272 | A block given twice whose children are all leaves merges to itself: no leaf is duplicated. |
| Preprocess.MergeChildAppends | urdf2mjcf/urdf_preprocess.py:268-270 | A child equivalent to no existing child is appended unchanged and overwrites nothing. |
| Preprocess.MergeChildCoversNew | urdf2mjcf/urdf_preprocess.py:259-270 | After merging, some child is equivalent to the incoming one: the appended copy, the merged child moved to the end, or the untouched leaf. |
| Preprocess.MergeChildKeeps | urdf2mjcf/urdf_preprocess.py:259-266 | A child that was represented stays represented when its equivalent is taken out and re-appended merged. |
| Preprocess.MergeChildCovers | urdf2mjcf/urdf_preprocess.py:248-270 | One merge step covers the incoming child and keeps everything covered before. |
| Preprocess.MergeChildMerges | urdf2mjcf/urdf_preprocess.py:259-266 | When the equivalent child or the incoming one has children, the child that goes last has the equivalent child's tag, attributes and text, and covers every child of either: the two are merged recursively, not just moved. |
| Preprocess.MergeIntoCovers | urdf2mjcf/urdf_preprocess.py:248-270 | Merging one node's children covers each of them and keeps what was covered. |
| Preprocess.MergeFromCovers | urdf2mjcf/urdf_preprocess.py:247-270 | Merging every further node covers each of their children. |
| Preprocess.MergeNodesCovers | urdf2mjcf/urdf_preprocess.py:235-272 | Every child of every merged node has an equivalent child in the merge. |
| Preprocess.ConfigureCompiler | urdf2mjcf/urdf_preprocess.py:593-613 | Each compiler setting is the last option naming it, else the node's own value, else the converter default. A key none of them names stays absent, and the node keeps its tag, text and children. |
| Preprocess.OptionOverrides | urdf2mjcf/urdf_preprocess.py:603-606 | A final `KEY=VALUE` option decides the key, whatever the node or the defaults say. |
| Preprocess.MalformedOptionSkipped | urdf2mjcf/urdf_preprocess.py:607-610 | An option without `=` changes nothing. |
| Preprocess.MujocoBlock | urdf2mjcf/urdf_preprocess.py:549-566 | The merged block, or the fresh one, is a `<mujoco>` element. |
| Preprocess.WithCompiler | urdf2mjcf/urdf_preprocess.py:568-572 | The block's first `<compiler>`, appended when missing; no earlier child is a compiler. |
| Preprocess.ExtractMujoco | urdf2mjcf/urdf_preprocess.py:549-583 | The block goes first and the other root children are the non-`<mujoco>` ones. The block keeps only compilers, the first one configured. Every non-compiler child of the block lands in the elements when it is not a `<plugin>` and in the plugins when it is; the order is stated by ExtractOrder. |
| Preprocess.ExtractOrder | urdf2mjcf/urdf_preprocess.py:549-583 | In order: the root children after the block are the root's non-`<mujoco>` children; the elements are the block's non-compiler children that are not plugins, and the plugins its non-compiler `<plugin>` children. |
| Preprocess.ExtractPartition | urdf2mjcf/urdf_preprocess.py:574-583 | Elements and plugins split the block's non-compiler children: each lands in exactly one of the two, as often as it occurs. |
| Preprocess.NoMujocoBlock | urdf2mjcf/urdf_preprocess.py:563-572 | Without a `<mujoco>` child, a fresh block holding only a configured compiler goes first, and nothing is extracted. |
| Preprocess.MimicEntries | urdf2mjcf/urdf_preprocess.py:621-633 | One possible entry per joint, in document order. |
| Preprocess.MimicNames | urdf2mjcf/urdf_preprocess.py:620-633 | A joint name is in the mimic table iff some joint of that name has a `<mimic>` naming a non-empty leader. |
| Preprocess.MimicNonEmpty | urdf2mjcf/urdf_preprocess.py:628 | No entry has an empty follower or leader name. |
| Preprocess.MimicLastWins | urdf2mjcf/urdf_preprocess.py:629-633 | The entry under a name is the one from the last joint that writes it. |
| Preprocess.MimicDefaults | urdf2mjcf/urdf_preprocess.py:622-633 | For any named joint whose first `<mimic>` names a leader and has neither `multiplier` nor `offset`, the entry is that joint's name with that leader, multiplier `1.0` and offset `0.0`. |
| Preprocess.Interfaces | urdf2mjcf/urdf_preprocess.py:646-650 | A joint's interface set holds exactly the non-empty names of its `<command_interface>` children: the `name` attribute, else the stripped text. |
| Preprocess.ControlJoints | urdf2mjcf/urdf_preprocess.py:641-642 | The joints considered are exactly the `<joint>` children of the `<ros2_control>` nodes. |
| Preprocess.ControlJointsConcat | urdf2mjcf/urdf_preprocess.py:641-642 | The joints come block by block, in document order: those of earlier `<ros2_control>` nodes first, and within a node its `<joint>` children in order. |
| Preprocess.InterfaceEntry | urdf2mjcf/urdf_preprocess.py:643-652 | A joint yields an entry only with a non-empty name and at least one interface. |
| Preprocess.InterfaceKeys | urdf2mjcf/urdf_preprocess.py:640-652 | A name is a key iff some joint of that name has an interface. |
| Preprocess.InterfaceNonEmpty | urdf2mjcf/urdf_preprocess.py:644-652 | Keys are non-empty names, and their sets are non-empty. |
| Preprocess.InterfaceLastWins | urdf2mjcf/urdf_preprocess.py:651-652 | The entry under a name is the interface set of the last joint that writes it. |
| Preprocess.PreprocessUrdf | urdf2mjcf/urdf_preprocess.py:549-658 | The document, elements and plugins are those of the `<mujoco>` extraction, and the two tables are built from that document: the mimic table from its joints and the interface table from its `<ros2_control>` joints. The block goes first. Both tables have only non-empty keys, with a leader for every follower and an interface for every controlled joint. |
| Preprocess.MimicTableNames | urdf2mjcf/urdf_preprocess.py:620-633 | A name is a key of the mimic table iff some `<joint>` of the document has that name and a `<mimic>` with a non-empty leader. |
| Preprocess.InterfaceTableNames | urdf2mjcf/urdf_preprocess.py:640-653 | A name is a key of the interface table iff some `<joint>` child of a `<ros2_control>` node has that name and at least one command interface. |
| Table.Lookup | urdf2mjcf/urdf_preprocess.py:652 | A lookup hits exactly the names the dict holds. |
| Table.Put | urdf2mjcf/urdf_preprocess.py:652 | `d[k] = v` makes `k` map to `v` and leaves every other key as it was. An existing key keeps its place; a new key is appended. |
| Table.FromEntriesNames | urdf2mjcf/urdf_preprocess.py:620-633 | A dict built entry by entry holds exactly the names some item yields. |
| Table.FromEntriesValues | urdf2mjcf/urdf_preprocess.py:640-652 | Every value in such a dict is one some item yielded under that name. |
| Table.FromEntriesLast | urdf2mjcf/urdf_preprocess.py:629 | The value under a name is the one the last item yielding that name wrote. |
| Table.FromEntriesDistinct | urdf2mjcf/urdf_preprocess.py:629 | A dict built entry by entry never holds a name twice. |
| Actuators.DeclareOnce | urdf2mjcf/mjcf_postprocess.py:738-745 | Afterwards the extension declares the plugin. If it already did, nothing changes; otherwise one declaration is appended and no other section changes. |
| Actuators.DeclareOnceIdempotent | urdf2mjcf/mjcf_postprocess.py:738-745 | The plugin is declared at most once, however often the pass runs. |
| Actuators.DeclareActuatorCommand | urdf2mjcf/mjcf_postprocess.py:651-663 | The ActuatorCommand plugin is declared in `<extension>`, and the actuator section is still found where it moved to. |
| Actuators.Kinds | urdf2mjcf/mjcf_postprocess.py:676-683 | The kinds are exactly the interfaces among position and velocity, position first. |
| Actuators.ActuatedPaths | urdf2mjcf/mjcf_postprocess.py:630-635 | A node below the worldbody is chosen iff it is a `<joint>` that is not free and is named in the interface table; the choice is in document order. |
| Actuators.ActuatedJoints | urdf2mjcf/mjcf_postprocess.py:630-635 | Every joint chosen is not free and is named in the interface table, and every such joint below the worldbody is chosen, in document order. |
| Actuators.AddActuators | urdf2mjcf/mjcf_postprocess.py:613-639 | Without a worldbody, with an empty table, or with no actuatable joint, the model is unchanged. |
| Actuators.AddActuatorsSection | urdf2mjcf/mjcf_postprocess.py:641-724 | When the pass acts, the `<actuator>` section holds its previous children (none when created) followed by every actuated joint's actuators. |
| Actuators.AddActuatorsDeclares | urdf2mjcf/mjcf_postprocess.py:651-663 | With ROS plugins on, the `<extension>` section ends up declaring the ActuatorCommand plugin. |
| Actuators.JointActuatorAt | urdf2mjcf/mjcf_postprocess.py:688-709 | Every actuator of a joint drives that (named) joint with a kind its interfaces ask for. |
| Actuators.JointActuatorsDrive | urdf2mjcf/mjcf_postprocess.py:668-709 | A joint's contribution holds a `kind` actuator driving `n` iff the joint is named `n` (non-empty) and has that interface. |
| Actuators.ActuatorsForIff | urdf2mjcf/mjcf_postprocess.py:668-712 | Over all actuated joints, a `kind` actuator drives `n` iff some joint is named `n` and the table gives `n` that interface. |
| Actuators.ActuatorKinds | urdf2mjcf/mjcf_postprocess.py:676-683 | A joint gets an actuator of a kind iff it is named and lists that interface. |
| Actuators.ActuatorNaming | urdf2mjcf/mjcf_postprocess.py:685-693 | Actuator names are `{j}_{kind}` with two kinds or forced suffixes, else `{j}`, and each actuator drives `j`. |
| Actuators.ActuatorNamesDistinct | urdf2mjcf/mjcf_postprocess.py:686-689 | The actuators of one joint have pairwise different names. |
| Actuators.ActuatorGain | urdf2mjcf/mjcf_postprocess.py:694-698 | Position actuators carry `kp` = the first gain; velocity actuators carry `kv` = the second. |
| Actuators.LimitsCopied | urdf2mjcf/mjcf_postprocess.py:700-707 | `ctrlrange` is the joint's `range`, and `forcerange` its `actuatorfrcrange`. `forcelimited` is present exactly when the latter is. |
| Actuators.CommandPluginIff | urdf2mjcf/mjcf_postprocess.py:714-723 | A joint's command plugin follows its actuators iff ROS plugins are on and the joint is not a mimic. |
| Actuators.TwoInterfacesExample | urdf2mjcf/mjcf_postprocess.py:678-709 | A joint `j` with a range and both interfaces gets `j_position`, then `j_velocity`, with gains and control range. |
| Actuators.MimicStep | urdf2mjcf/mjcf_postprocess.py:769-824 | One mimic entry leaves a position actuator for the follower and ends with its MimicJoint entry. It adds one element when the follower had a position actuator and two otherwise, and never changes earlier children. |
| Actuators.MimicLoop | urdf2mjcf/mjcf_postprocess.py:769-824 | After the loop, every follower has a position actuator and its MimicJoint entry, and earlier children are kept. Every added element is a follower's position actuator or its MimicJoint entry, and with distinct followers each entry is added exactly once. |
| Actuators.AddMimicPlugins | urdf2mjcf/mjcf_postprocess.py:732-824 | No mimic joints leave the model unchanged. Otherwise `<extension>` declares the MimicJoint plugin and an `<actuator>` section holds the entries of the first `<actuator>` section as a prefix. After them come, for every follower, a position actuator and its MimicJoint entry, each entry exactly once, and nothing else. The root's children other than `<extension>` and `<actuator>` sections are the same, in the same order. |
| Actuators.MimicEntriesStep | urdf2mjcf/mjcf_postprocess.py:769-824 | Adding one follower's position actuators and MimicJoint entry before the later followers' additions keeps every addition accounted for, and each entry still occurs once. |
| Actuators.MimicTableDistinct | urdf2mjcf/urdf_preprocess.py:620-633 | The followers in the mimic table are pairwise distinct. |
| Actuators.MimicSetup | urdf2mjcf/mjcf_postprocess.py:737-761 | Before the loop, the `<actuator>` section the pass fills holds exactly the entries of the first existing one, none when it is new, and the other sections are untouched. |
| Actuators.MimicOffsetIff | urdf2mjcf/mjcf_postprocess.py:808-823 | The offset config is present iff the offset is not zero. |
| Actuators.MimicKeepsExistingPosition | urdf2mjcf/mjcf_postprocess.py:770-775 | A follower that already has a position actuator gets only its MimicJoint entry. |
| Actuators.MimicPositionName | urdf2mjcf/mjcf_postprocess.py:776-785 | A created position actuator is named after the follower, or `{j}_position` when that name is taken, and it drives the follower with `kp`. |
| Sections.GroupRosUtilsPlugins | urdf2mjcf/mjcf_postprocess.py:538-559 | Without `<extension>` nothing changes. Otherwise its children are regrouped, with no other section touched. |
| Sections.GroupedPermutation | urdf2mjcf/mjcf_postprocess.py:551-559 | Regrouping is a permutation: no child is added, dropped or duplicated. |
| Sections.GroupedStable | urdf2mjcf/mjcf_postprocess.py:544-559 | Both the MujocoRosUtils plugins and the other children keep their relative order. |
| Sections.GroupedAtEnd | urdf2mjcf/mjcf_postprocess.py:557-559 | After regrouping, no other child follows a MujocoRosUtils plugin. |
| Sections.GroupedIdempotent | urdf2mjcf/mjcf_postprocess.py:538-559 | Regrouping twice is regrouping once. |
| Sections.Floating | urdf2mjcf/mjcf_postprocess.py:566-575 | The base body's children are the old ones followed by `<joint name="root" type="free">` exactly when it had no free joint. A missing position becomes `0 0 {height}`, an existing one is never overwritten, and the other attributes are kept. |
| Sections.FloatingIdempotent | urdf2mjcf/mjcf_postprocess.py:568-575 | Making a floating body floating again changes nothing. |
| Sections.MakeBaseFloating | urdf2mjcf/mjcf_postprocess.py:562-575 | The pass keeps the root tag and the number of sections. |
| Sections.MakeBaseFloatingLocal | urdf2mjcf/mjcf_postprocess.py:564-575 | Only the first body of the first worldbody changes. |
| Sections.MakeBaseFloatingIdempotent | urdf2mjcf/mjcf_postprocess.py:562-575 | Running the pass twice is running it once. |
| Sections.SetIfGiven | urdf2mjcf/mjcf_postprocess.py:603-608 | A given setting is written, and nothing else changes. |
| Sections.SetSimulationOptions | urdf2mjcf/mjcf_postprocess.py:597-598 | With neither setting given, nothing changes. |
| Sections.SimulationOptionsSet | urdf2mjcf/mjcf_postprocess.py:599-608 | The `<option>` section `find` returns holds each given setting and keeps its other attributes. |
| Sections.SimulationOptionsIdempotent | urdf2mjcf/mjcf_postprocess.py:595-610 | Setting the options twice is setting them once. |
| Sections.AddFloor | urdf2mjcf/mjcf_postprocess.py:415-420 | With a geom named `floor` anywhere, nothing changes; the root keeps its tag. |
| Sections.AddFloorAssets | urdf2mjcf/mjcf_postprocess.py:421-450 | The asset section (created before `<worldbody>` when missing) ends with the checker texture and then the floor material. |
| Sections.WorldbodyKept | urdf2mjcf/mjcf_postprocess.py:421-452 | Adding the asset section keeps a `<worldbody>` to find. |
| Sections.GeomAppendedIsFloor | urdf2mjcf/mjcf_postprocess.py:453-462 | The appended plane is found by the floor search. |
| Sections.AddFloorLeavesFloor | urdf2mjcf/mjcf_postprocess.py:451-462 | With a `<worldbody>`, the result has a floor geom. |
| Sections.AddFloorPlacement | urdf2mjcf/mjcf_postprocess.py:421-462 | Without a floor, the plane is appended to the first `<worldbody>`, which keeps its tag, attributes, text and earlier children; every root child other than `<asset>` and `<worldbody>` is unchanged, in order. |
| Sections.GeomPlaced | urdf2mjcf/mjcf_postprocess.py:451-462 | Appending the plane keeps the first `<worldbody>` first and touches no other section. |
| Sections.FloorAssetsKeepSections | urdf2mjcf/mjcf_postprocess.py:421-450 | Placing the floor assets keeps the `<worldbody>` sections and every section other than `<asset>`. |
| Sections.AddFloorIdempotent | urdf2mjcf/mjcf_postprocess.py:417-420 | With a `<worldbody>`, running the pass twice is running it once. |

## Left out

- Mesh tooling (`urdf2mjcf/tools`, `mesh_ops.py`): file I/O and floating-point geometry.
- Orchestration (`converter.py`, `cli.py`, `convert.py`): subprocesses, MuJoCo loading and argument parsing. The passes are modelled by their own signatures.
- `resolve_path` and `post_process_transform_and_add_custom_plugin`: they depend on the environment and the filesystem.
- The mesh-path bookkeeping of `preprocess_urdf`: file existence checks and DAE extraction.
- Inertia and damping arithmetic (`zero_inertial_orientation`, `post_process_damping_multiplier`): float arithmetic.
- `post_process_add_materials`, `post_process_add_light`, the clock and ros2_control plugin passes, gravity compensation and armature: outside the modelled core.
- `post_process_compiler_options`: it copies a node's attributes onto itself, so it is a no-op.
- Logging (`_utils.py`): every warning and debug message is dropped, since none affects the tree.
- Text after an element (the `tail`): not represented. An element's text is the empty string when absent.
- Glob classes `?` and `[...]` and case folding in `fnmatch`: only `*` is special, and matching is case-sensitive.
- `\w` is ASCII only: non-ASCII word characters in keys are not recognised.
- XPath queries built from values containing `'`: the source's query text breaks; the model compares the values directly.
- Gains, heights and mimic offsets are opaque strings. Python's `str(float)` formatting and the `float()` conversion (including its ValueError) are not modelled. The non-zero offset test is the parameter `nonZero`.
- Sections.SetSimulationOptions: a missing solver or integrator is the empty string, which the source treats as not given just like `None`.
- Sections.MakeBaseFloating: the height is the string written after `0 0 `.
- Sections.AddFloorIdempotent: requires a `<worldbody>`. Without one the source appends the texture and material again on every run, and the model does the same.
- Actuators.AddMimicPlugins: the joint a created position actuator copies limits from is looked up in the tree before the loop. The loop adds no `<joint>`, so the source's lookup finds the same node.
- Actuators.AddActuators: its contract states only the no-change cases. What the pass adds is stated by `AddActuatorsSection`, `AddActuatorsDeclares` and `ActuatorsForIff`.
- Sections.MakeBaseFloating: its contract states only the shape. What changes is stated by `MakeBaseFloatingLocal` and `Floating`.
- Dispatcher.InjectCustomElements: its contract states only the empty case and the root tag. The effect of one annotation is stated per path by `InjectChildrenEffect`, `ApplyOpsInEffect` with `ScopedPath`, `ParentContextEffect` and the `Merge*Effect` lemmas.
- Dispatcher.ParentContextEffect: stated only when every child with operations carries attribute operations and no children of its own. A child that injects children or nests further annotations can itself take path 4 and insert a section at the root, and stating that recursion is left to `Keeps`.
- Dispatcher.Process: on path 3, which attributes a child with operations sets is stated per matched parent by `ChildInTags`; `ParentContextEffect` composes only the frame (nothing outside the matched subtrees changes), not the combined result of several such children on one node.
- Dispatcher.ParentContextEffect: it states the tags of the appended children, not the copies themselves, because a later child with operations may edit the attributes of an earlier copy under the same parent.
- Dispatcher.ApplyOpsEffect: stated for an annotation without children. With children, `ScopedPath` gives the result as `ApplyOpsIn` followed by `ProcessKids` in the same scope, and `ApplyOpsInEffect` states the first half.
- ElementTree's `remove`, which the merge (urdf2mjcf/urdf_preprocess.py:265), the extraction of the `<mujoco>` and `<compiler>` blocks (urdf2mjcf/urdf_preprocess.py:560, 577) and the plugin regrouping (urdf2mjcf/mjcf_postprocess.py:554) call, finds the node to remove by identity. The model removes by position instead, so removing a node never removes an equal copy elsewhere.

=== FILE: actuators.dfy ===
/**
 * Generating the MJCF `<actuator>` section from what the URDF pass read:
 * one actuator per ros2_control command interface a joint declares
 * (`post_process_add_actuators`), and a position actuator plus a
 * MimicJoint plugin per mimic joint (`post_process_add_mimic_plugins`).
 * Gains and offsets are kept as the strings the converter writes.
 */
module Actuators {

  import opened Options
  import opened AttrList
  import opened Tree
  import opened Matcher
  import opened Placement
  import opened Table
  import opened Preprocess

  const ActuatorCommand: string := "MujocoRosUtils::ActuatorCommand"
  const MimicJoint: string := "MujocoRosUtils::MimicJoint"

  // ---------------------------------------------------------------------
  // Plugin declarations under `<extension>`
  // ---------------------------------------------------------------------

  /** A direct `<plugin>` child of `ext` names plugin `name`. */
  predicate Declared(ext: Element, name: string) {
    exists c :: c in ext.children && c.tag == "plugin" && Get(c.attrs, "plugin") == Some(name)
  }

  /** Declares plugin `name`, with children `kids`, in the extension at index `x` unless it is declared there already. */
  function DeclareOnce(root: Element, x: nat, name: string, kids: seq<Element>): (r: Element)
    requires x < |root.children|
    ensures |r.children| == |root.children| && r.tag == root.tag
    ensures forall j :: 0 <= j < |root.children| && j != x ==> r.children[j] == root.children[j]
    ensures r.children[x].tag == root.children[x].tag
    ensures Declared(r.children[x], name)
    ensures Declared(root.children[x], name) ==> r == root
    ensures !Declared(root.children[x], name) ==>
      r.children[x].children == root.children[x].children + [Element("plugin", [("plugin", name)], "", kids)]
  {
    if Declared(root.children[x], name) then root
    else
      var p := Element("plugin", [("plugin", name)], "", kids);
      var r := AppendTo(root, x, [p]);
      assert p in r.children[x].children;
      r
  }

  /** Child `x` of the root is an `<extension>` section declaring plugin `name`. */
  predicate ExtensionDeclares(root: Element, x: int, name: string) {
    0 <= x < |root.children| && root.children[x].tag == "extension" && Declared(root.children[x], name)
  }

  /** Declaring the same plugin twice declares it once. */
  lemma DeclareOnceIdempotent(root: Element, x: nat, name: string, kids: seq<Element>)
    requires x < |root.children|
    ensures DeclareOnce(DeclareOnce(root, x, name, kids), x, name, kids) == DeclareOnce(root, x, name, kids)
  {
  }

  // ---------------------------------------------------------------------
  // Actuators from command interfaces
  // ---------------------------------------------------------------------

  /**
   * What the caller passes in: the ros2_control instance name, whether to
   * add ROS plugins, the default position and velocity gains as written,
   * and whether every actuator name carries its kind.
   */
  datatype ActuatorConfig = ActuatorConfig(instance: string, addRos: bool, kp: string, kv: string, forceSuffix: bool)

  /** The actuator kinds a joint's command interfaces ask for, position before velocity. */
  function Kinds(ifs: set<string>): (r: seq<string>)
    ensures forall t :: t in r <==> t in ifs && (t == "position" || t == "velocity")
    ensures |r| <= 2 && (|r| == 2 ==> r == ["position", "velocity"])
  {
    (if "position" in ifs then ["position"] else []) + (if "velocity" in ifs then ["velocity"] else [])
  }

  /** Control and force limits copied from a joint: `range` becomes `ctrlrange`; `actuatorfrcrange` becomes a force limit. */
  function LimitAttrs(joint: Element): Attrs {
    (match Get(joint.attrs, "range") case Some(v) => [("ctrlrange", v)] case None => [])
    + (match Get(joint.attrs, "actuatorfrcrange")
       case Some(v) => [("forcelimited", "true"), ("forcerange", v)]
       case None => [])
  }

  /** The name of joint `n`'s actuator of kind `kind`. */
  function ActuatorName(n: string, kind: string, suffix: bool): string {
    if suffix then n + "_" + kind else n
  }

  /** One actuator of kind `kind` on the joint named `n`. */
  function Actuator(joint: Element, n: string, kind: string, suffix: bool, cfg: ActuatorConfig): Element {
    var gain := if kind == "position" then ("kp", cfg.kp) else ("kv", cfg.kv);
    NewElement(kind, [("name", ActuatorName(n, kind, suffix)), ("joint", n), gain] + LimitAttrs(joint))
  }

  /** The ActuatorCommand plugin entry that hands joint `n` to ros2_control. */
  function CommandPlugin(n: string, instance: string): Element {
    NewElement("plugin", [("plugin", ActuatorCommand), ("joint", n), ("instance", instance)])
  }

  /**
   * What one joint contributes: an actuator per kind its interfaces ask for
   * (named after the joint, with the kind appended when there are two kinds
   * or the caller forces it), then, with ROS plugins on and the joint not a
   * mimic, its command plugin. A joint without a name or without a
   * position or velocity interface contributes nothing.
   */
  function JointActuators(joint: Element, ifs: set<string>, isMimic: bool, cfg: ActuatorConfig): (r: seq<Element>)
    ensures |r| <= 3
  {
    var n := GetOr(joint.attrs, "name", "");
    var kinds := Kinds(ifs);
    if n == "" || |kinds| == 0 then []
    else
      var suffix := |kinds| > 1 || cfg.forceSuffix;
      seq(|kinds|, i requires 0 <= i < |kinds| => Actuator(joint, n, kinds[i], suffix, cfg))
      + (if cfg.addRos && !isMimic then [CommandPlugin(n, cfg.instance)] else [])
  }

  /** A joint of the kinematic tree that gets actuators: not free, and named in the interface table. */
  predicate IsActuatable(j: Element, ifaces: Table<set<string>>) {
    Get(j.attrs, "type") != Some("free") && Has(j.attrs, "name") && Get(j.attrs, "name").value in Names(ifaces)
  }

  function ActuatableIn(ifaces: Table<set<string>>): Element -> bool {
    (j: Element) => IsActuatable(j, ifaces)
  }

  /** The interfaces the table lists for joint `n`, none when absent. */
  function InterfacesOf(ifaces: Table<set<string>>, n: string): set<string> {
    match Lookup(ifaces, n) case Some(s) => s case None => {}
  }

  /** Every joint's contribution, in joint order. */
  function ActuatorsFor(joints: seq<Element>, cfg: ActuatorConfig, mimic: set<string>, ifaces: Table<set<string>>): seq<Element>
    decreases |joints|
  {
    if |joints| == 0 then []
    else
      var n := GetOr(joints[0].attrs, "name", "");
      JointActuators(joints[0], InterfacesOf(ifaces, n), n in mimic, cfg) + ActuatorsFor(joints[1..], cfg, mimic, ifaces)
  }

  /** `ensure_extension_node` then the ActuatorCommand declaration; returns the root and where its child `a` moved. */
  function DeclareActuatorCommand(root: Element, a: nat, instance: string): (r: (Element, nat))
    requires a < |root.children| && root.children[a].tag != "extension"
    ensures r.1 < |r.0.children| && r.0.children[r.1] == root.children[a]
    ensures ExtensionDeclares(r.0, EnsureExtension(root).1, ActuatorCommand)
  {
    var (r1, x) := EnsureExtension(root);
    var b := AfterExtension(root, a);
    (DeclareOnce(r1, x, ActuatorCommand, [NewElement("instance", [("name", instance)])]), b)
  }

  /** The paths, below the worldbody `wb` and in document order, of the joints that get actuators. */
  function ActuatedPaths(wb: Element, ifaces: Table<set<string>>): (ps: seq<Path>)
    ensures InDocumentOrder(ps)
    ensures forall p :: p in ps <==>
      |p| > 0 && ValidPath(wb, p) && At(wb, p).tag == "joint" && IsActuatable(At(wb, p), ifaces)
  {
    Filter(wb, FindAll(wb, "joint", []), ActuatableIn(ifaces))
  }

  /** The joints under the worldbody `wb`, in document order, that get actuators. */
  function ActuatedJoints(wb: Element, ifaces: Table<set<string>>): (r: seq<Element>)
    ensures forall j :: j in r ==> j.tag == "joint" && IsActuatable(j, ifaces)
    ensures forall p :: |p| > 0 && ValidPath(wb, p) && At(wb, p).tag == "joint" && IsActuatable(At(wb, p), ifaces) ==> At(wb, p) in r
    ensures var ps := ActuatedPaths(wb, ifaces); |r| == |ps| && forall k :: 0 <= k < |r| ==> r[k] == At(wb, ps[k])
  {
    var ps := ActuatedPaths(wb, ifaces);
    var r := Nodes(wb, ps);
    forall p | |p| > 0 && ValidPath(wb, p) && At(wb, p).tag == "joint" && IsActuatable(At(wb, p), ifaces)
      ensures At(wb, p) in r
    {
      var k :| 0 <= k < |ps| && ps[k] == p;
      assert r[k] == At(wb, p);
    }
    forall j | j in r ensures j.tag == "joint" && IsActuatable(j, ifaces) {
      var k :| 0 <= k < |r| && r[k] == j;
      assert ps[k] in ps;
    }
    r
  }

  /** The children of the root's first `<actuator>` section, none when it has none. */
  function PriorActuators(root: Element): seq<Element> {
    match FindChild(root, "actuator")
    case Some(i) => root.children[i].children
    case None => []
  }

  /** Child `a` of the root is an `<actuator>` section holding exactly `kids`. */
  predicate SectionHolds(root: Element, a: int, kids: seq<Element>) {
    0 <= a < |root.children| && root.children[a].tag == "actuator" && root.children[a].children == kids
  }

  /**
   * `post_process_add_actuators`. Nothing happens without a `<worldbody>`,
   * with an empty interface table, or when no non-free joint under the
   * worldbody is named in the table. Otherwise the `<actuator>` section
   * (created right after `<worldbody>` when missing) receives every
   * joint's actuators, after the ActuatorCommand plugin is declared when
   * ROS plugins are on.
   */
  function AddActuators(root: Element, cfg: ActuatorConfig, mimic: set<string>, ifaces: Table<set<string>>): (r: Element)
    ensures r.tag == root.tag
    ensures FindChild(root, "worldbody").None? || |ifaces| == 0 ==> r == root
    ensures FindChild(root, "worldbody").Some? && |ActuatedJoints(root.children[FindChild(root, "worldbody").value], ifaces)| == 0 ==> r == root
  {
    match FindChild(root, "worldbody")
    case None => root
    case Some(w) =>
      var joints := ActuatedJoints(root.children[w], ifaces);
      if |ifaces| == 0 || |joints| == 0 then root
      else FillActuators(root, joints, cfg, mimic, ifaces)
  }

  /** The acting half of `AddActuators`: place the section, declare the plugin, append the joints' actuators. */
  function FillActuators(root: Element, joints: seq<Element>, cfg: ActuatorConfig, mimic: set<string>, ifaces: Table<set<string>>)
    : (r: Element)
    ensures r.tag == root.tag
  {
    var (r1, a) := EnsureAfterWorldbody(root, "actuator");
    var (r2, a2) := if cfg.addRos then DeclareActuatorCommand(r1, a, cfg.instance) else (r1, a);
    AppendTo(r2, a2, ActuatorsFor(joints, cfg, mimic, ifaces))
  }

  /**
   * When the pass acts, the `<actuator>` section ends up holding what it
   * held before (nothing when it was created) followed by every actuated
   * joint's actuators.
   */
  lemma AddActuatorsSection(root: Element, cfg: ActuatorConfig, mimic: set<string>, ifaces: Table<set<string>>, w: nat)
    requires FindChild(root, "worldbody") == Some(w) && |ifaces| > 0
    requires |ActuatedJoints(root.children[w], ifaces)| > 0
    ensures exists a :: SectionHolds(AddActuators(root, cfg, mimic, ifaces), a,
      PriorActuators(root) + ActuatorsFor(ActuatedJoints(root.children[w], ifaces), cfg, mimic, ifaces))
  {
    var joints := ActuatedJoints(root.children[w], ifaces);
    assert AddActuators(root, cfg, mimic, ifaces) == FillActuators(root, joints, cfg, mimic, ifaces);
    var (r1, a) := EnsureAfterWorldbody(root, "actuator");
    assert r1.children[a].children == PriorActuators(root);
    var (r2, a2) := if cfg.addRos then DeclareActuatorCommand(r1, a, cfg.instance) else (r1, a);
    assert r2.children[a2] == r1.children[a];
    assert SectionHolds(AddActuators(root, cfg, mimic, ifaces), a2, PriorActuators(root) + ActuatorsFor(joints, cfg, mimic, ifaces));
  }

  /** With ROS plugins on, when the pass acts, the `<extension>` section declares the ActuatorCommand plugin. */
  lemma AddActuatorsDeclares(root: Element, cfg: ActuatorConfig, mimic: set<string>, ifaces: Table<set<string>>, w: nat)
    requires FindChild(root, "worldbody") == Some(w) && |ifaces| > 0 && cfg.addRos
    requires |ActuatedJoints(root.children[w], ifaces)| > 0
    ensures exists x :: ExtensionDeclares(AddActuators(root, cfg, mimic, ifaces), x, ActuatorCommand)
  {
    var joints := ActuatedJoints(root.children[w], ifaces);
    assert AddActuators(root, cfg, mimic, ifaces) == FillActuators(root, joints, cfg, mimic, ifaces);
    var (r1, a) := EnsureAfterWorldbody(root, "actuator");
    var (r2, a2) := DeclareActuatorCommand(r1, a, cfg.instance);
    var x := EnsureExtension(r1).1;
    assert AddActuators(root, cfg, mimic, ifaces) == AppendTo(r2, a2, ActuatorsFor(joints, cfg, mimic, ifaces));
    AppendToKeepsDeclares(r2, a2, ActuatorsFor(joints, cfg, mimic, ifaces), x, ActuatorCommand);
  }

  /** Appending to a section other than `<extension>` keeps every declaration. */
  lemma AppendToKeepsDeclares(root: Element, i: nat, kids: seq<Element>, x: nat, name: string)
    requires i < |root.children| && root.children[i].tag != "extension"
    requires ExtensionDeclares(root, x, name)
    ensures ExtensionDeclares(AppendTo(root, i, kids), x, name)
  {
  }

  /** Some `kind` actuator among `es` drives joint `n`. */
  predicate Drives(es: seq<Element>, kind: string, n: string) {
    exists e :: e in es && e.tag == kind && Get(e.attrs, "joint") == Some(n)
  }

  /** Some joint of `joints` is named `n`. */
  predicate Named(joints: seq<Element>, n: string) {
    exists i :: 0 <= i < |joints| && GetOr(joints[i].attrs, "name", "") == n
  }

  /** The second entry of a list whose first two keys differ is what `get` returns for its key. */
  lemma GetSecond(a: Attrs)
    requires |a| >= 2 && a[0].0 != a[1].0
    ensures Get(a, a[1].0) == Some(a[1].1)
  {
    assert a[1..][0] == a[1];
  }

  /** Entry `i` of a joint's contribution, when it is an actuator, drives that joint with a kind its interfaces ask for. */
  lemma JointActuatorAt(joint: Element, ifs: set<string>, isMimic: bool, cfg: ActuatorConfig, i: nat)
    requires i < |JointActuators(joint, ifs, isMimic, cfg)|
    ensures var e := JointActuators(joint, ifs, isMimic, cfg)[i];
      e.tag != "plugin" ==>
        && GetOr(joint.attrs, "name", "") != "" && e.tag in ifs
        && Get(e.attrs, "joint") == Some(GetOr(joint.attrs, "name", ""))
  {
    var r := JointActuators(joint, ifs, isMimic, cfg);
    if i < |Kinds(ifs)| {
      ActuatorNaming(joint, ifs, isMimic, cfg, i);
      GetSecond(r[i].attrs);
    }
  }

  /** A joint's actuators drive it, and only it, once per kind its interfaces ask for. */
  lemma JointActuatorsDrive(joint: Element, ifs: set<string>, isMimic: bool, cfg: ActuatorConfig, kind: string, n: string)
    requires kind == "position" || kind == "velocity"
    ensures Drives(JointActuators(joint, ifs, isMimic, cfg), kind, n) <==>
      n != "" && GetOr(joint.attrs, "name", "") == n && kind in ifs
  {
    var r := JointActuators(joint, ifs, isMimic, cfg);
    if Drives(r, kind, n) {
      var e :| e in r && e.tag == kind && Get(e.attrs, "joint") == Some(n);
      var i :| 0 <= i < |r| && r[i] == e;
      JointActuatorAt(joint, ifs, isMimic, cfg, i);
    }
    if n != "" && GetOr(joint.attrs, "name", "") == n && kind in ifs {
      var kinds := Kinds(ifs);
      var i :| 0 <= i < |kinds| && kinds[i] == kind;
      ActuatorNaming(joint, ifs, isMimic, cfg, i);
      GetSecond(r[i].attrs);
      assert r[i] in r;
    }
  }

  lemma DrivesConcat(a: seq<Element>, b: seq<Element>, kind: string, n: string)
    ensures Drives(a + b, kind, n) <==> Drives(a, kind, n) || Drives(b, kind, n)
  {
    if Drives(a + b, kind, n) {
      var e :| e in a + b && e.tag == kind && Get(e.attrs, "joint") == Some(n);
      assert e in a || e in b;
    }
  }

  /**
   * Over a list of joints, a `kind` actuator drives `n` exactly when some
   * joint is named `n` (non-empty) and the table gives `n` an interface of
   * that kind.
   */
  lemma {:induction false} ActuatorsForIff(joints: seq<Element>, cfg: ActuatorConfig, mimic: set<string>, ifaces: Table<set<string>>, kind: string, n: string)
    requires kind == "position" || kind == "velocity"
    ensures Drives(ActuatorsFor(joints, cfg, mimic, ifaces), kind, n) <==>
      n != "" && kind in InterfacesOf(ifaces, n) && Named(joints, n)
    decreases |joints|
  {
    if |joints| > 0 {
      var n0 := GetOr(joints[0].attrs, "name", "");
      var head := JointActuators(joints[0], InterfacesOf(ifaces, n0), n0 in mimic, cfg);
      DrivesConcat(head, ActuatorsFor(joints[1..], cfg, mimic, ifaces), kind, n);
      JointActuatorsDrive(joints[0], InterfacesOf(ifaces, n0), n0 in mimic, cfg, kind, n);
      ActuatorsForIff(joints[1..], cfg, mimic, ifaces, kind, n);
      if Named(joints, n) {
        var i :| 0 <= i < |joints| && GetOr(joints[i].attrs, "name", "") == n;
        if i > 0 {
          assert joints[1..][i - 1] == joints[i];
        }
      }
      if Named(joints[1..], n) {
        var i :| 0 <= i < |joints[1..]| && GetOr(joints[1..][i].attrs, "name", "") == n;
        assert joints[i + 1] == joints[1..][i];
      }
    }
  }

  /** A joint gets an actuator of a kind exactly when it is named and one of its interfaces is that kind. */
  lemma ActuatorKinds(joint: Element, ifs: set<string>, isMimic: bool, cfg: ActuatorConfig, kind: string)
    requires kind == "position" || kind == "velocity"
    ensures (exists e :: e in JointActuators(joint, ifs, isMimic, cfg) && e.tag == kind) <==>
      GetOr(joint.attrs, "name", "") != "" && kind in ifs
  {
    var r := JointActuators(joint, ifs, isMimic, cfg);
    var kinds := Kinds(ifs);
    if GetOr(joint.attrs, "name", "") != "" && kind in ifs {
      var i :| 0 <= i < |kinds| && kinds[i] == kind;
      assert r[i].tag == kind;
    }
  }

  /**
   * Actuator `i` of a joint is named after the joint, with `_<kind>`
   * appended when the joint has two kinds or the caller forces suffixes;
   * it drives that joint.
   */
  lemma ActuatorNaming(joint: Element, ifs: set<string>, isMimic: bool, cfg: ActuatorConfig, i: nat)
    requires i < |Kinds(ifs)| && GetOr(joint.attrs, "name", "") != ""
    ensures var n := GetOr(joint.attrs, "name", "");
      var e := JointActuators(joint, ifs, isMimic, cfg)[i];
      && e.tag == Kinds(ifs)[i]
      && e.attrs[0] == ("name", if |Kinds(ifs)| > 1 || cfg.forceSuffix then n + "_" + Kinds(ifs)[i] else n)
      && e.attrs[1] == ("joint", n)
  {
  }

  /** The actuators of one joint have pairwise different names. */
  lemma ActuatorNamesDistinct(joint: Element, ifs: set<string>, isMimic: bool, cfg: ActuatorConfig, i: nat, j: nat)
    requires i < j < |Kinds(ifs)| && GetOr(joint.attrs, "name", "") != ""
    ensures JointActuators(joint, ifs, isMimic, cfg)[i].attrs[0] != JointActuators(joint, ifs, isMimic, cfg)[j].attrs[0]
  {
    var n := GetOr(joint.attrs, "name", "");
    var p := n + "_" + "position";
    var v := n + "_" + "velocity";
    assert p[|n| + 1] != v[|n| + 1];
  }

  /** A position actuator carries the position gain `kp`, a velocity actuator the velocity gain `kv`. */
  lemma ActuatorGain(joint: Element, ifs: set<string>, isMimic: bool, cfg: ActuatorConfig, i: nat)
    requires i < |Kinds(ifs)| && GetOr(joint.attrs, "name", "") != ""
    ensures var e := JointActuators(joint, ifs, isMimic, cfg)[i];
      e.attrs[2] == if e.tag == "position" then ("kp", cfg.kp) else ("kv", cfg.kv)
  {
  }

  /** Limits are copied exactly when the joint has them: `ctrlrange` from `range`, a force limit from `actuatorfrcrange`. */
  lemma LimitsCopied(joint: Element)
    ensures Get(LimitAttrs(joint), "ctrlrange") == Get(joint.attrs, "range")
    ensures Get(LimitAttrs(joint), "forcerange") == Get(joint.attrs, "actuatorfrcrange")
    ensures Has(LimitAttrs(joint), "forcelimited") <==> Has(joint.attrs, "actuatorfrcrange")
  {
    var a: Attrs := match Get(joint.attrs, "range") case Some(v) => [("ctrlrange", v)] case None => [];
    var b: Attrs := match Get(joint.attrs, "actuatorfrcrange")
      case Some(v) => [("forcelimited", "true"), ("forcerange", v)] case None => [];
    HasConcat(a, b, "ctrlrange");
    HasConcat(a, b, "forcerange");
    HasConcat(a, b, "forcelimited");
    GetConcat(a, b, "ctrlrange");
    GetConcat(a, b, "forcerange");
  }

  lemma {:induction false} GetConcat(a: Attrs, b: Attrs, k: string)
    ensures Get(a + b, k) == if Has(a, k) then Get(a, k) else Get(b, k)
    decreases |a|
  {
    if |a| > 0 {
      assert (a + b)[0] == a[0] && (a + b)[1..] == a[1..] + b;
      GetConcat(a[1..], b, k);
    } else {
      assert a + b == b;
    }
  }

  /** The command plugin follows a joint's actuators exactly when ROS plugins are on and the joint is not a mimic. */
  lemma CommandPluginIff(joint: Element, ifs: set<string>, isMimic: bool, cfg: ActuatorConfig)
    requires GetOr(joint.attrs, "name", "") != "" && |Kinds(ifs)| > 0
    ensures var r := JointActuators(joint, ifs, isMimic, cfg);
      (|r| > |Kinds(ifs)| <==> cfg.addRos && !isMimic)
      && (|r| > |Kinds(ifs)| ==> r[|r| - 1] == CommandPlugin(GetOr(joint.attrs, "name", ""), cfg.instance))
  {
  }

  /**
   * A joint `j` with a range and both interfaces, suffixes not forced:
   * `j_position` then `j_velocity`, each with its gain and the control range.
   */
  lemma TwoInterfacesExample(cfg: ActuatorConfig)
    requires !cfg.addRos
    ensures JointActuators(NewElement("joint", [("name", "j"), ("range", "-1 1")]), {"position", "velocity"}, false, cfg)
         == [NewElement("position", [("name", "j_position"), ("joint", "j"), ("kp", cfg.kp), ("ctrlrange", "-1 1")]),
             NewElement("velocity", [("name", "j_velocity"), ("joint", "j"), ("kv", cfg.kv), ("ctrlrange", "-1 1")])]
  {
    var joint := NewElement("joint", [("name", "j"), ("range", "-1 1")]);
    assert GetOr(joint.attrs, "name", "") == "j";
    assert Get(joint.attrs, "range") == Some("-1 1");
    assert !Has(joint.attrs, "actuatorfrcrange");
    assert LimitAttrs(joint) == [("ctrlrange", "-1 1")];
    assert Kinds({"position", "velocity"}) == ["position", "velocity"];
    var r := JointActuators(joint, {"position", "velocity"}, false, cfg);
    assert |r| == 2;
    assert r[0] == Actuator(joint, "j", "position", true, cfg);
    assert r[1] == Actuator(joint, "j", "velocity", true, cfg);
    assert ActuatorName("j", "position", true) == "j_position";
    assert ActuatorName("j", "velocity", true) == "j_velocity";
    assert [("name", "j_position"), ("joint", "j"), ("kp", cfg.kp)] + [("ctrlrange", "-1 1")]
        == [("name", "j_position"), ("joint", "j"), ("kp", cfg.kp), ("ctrlrange", "-1 1")];
    assert [("name", "j_velocity"), ("joint", "j"), ("kv", cfg.kv)] + [("ctrlrange", "-1 1")]
        == [("name", "j_velocity"), ("joint", "j"), ("kv", cfg.kv), ("ctrlrange", "-1 1")];
    assert r[0] == NewElement("position", [("name", "j_position"), ("joint", "j"), ("kp", cfg.kp), ("ctrlrange", "-1 1")]);
    assert r[1] == NewElement("velocity", [("name", "j_velocity"), ("joint", "j"), ("kv", cfg.kv), ("ctrlrange", "-1 1")]);
  }

  // ---------------------------------------------------------------------
  // Mimic joints
  // ---------------------------------------------------------------------

  /** Some `<position>` actuator among `cs` drives joint `j`. */
  predicate HasPosition(cs: seq<Element>, j: string) {
    exists c :: c in cs && c.tag == "position" && Get(c.attrs, "joint") == Some(j)
  }

  function Config(key: string, value: string): Element {
    NewElement("config", [("key", key), ("value", value)])
  }

  /** The MimicJoint entry for follower `j`: leader and gear always, the offset only when it is not zero. */
  function MimicPlugin(j: string, info: MimicInfo, nonZero: string -> bool): Element {
    Element("plugin", [("plugin", MimicJoint), ("joint", j)], "",
      [Config("mimic_joint", info.joint), Config("gear", info.multiplier)]
      + (if nonZero(info.offset) then [Config("offset", info.offset)] else []))
  }

  /** The limits of the first joint named `j` anywhere in the model, none when there is no such joint. */
  function JointLimits(root: Element, j: string): Attrs {
    match FindFirst(root, "joint", [("name", j)])
    case Some(p) => LimitAttrs(At(root, p))
    case None => []
  }

  /** The position actuator created for a mimic follower `j` that has none: named `j`, or `j_position` when `j` is taken. */
  function MimicPosition(root: Element, j: string, names: set<string>, kp: string): Element {
    NewElement("position", [("name", if j in names then j + "_position" else j), ("joint", j), ("kp", kp)] + JointLimits(root, j))
  }

  /** One mimic entry: a position actuator if `j` has none yet, then its MimicJoint entry. */
  function MimicStep(root: Element, cs: seq<Element>, names: set<string>, j: string, info: MimicInfo, kp: string, nonZero: string -> bool)
    : (r: (seq<Element>, set<string>))
    ensures HasPosition(r.0, j)
    ensures cs <= r.0 && names <= r.1
    ensures |r.0| == |cs| + (if HasPosition(cs, j) then 1 else 2)
    ensures r.0[|r.0| - 1] == MimicPlugin(j, info, nonZero)
    ensures r.0 == cs + (if HasPosition(cs, j) then [] else [MimicPosition(root, j, names, kp)]) + [MimicPlugin(j, info, nonZero)]
  {
    if HasPosition(cs, j) then (cs + [MimicPlugin(j, info, nonZero)], names)
    else
      var p := MimicPosition(root, j, names, kp);
      var cs1 := cs + [p, MimicPlugin(j, info, nonZero)];
      assert p in cs1 && Get(p.attrs, "joint") == Some(j);
      (cs1, names + {GetOr(p.attrs, "name", "")})
  }

  /** `x` is one of the entries the pass adds for follower `j`: its MimicJoint entry or a position actuator on `j`. */
  predicate AddedFor(x: Element, j: string, info: MimicInfo, nonZero: string -> bool) {
    x == MimicPlugin(j, info, nonZero) || (x.tag == "position" && Get(x.attrs, "joint") == Some(j))
  }

  /** `x` is an entry the pass adds for some follower from the `k`-th on. */
  predicate AddedFrom(x: Element, mimic: Table<MimicInfo>, k: nat, nonZero: string -> bool) {
    exists i :: k <= i < |mimic| && AddedFor(x, mimic[i].0, mimic[i].1, nonZero)
  }

  /** The followers from the `k`-th on have distinct names, as the keys of a dict do. */
  predicate DistinctFrom(mimic: Table<MimicInfo>, k: nat) {
    forall a, b :: k <= a < b < |mimic| ==> mimic[a].0 != mimic[b].0
  }

  /**
   * What the pass appends for the followers from the `k`-th on: nothing but
   * their entries, and, the names being distinct, each follower's MimicJoint
   * entry exactly once.
   */
  predicate OnlyMimicEntries(added: seq<Element>, mimic: Table<MimicInfo>, k: nat, nonZero: string -> bool) {
    && (forall x :: x in added ==> AddedFrom(x, mimic, k, nonZero))
    && (DistinctFrom(mimic, k) ==>
          forall i :: k <= i < |mimic| ==> multiset(added)[MimicPlugin(mimic[i].0, mimic[i].1, nonZero)] == 1)
  }

  /** An entry added for one follower is never the MimicJoint entry of another. */
  lemma OtherFollowerPlugin(x: Element, j: string, info: MimicInfo, j2: string, info2: MimicInfo, nonZero: string -> bool)
    requires AddedFor(x, j2, info2, nonZero) && j != j2
    ensures x != MimicPlugin(j, info, nonZero)
  {
  }

  /** One step's entries followed by the later steps' entries are the entries from this step on. */
  lemma MimicEntriesStep(pos: seq<Element>, rest: seq<Element>, mimic: Table<MimicInfo>, k: nat, nonZero: string -> bool)
    requires k < |mimic| && OnlyMimicEntries(rest, mimic, k + 1, nonZero)
    requires forall x :: x in pos ==> x.tag == "position" && Get(x.attrs, "joint") == Some(mimic[k].0)
    ensures OnlyMimicEntries(pos + [MimicPlugin(mimic[k].0, mimic[k].1, nonZero)] + rest, mimic, k, nonZero)
  {
    var step := pos + [MimicPlugin(mimic[k].0, mimic[k].1, nonZero)];
    forall x | x in step + rest ensures AddedFrom(x, mimic, k, nonZero) {
      if x in step {
        assert AddedFor(x, mimic[k].0, mimic[k].1, nonZero);
      } else {
        var i :| k + 1 <= i < |mimic| && AddedFor(x, mimic[i].0, mimic[i].1, nonZero);
      }
    }
    if DistinctFrom(mimic, k) {
      forall i | k <= i < |mimic|
        ensures multiset(step + rest)[MimicPlugin(mimic[i].0, mimic[i].1, nonZero)] == 1
      {
        var p := MimicPlugin(mimic[i].0, mimic[i].1, nonZero);
        if i == k {
          assert multiset(step)[p] == 1 by {
            assert p !in pos;
            assert multiset(step) == multiset(pos) + multiset{p};
          }
          forall x | x in rest ensures x != p {
            var i' :| k + 1 <= i' < |mimic| && AddedFor(x, mimic[i'].0, mimic[i'].1, nonZero);
            OtherFollowerPlugin(x, mimic[k].0, mimic[k].1, mimic[i'].0, mimic[i'].1, nonZero);
          }
          assert p !in rest;
        } else {
          assert DistinctFrom(mimic, k + 1);
          forall x | x in step ensures x != p {
            assert AddedFor(x, mimic[k].0, mimic[k].1, nonZero);
            OtherFollowerPlugin(x, mimic[i].0, mimic[i].1, mimic[k].0, mimic[k].1, nonZero);
          }
          assert p !in step;
        }
        assert multiset(step + rest) == multiset(step) + multiset(rest);
      }
    }
  }

  /** The entries of one step and of the later steps, read off the whole result. */
  lemma MimicLoopTail(root: Element, cs: seq<Element>, names: set<string>, cs1: seq<Element>, r: seq<Element>,
                      mimic: Table<MimicInfo>, k: nat, kp: string, nonZero: string -> bool)
    requires k < |mimic| && cs1 <= r
    requires cs1 == cs + (if HasPosition(cs, mimic[k].0) then [] else [MimicPosition(root, mimic[k].0, names, kp)])
                       + [MimicPlugin(mimic[k].0, mimic[k].1, nonZero)]
    requires OnlyMimicEntries(r[|cs1|..], mimic, k + 1, nonZero)
    ensures OnlyMimicEntries(r[|cs|..], mimic, k, nonZero)
  {
    var pos := if HasPosition(cs, mimic[k].0) then [] else [MimicPosition(root, mimic[k].0, names, kp)];
    assert r[|cs|..] == pos + [MimicPlugin(mimic[k].0, mimic[k].1, nonZero)] + r[|cs1|..];
    StepShape(root, mimic[k].0, names, kp, pos);
    MimicEntriesStep(pos, r[|cs1|..], mimic, k, nonZero);
  }

  /** A position actuator the pass creates for `j` is a position actuator on `j`. */
  lemma StepShape(root: Element, j: string, names: set<string>, kp: string, pos: seq<Element>)
    requires pos == [] || pos == [MimicPosition(root, j, names, kp)]
    ensures forall x :: x in pos ==> x.tag == "position" && Get(x.attrs, "joint") == Some(j)
  {
    var q := MimicPosition(root, j, names, kp);
    assert q.attrs[0].0 == "name" && q.attrs[1] == ("joint", j);
  }

  /** The mimic entries from `k` on, in table order. */
  function MimicLoop(root: Element, cs: seq<Element>, names: set<string>, mimic: Table<MimicInfo>, k: nat, kp: string, nonZero: string -> bool)
    : (r: seq<Element>)
    requires k <= |mimic|
    ensures cs <= r
    ensures forall i :: k <= i < |mimic| ==> HasPosition(r, mimic[i].0)
    ensures forall i :: k <= i < |mimic| ==> MimicPlugin(mimic[i].0, mimic[i].1, nonZero) in r
    ensures forall j :: HasPosition(cs, j) ==> HasPosition(r, j)
    ensures OnlyMimicEntries(r[|cs|..], mimic, k, nonZero)
    decreases |mimic| - k
  {
    if k == |mimic| then assert cs[|cs|..] == []; cs
    else
      var (cs1, names1) := MimicStep(root, cs, names, mimic[k].0, mimic[k].1, kp, nonZero);
      assert forall j :: HasPosition(cs, j) ==> HasPosition(cs1, j) by {
        forall j | HasPosition(cs, j) ensures HasPosition(cs1, j) {
          var c :| c in cs && c.tag == "position" && Get(c.attrs, "joint") == Some(j);
          assert c in cs1;
        }
      }
      var r := MimicLoop(root, cs1, names1, mimic, k + 1, kp, nonZero);
      assert cs1[|cs1| - 1] in r;
      MimicLoopTail(root, cs, names, cs1, r, mimic, k, kp, nonZero);
      r
  }

  /** The names of the actuators already in the section; a nameless one counts as the empty name. */
  function ActuatorNames(cs: seq<Element>): set<string> {
    set c | c in cs :: GetOr(c.attrs, "name", "")
  }

  /** Child `a` of the root is an `<actuator>` section with a position actuator and a MimicJoint entry for every mimic follower. */
  predicate CoversMimics(root: Element, a: int, mimic: Table<MimicInfo>, nonZero: string -> bool) {
    && 0 <= a < |root.children| && root.children[a].tag == "actuator"
    && (forall i :: 0 <= i < |mimic| ==> HasPosition(root.children[a].children, mimic[i].0))
    && (forall i :: 0 <= i < |mimic| ==> MimicPlugin(mimic[i].0, mimic[i].1, nonZero) in root.children[a].children)
  }

  /**
   * Child `a` of `r` is the `<actuator>` section the mimic pass filled: it
   * covers every follower, starts with the entries of the first `<actuator>`
   * section of `before`, and adds nothing but the followers' entries.
   */
  predicate MimicFilled(before: Element, r: Element, a: int, mimic: Table<MimicInfo>, nonZero: string -> bool) {
    && CoversMimics(r, a, mimic, nonZero) && PriorActuators(before) <= r.children[a].children
    && OnlyMimicEntries(r.children[a].children[|PriorActuators(before)|..], mimic, 0, nonZero)
  }

  /**
   * The mimic table the description yields names each follower once, so
   * the pass adds each follower's MimicJoint entry exactly once.
   */
  lemma MimicTableDistinct(doc: Element)
    ensures DistinctFrom(MimicJoints(doc), 0)
  {
    FromEntriesDistinct(MimicEntries(Nodes(doc, FindAll(doc, "joint", []))));
  }

  /** The sections `AddMimicPlugins` may touch. */
  function MimicSections(): Element -> bool {
    (x: Element) => x.tag == "extension" || x.tag == "actuator"
  }

  /** Ensuring `<extension>` and declaring a plugin in it keeps every `<actuator>` section and every other section. */
  lemma DeclareKeepsSections(root: Element, r1: Element, x: nat, r2: Element, name: string)
    requires (r1, x) == EnsureExtension(root) && r2 == DeclareOnce(r1, x, name, [])
    ensures Select(r2.children, Tagged("actuator"), true) == Select(root.children, Tagged("actuator"), true)
    ensures Select(r2.children, MimicSections(), false) == Select(root.children, MimicSections(), false)
  {
    if FindChild(root, "extension").None? {
      SelectInsert(root.children, x, NewElement("extension", []), Tagged("actuator"), true);
      SelectInsert(root.children, x, NewElement("extension", []), MimicSections(), false);
    }
    assert r2.children == r1.children[x := r2.children[x]];
    SelectUpdate(r1.children, x, r2.children[x], Tagged("actuator"), true);
    SelectUpdate(r1.children, x, r2.children[x], MimicSections(), false);
  }

  /** The `<actuator>` section the mimic pass fills starts with the entries the model had, and the other sections stay. */
  lemma MimicSetup(root: Element, r1: Element, x: nat, r2: Element, r3: Element, a: nat)
    requires (r1, x) == EnsureExtension(root) && r2 == DeclareOnce(r1, x, MimicJoint, [])
    requires (r3, a) == EnsureAfterWorldbody(r2, "actuator")
    ensures r3.children[a].children == PriorActuators(root)
    ensures Select(r3.children, MimicSections(), false) == Select(root.children, MimicSections(), false)
  {
    DeclareKeepsSections(root, r1, x, r2, MimicJoint);
    FindChildSelect(root, "actuator");
    FindChildSelect(r2, "actuator");
    if FindChild(r2, "actuator").None? {
      SelectInsert(r2.children, a, NewElement("actuator", []), MimicSections(), false);
    }
  }

  /** Filling the `<actuator>` section at `a` with entries that extend its own covers the mimics and leaves the other sections. */
  lemma MimicFill(root: Element, a: nat, kids: seq<Element>, mimic: Table<MimicInfo>, nonZero: string -> bool)
    requires a < |root.children| && root.children[a].tag == "actuator" && root.children[a].children <= kids
    requires forall i :: 0 <= i < |mimic| ==> HasPosition(kids, mimic[i].0)
    requires forall i :: 0 <= i < |mimic| ==> MimicPlugin(mimic[i].0, mimic[i].1, nonZero) in kids
    ensures var r := root.(children := root.children[a := root.children[a].(children := kids)]);
      && CoversMimics(r, a, mimic, nonZero) && r.children[a].children == kids
      && Select(r.children, MimicSections(), false) == Select(root.children, MimicSections(), false)
  {
    SelectUpdate(root.children, a, root.children[a].(children := kids), MimicSections(), false);
  }

  /** Placing and filling the `<actuator>` section keeps the `<extension>` section's declaration. */
  lemma MimicDeclared(r2: Element, x: nat, r3: Element, a: nat, r: Element)
    requires ExtensionDeclares(r2, x, MimicJoint) && (r3, a) == EnsureAfterWorldbody(r2, "actuator")
    requires |r.children| == |r3.children| && r.children == r3.children[a := r.children[a]] && r.children[a].tag == "actuator"
    ensures exists x3 :: ExtensionDeclares(r, x3, MimicJoint)
  {
    var x3 := if FindChild(r2, "actuator").None? && a <= x then x + 1 else x;
    assert r3.children[x3] == r2.children[x];
    assert ExtensionDeclares(r, x3, MimicJoint);
  }

  /**
   * `post_process_add_mimic_plugins`. With mimic joints, the MimicJoint
   * plugin is declared in `<extension>` unless declared already, and the
   * `<actuator>` section (created after `<worldbody>`, else last) receives,
   * per mimic joint in table order, a position actuator if the follower has
   * none and its MimicJoint entry.
   */
  function AddMimicPlugins(root: Element, mimic: Table<MimicInfo>, kp: string, nonZero: string -> bool): (r: Element)
    ensures |mimic| == 0 ==> r == root
    ensures |mimic| > 0 ==> exists a :: MimicFilled(root, r, a, mimic, nonZero)
    ensures |mimic| > 0 ==> exists x :: ExtensionDeclares(r, x, MimicJoint)
    ensures Select(r.children, MimicSections(), false) == Select(root.children, MimicSections(), false)
  {
    if |mimic| == 0 then root
    else
      var (r1, x) := EnsureExtension(root);
      var r2 := DeclareOnce(r1, x, MimicJoint, []);
      var (r3, a) := EnsureAfterWorldbody(r2, "actuator");
      var sec := r3.children[a];
      var kids := MimicLoop(r3, sec.children, ActuatorNames(sec.children), mimic, 0, kp, nonZero);
      var r := r3.(children := r3.children[a := sec.(children := kids)]);
      MimicSetup(root, r1, x, r2, r3, a);
      MimicFill(r3, a, kids, mimic, nonZero);
      assert MimicFilled(root, r, a, mimic, nonZero);
      MimicDeclared(r2, x, r3, a, r);
      r
  }

  /** The offset goes into a MimicJoint entry exactly when it is not zero. */
  lemma MimicOffsetIff(j: string, info: MimicInfo, nonZero: string -> bool)
    ensures (exists c :: c in MimicPlugin(j, info, nonZero).children && c == Config("offset", info.offset)) <==> nonZero(info.offset)
  {
    var p := MimicPlugin(j, info, nonZero);
    assert Config("offset", info.offset) != Config("mimic_joint", info.joint) by {
      assert Config("offset", info.offset).attrs[0].1 != Config("mimic_joint", info.joint).attrs[0].1 by {
        assert |"offset"| != |"mimic_joint"|;
      }
    }
    assert Config("offset", info.offset) != Config("gear", info.multiplier) by {
      assert Config("offset", info.offset).attrs[0].1 != Config("gear", info.multiplier).attrs[0].1 by {
        assert |"offset"| != |"gear"|;
      }
    }
    if nonZero(info.offset) {
      assert p.children[2] == Config("offset", info.offset);
      assert Config("offset", info.offset) in p.children;
    } else {
      assert p.children == [Config("mimic_joint", info.joint), Config("gear", info.multiplier)];
    }
  }

  /** A follower that already has a position actuator gets only its MimicJoint entry. */
  lemma MimicKeepsExistingPosition(root: Element, cs: seq<Element>, names: set<string>, j: string, info: MimicInfo, kp: string, nonZero: string -> bool)
    requires HasPosition(cs, j)
    ensures MimicStep(root, cs, names, j, info, kp, nonZero).0 == cs + [MimicPlugin(j, info, nonZero)]
  {
  }

  /** A created position actuator is named after the follower, or `<follower>_position` when that name is taken. */
  lemma MimicPositionName(root: Element, cs: seq<Element>, names: set<string>, j: string, info: MimicInfo, kp: string, nonZero: string -> bool)
    requires !HasPosition(cs, j)
    ensures var r := MimicStep(root, cs, names, j, info, kp, nonZero).0;
      && r[|cs|].tag == "position"
      && r[|cs|].attrs[..3] == [("name", if j in names then j + "_position" else j), ("joint", j), ("kp", kp)]
  {
  }
}

=== FILE: applier.dfy ===
/**
 * Applying decoded operations to one target's attributes
 * (`_apply_custom_operations`): inject overwrites, replace touches only
 * attributes already present, a conditional replace is all-or-nothing.
 */
module Applier {

  import opened Options
  import opened AttrList
  import opened AttrParser

  /** A `replace` operation: each pair is set only where the target already has that attribute. */
  function ReplaceExisting(a: Attrs, p: Attrs): (r: Attrs)
    ensures Keys(r) == Keys(a)
    ensures forall k {:trigger Has(r, k)} :: Has(r, k) <==> Has(a, k)
    ensures forall k {:trigger Get(r, k)} :: Get(r, k) == if Has(a, k) && Has(p, k) then GetLast(p, k) else Get(a, k)
    ensures UniqueKeys(a) ==> UniqueKeys(r)
    decreases p
  {
    if |p| == 0 then a
    else
      var a1 := if Has(a, p[0].0) then Set(a, p[0].0, p[0].1) else a;
      assert forall k :: Has(a1, k) <==> Has(a, k);
      ReplaceExisting(a1, p[1..])
  }

  /**
   * A conditional replace: when every condition pair is present with that
   * exact value, the condition keys are deleted and then the replacements
   * set; otherwise nothing changes.
   */
  function CondReplaceAttrs(a: Attrs, conds: Attrs, repls: Attrs): (r: Attrs)
    ensures !HasAll(a, conds) ==> r == a
    ensures HasAll(a, conds) ==> forall k {:trigger Get(r, k)} ::
      Get(r, k) == if Has(repls, k) then GetLast(repls, k) else if k in Keys(conds) then None else Get(a, k)
    ensures UniqueKeys(a) ==> UniqueKeys(r)
  {
    if HasAll(a, conds) then SetAll(DelAll(a, Keys(conds)), repls) else a
  }

  /** One operation on one target. Child injection is not an attribute edit and leaves them alone. */
  function ApplyOp(a: Attrs, op: Operation): (r: Attrs)
    ensures UniqueKeys(a) ==> UniqueKeys(r)
  {
    match op
    case Inject(p) => SetAll(a, p)
    case Replace(p) => ReplaceExisting(a, p)
    case CondReplace(c, rs) => CondReplaceAttrs(a, c, rs)
    case InjectChildren(_) => a
  }

  /** The operations of one annotation, applied to a target in order. */
  function ApplyOps(a: Attrs, ops: seq<Operation>): (r: Attrs)
    ensures UniqueKeys(a) ==> UniqueKeys(r)
    decreases |ops|
  {
    if |ops| == 0 then a else ApplyOps(ApplyOp(a, ops[0]), ops[1..])
  }

  /** Injecting sets every pair: afterwards each injected key has its (last) injected value, and every other key is untouched. */
  lemma InjectSets(a: Attrs, p: Attrs, k: string)
    ensures Has(p, k) ==> Get(ApplyOp(a, Inject(p)), k) == GetLast(p, k)
    ensures !Has(p, k) ==> Get(ApplyOp(a, Inject(p)), k) == Get(a, k)
  {
  }

  /** Injecting the same pairs twice is injecting them once. */
  lemma InjectIdempotent(a: Attrs, p: Attrs)
    ensures SameAttrs(ApplyOp(ApplyOp(a, Inject(p)), Inject(p)), ApplyOp(a, Inject(p)))
  {
    var once := ApplyOp(a, Inject(p));
    var twice := ApplyOp(once, Inject(p));
    forall k ensures Get(twice, k) == Get(once, k) {
      InjectSets(a, p, k);
      InjectSets(once, p, k);
    }
    GetSameAttrs(twice, once);
  }

  /** A replace never adds or removes an attribute, nor moves one; present keys take the replacement value. */
  lemma ReplaceKeepsKeys(a: Attrs, p: Attrs, k: string)
    ensures Keys(ApplyOp(a, Replace(p))) == Keys(a)
    ensures Has(ApplyOp(a, Replace(p)), k) <==> Has(a, k)
    ensures Has(a, k) && Has(p, k) ==> Get(ApplyOp(a, Replace(p)), k) == GetLast(p, k)
  {
  }

  /** A target that fails any condition, including by lacking the key, is left exactly as it was. */
  lemma CondReplaceAllOrNothing(a: Attrs, conds: Attrs, repls: Attrs, i: nat)
    requires i < |conds| && Get(a, conds[i].0) != Some(conds[i].1)
    ensures ApplyOp(a, CondReplace(conds, repls)) == a
  {
  }

  /**
   * When the conditions hold and every replacement key is either a condition
   * key or new to the target, the result is the target without the condition
   * keys, followed by the replacements in order: a condition key that is set
   * again moves to the end.
   */
  lemma CondReplaceOrder(a: Attrs, conds: Attrs, repls: Attrs)
    requires UniqueKeys(repls) && HasAll(a, conds)
    requires forall k :: Has(repls, k) ==> k in Keys(conds) || !Has(a, k)
    ensures ApplyOp(a, CondReplace(conds, repls)) == DelAll(a, Keys(conds)) + repls
  {
    var d := DelAll(a, Keys(conds));
    forall k | Has(repls, k) ensures !Has(d, k) {
      assert Get(d, k) == if k in Keys(conds) then None else Get(a, k);
    }
    SetAllFresh(d, repls);
  }

  /** `class='old':class='new'` on `class="old" other="x"` gives `other="x" class="new"`. */
  lemma CondReplaceExample()
    ensures ApplyOp([("class", "old"), ("other", "x")], CondReplace([("class", "old")], [("class", "new")]))
         == [("other", "x"), ("class", "new")]
  {
    var a := [("class", "old"), ("other", "x")];
    var conds := [("class", "old")];
    assert HasAll(a, conds);
    assert Keys(conds) == ["class"];
    assert DelAll(a, ["class"]) == [("other", "x")] by {
      assert Del(a, "class") == Del([("other", "x")], "class");
    }
    CondReplaceOrder(a, conds, [("class", "new")]);
  }
}

=== FILE: attrs.dfy ===
/**
 * An element's attribute dictionary. ElementTree keeps attributes in a Python
 * dict, so the model is an association list in insertion order: setting an
 * existing key keeps its position, setting a new key appends it, deleting a
 * key removes it.
 */
module AttrList {

  import opened Options

  type Attrs = seq<(string, string)>

  function Keys(a: Attrs): (ks: seq<string>)
    ensures |ks| == |a|
  {
    if |a| == 0 then [] else [a[0].0] + Keys(a[1..])
  }

  /** `k in d`. */
  predicate Has(a: Attrs, k: string) {
    |a| > 0 && (a[0].0 == k || Has(a[1..], k))
  }

  /** Every key occurs once: the shape of every dict the source builds. */
  predicate UniqueKeys(a: Attrs) {
    |a| == 0 || (!Has(a[1..], a[0].0) && UniqueKeys(a[1..]))
  }

  /** `d.get(k)`: the value of the first entry with key `k`. */
  function Get(a: Attrs, k: string): (r: Option<string>)
    ensures r.Some? <==> Has(a, k)
  {
    if |a| == 0 then None
    else if a[0].0 == k then Some(a[0].1)
    else Get(a[1..], k)
  }

  /** `d.get(k)` after a dict was built by setting the entries of `a` one after another. */
  function GetLast(a: Attrs, k: string): (r: Option<string>)
    ensures r.Some? <==> Has(a, k)
  {
    if |a| == 0 then None
    else
      var rest := GetLast(a[1..], k);
      if rest.Some? then rest else if a[0].0 == k then Some(a[0].1) else None
  }

  /** A key absent from the rest may be put in front. */
  lemma UniqueCons(p: (string, string), a: Attrs)
    requires UniqueKeys(a) && !Has(a, p.0)
    ensures UniqueKeys([p] + a)
  {
    assert ([p] + a)[1..] == a;
  }

  lemma HasCons(p: (string, string), a: Attrs, k: string)
    ensures Has([p] + a, k) <==> p.0 == k || Has(a, k)
  {
    assert ([p] + a)[1..] == a;
  }

  /** `d.get(k, default)`. */
  function GetOr(a: Attrs, k: string, default: string): (r: string)
    ensures Has(a, k) ==> Get(a, k) == Some(r)
    ensures !Has(a, k) ==> r == default
  {
    match Get(a, k)
    case Some(v) => v
    case None => default
  }

  /** Every `(k, v)` of `pat` is an entry `k: v` of `a`. */
  predicate HasAll(a: Attrs, pat: Attrs) {
    forall i :: 0 <= i < |pat| ==> Get(a, pat[i].0) == Some(pat[i].1)
  }

  /** `d[k] = v`. */
  function Set(a: Attrs, k: string, v: string): (r: Attrs)
    ensures forall k' {:trigger Get(r, k')} :: Get(r, k') == if k' == k then Some(v) else Get(a, k')
    ensures forall k' {:trigger Has(r, k')} :: Has(r, k') <==> Has(a, k') || k' == k
    ensures Has(a, k) ==> Keys(r) == Keys(a)
    ensures !Has(a, k) ==> Keys(r) == Keys(a) + [k]
    ensures UniqueKeys(a) ==> UniqueKeys(r)
  {
    if |a| == 0 then [(k, v)]
    else if a[0].0 == k then [(k, v)] + a[1..]
    else
      var r := [a[0]] + Set(a[1..], k, v);
      assert r[1..] == Set(a[1..], k, v);
      r
  }

  /** `del d[k]` when `k` is present, and no change otherwise. */
  function Del(a: Attrs, k: string): (r: Attrs)
    ensures forall k' {:trigger Get(r, k')} :: Get(r, k') == if k' == k then None else Get(a, k')
    ensures forall k' {:trigger Has(r, k')} :: Has(r, k') <==> Has(a, k') && k' != k
    ensures !Has(a, k) ==> r == a
    ensures UniqueKeys(a) ==> UniqueKeys(r)
  {
    if |a| == 0 then []
    else if a[0].0 == k then Del(a[1..], k)
    else
      var r := [a[0]] + Del(a[1..], k);
      assert r[1..] == Del(a[1..], k);
      r
  }

  /** Setting every entry of `b`, in order, on `a` (`d.update(b)`, or a loop of `set` calls). */
  function SetAll(a: Attrs, b: Attrs): (r: Attrs)
    ensures forall k {:trigger Get(r, k)} :: Get(r, k) == if Has(b, k) then GetLast(b, k) else Get(a, k)
    ensures UniqueKeys(a) ==> UniqueKeys(r)
    decreases b
  {
    if |b| == 0 then a else SetAll(Set(a, b[0].0, b[0].1), b[1..])
  }

  /** Deleting every key of `ks` that is present, in order. */
  function DelAll(a: Attrs, ks: seq<string>): (r: Attrs)
    ensures forall k {:trigger Get(r, k)} :: Get(r, k) == if k in ks then None else Get(a, k)
    ensures UniqueKeys(a) ==> UniqueKeys(r)
    decreases ks
  {
    if |ks| == 0 then a else DelAll(Del(a, ks[0]), ks[1..])
  }

  /** The dict an association list denotes; two attribute dicts compare equal when these agree. */
  function ToMap(a: Attrs): (m: map<string, string>)
    ensures forall k :: k in m <==> Has(a, k)
    ensures forall k :: k in m ==> Get(a, k) == Some(m[k])
  {
    if |a| == 0 then map[] else ToMap(a[1..])[a[0].0 := a[0].1]
  }

  /** Python's `a == b` on two attribute dicts: same keys with the same values, in any order. */
  predicate SameAttrs(a: Attrs, b: Attrs) {
    ToMap(a) == ToMap(b)
  }

  lemma {:induction false} GetLastUnique(a: Attrs, k: string)
    requires UniqueKeys(a)
    ensures GetLast(a, k) == Get(a, k)
  {
    if |a| > 0 {
      GetLastUnique(a[1..], k);
    }
  }

  /** Equal attribute dicts agree on every lookup. */
  lemma SameAttrsGet(a: Attrs, b: Attrs, k: string)
    requires SameAttrs(a, b)
    ensures Get(a, k) == Get(b, k)
  {
    var ma, mb := ToMap(a), ToMap(b);
    if k in ma {
      assert Get(a, k) == Some(ma[k]);
      assert Get(b, k) == Some(mb[k]);
    }
  }

  /** Attribute dicts that agree on every lookup are equal. */
  lemma GetSameAttrs(a: Attrs, b: Attrs)
    requires forall k :: Get(a, k) == Get(b, k)
    ensures SameAttrs(a, b)
  {
    var ma, mb := ToMap(a), ToMap(b);
    forall k ensures k in ma <==> k in mb {
      assert Get(a, k) == Get(b, k);
    }
    forall k | k in ma ensures ma[k] == mb[k] {
      assert Get(a, k) == Get(b, k);
    }
  }

  lemma {:induction false} HasConcat(a: Attrs, b: Attrs, k: string)
    ensures Has(a + b, k) <==> Has(a, k) || Has(b, k)
    decreases |a|
  {
    if |a| > 0 {
      assert (a + b)[0] == a[0] && (a + b)[1..] == a[1..] + b;
      HasConcat(a[1..], b, k);
    } else {
      assert a + b == b;
    }
  }

  /** Setting a key that is not yet present appends it. */
  lemma {:induction false} SetNew(a: Attrs, k: string, v: string)
    requires !Has(a, k)
    ensures Set(a, k, v) == a + [(k, v)]
    decreases |a|
  {
    if |a| > 0 {
      SetNew(a[1..], k, v);
      assert a + [(k, v)] == [a[0]] + (a[1..] + [(k, v)]);
    }
  }

  /** Setting entries with fresh, distinct keys appends them in order. */
  lemma {:induction false} SetAllFresh(a: Attrs, b: Attrs)
    requires UniqueKeys(b)
    requires forall k :: Has(b, k) ==> !Has(a, k)
    ensures SetAll(a, b) == a + b
    decreases |b|
  {
    if |b| > 0 {
      SetNew(a, b[0].0, b[0].1);
      var a1 := a + [b[0]];
      forall k | Has(b[1..], k) ensures !Has(a1, k) {
        HasConcat(a, [b[0]], k);
        assert Has(b, k);
      }
      SetAllFresh(a1, b[1..]);
      assert a1 + b[1..] == a + b;
    }
  }
}

=== FILE: dispatcher.dfy ===
/**
 * `post_process_inject_custom_mujoco_elements`: every annotation element
 * taken from the robot description's `<mujoco>` block is merged into the
 * generated document by `_process_element_recursively`, which takes one of
 * four paths:
 *   1. an `inject_children` operation: copies of the annotation's children
 *      are appended to every matching node below the search scope, and the
 *      annotation itself is consumed;
 *   2. other operations: they are applied to every node below the scope that
 *      matches the annotation's non-reserved attributes, then the
 *      annotation's children are processed in the same scope;
 *   3. no operations, but a child with operations: the annotation is matched
 *      in the whole document and each match becomes the scope for those
 *      children, while the other children are appended to it as they are;
 *   4. otherwise every match gets the annotation's attributes and copies of
 *      its children; with no match, the first root child with the tag does,
 *      created before `<worldbody>` when there is none.
 * The search scope is a path; the empty path is the root, which is how the
 * source's missing parent context searches the whole document.
 */
module Dispatcher {

  import opened Options
  import opened AttrList
  import opened Tree
  import opened Matcher
  import opened Placement
  import opened AttrParser
  import opened Applier

  /** The document after a step, and the indices at which the step inserted new root children, oldest first. */
  datatype Outcome = Outcome(root: Element, inserted: seq<nat>)

  /**
   * Every node of `before` is still in the document, at its path shifted past
   * the root insertions, with the same tag: a reference the source holds
   * across the step still names a node of the same kind.
   */
  ghost predicate Keeps(before: Element, o: Outcome) {
    forall q :: ValidPath(before, q) ==>
      ValidPath(o.root, ShiftAll(q, o.inserted)) && At(o.root, ShiftAll(q, o.inserted)).tag == At(before, q).tag
  }

  lemma KeepsHeld(before: Element, o: Outcome, p: Path)
    requires Keeps(before, o) && ValidPath(before, p)
    ensures ValidPath(o.root, ShiftAll(p, o.inserted))
  {
  }

  lemma KeepsTrans(a: Element, o1: Outcome, o2: Outcome)
    requires Keeps(a, o1) && Keeps(o1.root, o2)
    ensures Keeps(a, Outcome(o2.root, o1.inserted + o2.inserted))
  {
    forall q | ValidPath(a, q)
      ensures ValidPath(o2.root, ShiftAll(q, o1.inserted + o2.inserted))
      ensures At(o2.root, ShiftAll(q, o1.inserted + o2.inserted)).tag == At(a, q).tag
    {
      ShiftAllConcat(q, o1.inserted, o2.inserted);
    }
  }

  lemma KeepsEditEach(root: Element, ps: seq<Path>, f: Attrs -> Attrs, kids: seq<Element>)
    requires forall p :: p in ps ==> ValidPath(root, p)
    ensures Keeps(root, Outcome(EditEach(root, ps, f, kids), []))
  {
    forall q | ValidPath(root, q)
      ensures ValidPath(EditEach(root, ps, f, kids), ShiftAll(q, []))
      ensures At(EditEach(root, ps, f, kids), ShiftAll(q, [])).tag == At(root, q).tag
    {
      EditEachKeeps(root, ps, f, kids, q);
    }
  }

  lemma KeepsInsert(root: Element, i: nat, c: Element)
    requires i <= |root.children|
    ensures Keeps(root, Outcome(Insert(root, i, c), [i]))
  {
    forall q | ValidPath(root, q)
      ensures ValidPath(Insert(root, i, c), ShiftAll(q, [i]))
      ensures At(Insert(root, i, c), ShiftAll(q, [i])).tag == At(root, q).tag
    {
      assert ShiftAll(q, [i]) == Shift(q, i);
      if |q| > 0 {
        InsertKeepsNodes(root, i, c, q);
      }
    }
  }

  /** Attribute edits as function values, so that a lemma names the same edit as the step it describes. */
  function Identity(a: Attrs): Attrs {
    a
  }

  function SetAllWith(b: Attrs): Attrs -> Attrs {
    a => SetAll(a, b)
  }

  function ApplyOpsWith(ops: seq<Operation>): Attrs -> Attrs {
    a => ApplyOps(a, ops)
  }

  /** The annotation's attributes without the four reserved ones, in order: the pattern a node with operations is matched by. */
  function MatchingAttrs(a: Attrs): (r: Attrs)
    ensures forall k {:trigger Get(r, k)} :: Get(r, k) == if k in ReservedNames then None else Get(a, k)
    ensures |r| <= |a|
  {
    if |a| == 0 then []
    else if a[0].0 in ReservedNames then MatchingAttrs(a[1..])
    else [a[0]] + MatchingAttrs(a[1..])
  }

  /** The match attributes of the first child-injection operation. */
  function ChildrenMatch(ops: seq<Operation>): (r: Option<Attrs>)
    ensures r.Some? <==> exists i :: 0 <= i < |ops| && ops[i].InjectChildren?
    ensures r.Some? ==> exists i :: 0 <= i < |ops| && ops[i] == InjectChildren(r.value)
  {
    if |ops| == 0 then None
    else if ops[0].InjectChildren? then assert ops[0] == InjectChildren(ops[0].attrs); Some(ops[0].attrs)
    else
      var r := ChildrenMatch(ops[1..]);
      assert forall i :: 1 <= i < |ops| ==> ops[i] == ops[1..][i - 1];
      r
  }

  /** `any(_parse_custom_syntax(child) for child in elem)`. */
  predicate HasOpsChild(e: Element) {
    exists i :: 0 <= i < |e.children| && |ParseCustomSyntax(e.children[i])| > 0
  }

  /** Matches found below the scope at `base` are paths below `base` in the whole document. */
  lemma UnderValid(root: Element, base: Path, ps: seq<Path>)
    requires ValidPath(root, base)
    requires forall p :: p in ps ==> ValidPath(At(root, base), p)
    ensures forall q :: q in Under(base, ps) ==> ValidPath(root, q)
    ensures Distinct(ps) ==> Distinct(Under(base, ps))
  {
    var u := Under(base, ps);
    forall q | q in u ensures ValidPath(root, q) {
      var k :| 0 <= k < |u| && u[k] == q;
      AtConcat(root, base, ps[k]);
    }
    if Distinct(ps) {
      forall i, j | 0 <= i < j < |u| ensures u[i] != u[j] {
        assert u[i][|base|..] == ps[i] && u[j][|base|..] == ps[j];
      }
    }
  }

  /** Path 1: copies of the annotation's children go to every node below the scope with its tag and every match attribute. */
  function InjectChildrenIn(root: Element, e: Element, m: Attrs, base: Path): (o: Outcome)
    requires ValidPath(root, base)
    ensures Keeps(root, o) && o.inserted == []
  {
    var found := FindAll(At(root, base), e.tag, m);
    var targets := Under(base, found);
    UnderValid(root, base, found);
    KeepsEditEach(root, targets, Identity, e.children);
    Outcome(EditEach(root, targets, Identity, e.children), [])
  }

  /** Path 2, first half: the operations go to every node below the scope that matches the non-reserved attributes. */
  function ApplyOpsIn(root: Element, e: Element, ops: seq<Operation>, base: Path): (o: Outcome)
    requires ValidPath(root, base)
    ensures Keeps(root, o) && o.inserted == []
  {
    var found := FindMatching(At(root, base), NewElement(e.tag, MatchingAttrs(e.attrs)));
    var targets := Under(base, found);
    UnderValid(root, base, found);
    KeepsEditEach(root, targets, ApplyOpsWith(ops), []);
    Outcome(EditEach(root, targets, ApplyOpsWith(ops), []), [])
  }

  /**
   * Path 4: the annotation's attributes and copies of its children go to
   * every match in the document; with none, to the first root child with
   * the tag, created right before `<worldbody>` (or last) when missing.
   */
  function MergePlain(root: Element, e: Element): (o: Outcome)
    ensures Keeps(root, o)
  {
    var matches := FindMatching(root, e);
    if |matches| > 0 then
      KeepsEditEach(root, matches, SetAllWith(e.attrs), e.children);
      Outcome(EditEach(root, matches, SetAllWith(e.attrs), e.children), [])
    else
      match FindChild(root, e.tag)
      case Some(i) =>
        KeepsEditEach(root, [[i]], SetAllWith(e.attrs), e.children);
        Outcome(EditEach(root, [[i]], SetAllWith(e.attrs), e.children), [])
      case None =>
        var (r1, i) := EnsureBeforeWorldbody(root, e.tag);
        KeepsInsert(root, i, NewElement(e.tag, []));
        KeepsEditEach(r1, [[i]], SetAllWith(e.attrs), e.children);
        KeepsTrans(root, Outcome(r1, [i]), Outcome(EditEach(r1, [[i]], SetAllWith(e.attrs), e.children), []));
        assert [i] + [] == [i];
        Outcome(EditEach(r1, [[i]], SetAllWith(e.attrs), e.children), [i])
  }

  /** `_process_element_recursively(e, scope)`. */
  function Process(root: Element, e: Element, base: Path): (o: Outcome)
    requires ValidPath(root, base)
    ensures Keeps(root, o)
    decreases e, 2, 0
  {
    var ops := ParseCustomSyntax(e);
    match ChildrenMatch(ops)
    case Some(m) => InjectChildrenIn(root, e, m, base)
    case None =>
      if |ops| > 0 then
        var o1 := ApplyOpsIn(root, e, ops, base);
        KeepsHeld(root, o1, base);
        var o2 := ProcessKids(o1.root, e, 0, base);
        KeepsTrans(root, o1, o2);
        assert [] + o2.inserted == o2.inserted;
        o2
      else if HasOpsChild(e) then
        ProcessParents(root, e, FindMatching(root, e))
      else
        MergePlain(root, e)
  }

  /** Path 2, second half: the annotation's children from the `i`-th on, each in the same scope. */
  function ProcessKids(root: Element, e: Element, i: nat, base: Path): (o: Outcome)
    requires i <= |e.children| && ValidPath(root, base)
    ensures Keeps(root, o)
    decreases e, 0, |e.children| - i
  {
    if i == |e.children| then
      Outcome(root, [])
    else
      var o1 := Process(root, e.children[i], base);
      KeepsHeld(root, o1, base);
      var o2 := ProcessKids(o1.root, e, i + 1, ShiftAll(base, o1.inserted));
      KeepsTrans(root, o1, o2);
      Outcome(o2.root, o1.inserted + o2.inserted)
  }

  /** Path 3: each matching parent in turn, later parents shifted past the root insertions of earlier ones. */
  function ProcessParents(root: Element, e: Element, ps: seq<Path>): (o: Outcome)
    requires forall p :: p in ps ==> ValidPath(root, p)
    ensures Keeps(root, o)
    decreases e, 1, |ps|
  {
    if |ps| == 0 then
      Outcome(root, [])
    else
      var o1 := ProcessChildrenIn(root, e, 0, ps[0]);
      var rest := ShiftEach(ps[1..], o1.inserted);
      forall k | 0 <= k < |ps| - 1 ensures ValidPath(o1.root, rest[k]) {
        KeepsHeld(root, o1, ps[1..][k]);
      }
      var o2 := ProcessParents(o1.root, e, rest);
      KeepsTrans(root, o1, o2);
      Outcome(o2.root, o1.inserted + o2.inserted)
  }

  /** Within one parent: children with operations are processed with the parent as scope, the others appended to it. */
  function ProcessChildrenIn(root: Element, e: Element, i: nat, parent: Path): (o: Outcome)
    requires i <= |e.children| && ValidPath(root, parent)
    ensures Keeps(root, o)
    decreases e, 0, |e.children| - i
  {
    if i == |e.children| then
      Outcome(root, [])
    else
      var o1 := ChildIn(root, e.children[i], parent);
      KeepsHeld(root, o1, parent);
      var o2 := ProcessChildrenIn(o1.root, e, i + 1, ShiftAll(parent, o1.inserted));
      KeepsTrans(root, o1, o2);
      Outcome(o2.root, o1.inserted + o2.inserted)
  }

  /** One child under one matched parent: processed with the parent as scope when it asks for operations, appended as it is otherwise. */
  function ChildIn(root: Element, c: Element, parent: Path): (o: Outcome)
    requires ValidPath(root, parent)
    ensures Keeps(root, o)
    decreases c, 3
  {
    if |ParseCustomSyntax(c)| > 0 then Process(root, c, parent) else AppendCopy(root, parent, c)
  }

  /** `parent.append(copy.deepcopy(c))`. */
  function AppendCopy(root: Element, parent: Path, c: Element): (o: Outcome)
    requires ValidPath(root, parent)
    ensures Keeps(root, o) && o.inserted == []
  {
    KeepsEditEach(root, [parent], Identity, [c]);
    Outcome(EditEach(root, [parent], Identity, [c]), [])
  }

  /** Each path of `ps` shifted past the root insertions `ins`. */
  function ShiftEach(ps: seq<Path>, ins: seq<nat>): (r: seq<Path>)
    ensures |r| == |ps| && forall k :: 0 <= k < |ps| ==> r[k] == ShiftAll(ps[k], ins)
  {
    seq(|ps|, k requires 0 <= k < |ps| => ShiftAll(ps[k], ins))
  }

  /** Every annotation in turn, each searching the whole document. */
  function InjectAll(root: Element, elems: seq<Element>): (o: Outcome)
    ensures Keeps(root, o)
    decreases |elems|
  {
    if |elems| == 0 then
      Outcome(root, [])
    else
      var o1 := Process(root, elems[0], []);
      var o2 := InjectAll(o1.root, elems[1..]);
      KeepsTrans(root, o1, o2);
      Outcome(o2.root, o1.inserted + o2.inserted)
  }

  /** `post_process_inject_custom_mujoco_elements(root, elements)`. */
  function InjectCustomElements(root: Element, elems: seq<Element>): (r: Element)
    ensures |elems| == 0 ==> r == root
    ensures r.tag == root.tag
  {
    var o := InjectAll(root, elems);
    assert ValidPath(root, []);
    assert ShiftAll([], o.inserted) == [];
    o.root
  }

  /** A path of the whole document lies in `Under(base, ps)` exactly when it is `base` followed by a path of `ps`. */
  lemma UnderIff(base: Path, ps: seq<Path>, q: Path)
    ensures q in Under(base, ps) <==> |q| >= |base| && q[..|base|] == base && q[|base|..] in ps
  {
    var u := Under(base, ps);
    if q in u {
      var k :| 0 <= k < |u| && u[k] == q;
      assert q[..|base|] == base && q[|base|..] == ps[k];
    }
    if |q| >= |base| && q[..|base|] == base && q[|base|..] in ps {
      var k :| 0 <= k < |ps| && ps[k] == q[|base|..];
      assert u[k] == q;
    }
  }

  /** A node strictly below the scope at `base` that satisfies the match: with the tag and every listed attribute. */
  ghost predicate BelowWithAll(root: Element, base: Path, q: Path, tag: string, m: Attrs)
    requires ValidPath(root, q)
  {
    |q| > |base| && q[..|base|] == base && At(root, q).tag == tag && HasAll(At(root, q).attrs, m)
  }

  /** A node strictly below the scope at `base` that a pattern matches. */
  ghost predicate BelowMatching(root: Element, base: Path, q: Path, pattern: Element)
    requires ValidPath(root, q)
  {
    |q| > |base| && q[..|base|] == base && PatternMatches(pattern, At(root, q))
  }

  /** The scope-relative matches, lifted, are the nodes below the scope that match. */
  lemma FoundBelow(root: Element, base: Path, found: seq<Path>, q: Path, sel: Element -> bool)
    requires ValidPath(root, base) && ValidPath(root, q)
    requires forall p :: p in found <==> |p| > 0 && ValidPath(At(root, base), p) && sel(At(At(root, base), p))
    ensures q in Under(base, found) <==> |q| > |base| && q[..|base|] == base && sel(At(root, q))
  {
    UnderIff(base, found, q);
    if |q| >= |base| && q[..|base|] == base {
      var p := q[|base|..];
      assert q == base + p;
      AtConcat(root, base, p);
      assert ValidPath(At(root, base), p);
      assert At(root, q) == At(At(root, base), p);
      assert |q| > |base| <==> |p| > 0;
    }
  }

  /**
   * An annotation with `inject_children` adds no attribute anywhere, inserts
   * nothing at the root, and appends copies of its children to exactly the
   * nodes below the scope that carry its tag and every match attribute.
   */
  lemma InjectChildrenEffect(root: Element, e: Element, base: Path, m: Attrs, q: Path)
    requires ValidPath(root, base) && ValidPath(root, q)
    requires ChildrenMatch(ParseCustomSyntax(e)) == Some(m)
    ensures Process(root, e, base).inserted == []
    ensures ValidPath(Process(root, e, base).root, q)
    ensures At(Process(root, e, base).root, q).tag == At(root, q).tag
    ensures At(Process(root, e, base).root, q).attrs == At(root, q).attrs
    ensures |At(Process(root, e, base).root, q).children|
         == |At(root, q).children| + if BelowWithAll(root, base, q, e.tag, m) then |e.children| else 0
    ensures At(Process(root, e, base).root, q).children[|At(root, q).children|..]
         == if BelowWithAll(root, base, q, e.tag, m) then e.children else []
  {
    var found := FindAll(At(root, base), e.tag, m);
    var targets := Under(base, found);
    UnderValid(root, base, found);
    FoundBelow(root, base, found, q, (n: Element) => n.tag == e.tag && HasAll(n.attrs, m));
    assert Process(root, e, base) == InjectChildrenIn(root, e, m, base);
    EditEachEffect(root, targets, Identity, e.children, q);
  }

  /**
   * An annotation with other operations and no children inserts nothing and
   * adds no children; exactly the nodes below the scope that match its
   * non-reserved attributes have the operations applied to their attributes.
   */
  lemma ApplyOpsEffect(root: Element, e: Element, base: Path, q: Path)
    requires ValidPath(root, base) && ValidPath(root, q)
    requires |ParseCustomSyntax(e)| > 0 && ChildrenMatch(ParseCustomSyntax(e)).None?
    requires |e.children| == 0
    ensures Process(root, e, base).inserted == []
    ensures ValidPath(Process(root, e, base).root, q)
    ensures At(Process(root, e, base).root, q).tag == At(root, q).tag
    ensures At(Process(root, e, base).root, q).attrs
         == if BelowMatching(root, base, q, NewElement(e.tag, MatchingAttrs(e.attrs)))
            then ApplyOps(At(root, q).attrs, ParseCustomSyntax(e)) else At(root, q).attrs
    ensures |At(Process(root, e, base).root, q).children| == |At(root, q).children|
  {
    var o1 := ApplyOpsIn(root, e, ParseCustomSyntax(e), base);
    ScopedPath(root, e, base);
    assert ProcessKids(o1.root, e, 0, base) == Outcome(o1.root, []);
    ApplyOpsInEffect(root, e, ParseCustomSyntax(e), base, q);
  }

  /**
   * Path 2, first half, for any annotation: exactly the nodes below the scope
   * that match the non-reserved attributes have the operations applied to
   * their attributes; no node gains or loses a child.
   */
  lemma ApplyOpsInEffect(root: Element, e: Element, ops: seq<Operation>, base: Path, q: Path)
    requires ValidPath(root, base) && ValidPath(root, q)
    ensures ValidPath(ApplyOpsIn(root, e, ops, base).root, q)
    ensures At(ApplyOpsIn(root, e, ops, base).root, q).tag == At(root, q).tag
    ensures At(ApplyOpsIn(root, e, ops, base).root, q).attrs
         == if BelowMatching(root, base, q, NewElement(e.tag, MatchingAttrs(e.attrs)))
            then ApplyOps(At(root, q).attrs, ops) else At(root, q).attrs
    ensures |At(ApplyOpsIn(root, e, ops, base).root, q).children| == |At(root, q).children|
  {
    var pattern := NewElement(e.tag, MatchingAttrs(e.attrs));
    var found := FindMatching(At(root, base), pattern);
    var targets := Under(base, found);
    UnderValid(root, base, found);
    FoundBelow(root, base, found, q, (n: Element) => PatternMatches(pattern, n));
    EditEachEffect(root, targets, ApplyOpsWith(ops), [], q);
  }

  /** Path 2: with operations other than `inject_children`, the operations are applied and then every child is processed in the same scope. */
  lemma ScopedPath(root: Element, e: Element, base: Path)
    requires ValidPath(root, base)
    requires |ParseCustomSyntax(e)| > 0 && ChildrenMatch(ParseCustomSyntax(e)).None?
    ensures var o1 := ApplyOpsIn(root, e, ParseCustomSyntax(e), base);
      ValidPath(o1.root, base) && Process(root, e, base) == ProcessKids(o1.root, e, 0, base)
  {
    var o1 := ApplyOpsIn(root, e, ParseCustomSyntax(e), base);
    ApplyOpsInEffect(root, e, ParseCustomSyntax(e), base, base);
    assert [] + ProcessKids(o1.root, e, 0, base).inserted == ProcessKids(o1.root, e, 0, base).inserted;
  }

  /** Path 3: an annotation with no operations but a child with some is processed under each of its matches in the document. */
  lemma ParentPath(root: Element, e: Element, base: Path)
    requires ValidPath(root, base)
    requires |ParseCustomSyntax(e)| == 0 && HasOpsChild(e)
    ensures Process(root, e, base) == ProcessParents(root, e, FindMatching(root, e))
  {
    assert ChildrenMatch(ParseCustomSyntax(e)).None?;
  }

  /** `parent.append(copy)` adds the copy after the parent's children and changes no other node's attributes or number of children. */
  lemma AppendCopyEffect(root: Element, parent: Path, c: Element, q: Path)
    requires ValidPath(root, parent) && ValidPath(root, q)
    ensures ValidPath(AppendCopy(root, parent, c).root, q) && ValidPath(AppendCopy(root, parent, c).root, parent)
    ensures At(AppendCopy(root, parent, c).root, q).tag == At(root, q).tag
    ensures At(AppendCopy(root, parent, c).root, q).attrs == At(root, q).attrs
    ensures |At(AppendCopy(root, parent, c).root, q).children| == |At(root, q).children| + if q == parent then 1 else 0
    ensures At(AppendCopy(root, parent, c).root, parent).children == At(root, parent).children + [c]
  {
    EditEachEffect(root, [parent], Identity, [c], q);
    EditEachEffect(root, [parent], Identity, [c], parent);
    EditEachTail(root, [parent], Identity, [c], parent, 0);
    assert At(root, parent).children[0..] == At(root, parent).children;
  }

  /** `q` names a node strictly inside the subtree at `p`. */
  predicate StrictlyBelow(p: Path, q: Path) {
    |q| > |p| && q[..|p|] == p
  }

  /** A child of the annotation that a matched parent scopes: plain, or with attribute operations only and no children of its own. */
  predicate AttrOnly(c: Element) {
    |ParseCustomSyntax(c)| > 0 ==> ChildrenMatch(ParseCustomSyntax(c)).None? && |c.children| == 0
  }

  /** The test "asks for an operation", as a value `Select` can take. */
  function Operative(): Element -> bool {
    (c: Element) => |ParseCustomSyntax(c)| > 0
  }

  /** The children path 3 appends as they are: those without operations, in order. */
  function PlainKids(e: Element): seq<Element> {
    Select(e.children, Operative(), false)
  }

  /** A step that inserts nothing at the root keeps the `k`-th child of every node, by tag. */
  lemma KeptChild(a: Element, o: Outcome, q: Path, k: nat)
    requires Keeps(a, o) && o.inserted == [] && ValidPath(a, q) && k < |At(a, q).children|
    ensures ValidPath(o.root, q)
    ensures k < |At(o.root, q).children| && At(o.root, q).children[k].tag == At(a, q).children[k].tag
  {
    assert ShiftAll(q, []) == q;
    assert [k][1..] == [];
    AtConcat(a, q, [k]);
    assert ShiftAll(q + [k], []) == q + [k];
    AtConcat(o.root, q, [k]);
  }

  /** A step that inserts nothing at the root keeps every node's children, by tag, at the front of its children. */
  lemma KeptChildTags(a: Element, o: Outcome, q: Path)
    requires Keeps(a, o) && o.inserted == [] && ValidPath(a, q)
    ensures ValidPath(o.root, q)
    ensures |At(o.root, q).children| >= |At(a, q).children|
    ensures forall k :: 0 <= k < |At(a, q).children| ==> At(o.root, q).children[k].tag == At(a, q).children[k].tag
  {
    assert ShiftAll(q, []) == q;
    forall k | 0 <= k < |At(a, q).children|
      ensures k < |At(o.root, q).children| && At(o.root, q).children[k].tag == At(a, q).children[k].tag
    {
      KeptChild(a, o, q, k);
    }
    if |At(a, q).children| > 0 {
      KeptChild(a, o, q, |At(a, q).children| - 1);
    }
  }

  /** Children that keep their tags and gain `added` at the end have the tags of the old ones followed by those of `added`. */
  lemma GrownTags(before: seq<Element>, cur: seq<Element>, added: seq<Element>)
    requires |cur| == |before| + |added|
    requires forall k :: 0 <= k < |before| ==> cur[k].tag == before[k].tag
    requires cur[|before|..] == added
    ensures Tags(cur) == Tags(before) + Tags(added)
  {
    assert forall k :: |before| <= k < |cur| ==> cur[k] == added[k - |before|];
  }

  /** A step that inserts nothing at the root and keeps a node's number of children keeps its children's tags. */
  lemma SameCountTags(a: Element, o: Outcome, q: Path)
    requires Keeps(a, o) && o.inserted == [] && ValidPath(a, q)
    requires ValidPath(o.root, q) && |At(o.root, q).children| == |At(a, q).children|
    ensures Tags(At(o.root, q).children) == Tags(At(a, q).children)
  {
    KeptChildTags(a, o, q);
  }

  /** A child with attribute operations only, under one matched parent: no node gains a child. */
  lemma OpChildTags(root: Element, c: Element, parent: Path, q: Path)
    requires ValidPath(root, parent) && ValidPath(root, q)
    requires |ParseCustomSyntax(c)| > 0 && ChildrenMatch(ParseCustomSyntax(c)).None? && |c.children| == 0
    ensures Process(root, c, parent).inserted == [] && ValidPath(Process(root, c, parent).root, q)
    ensures Tags(At(Process(root, c, parent).root, q).children) == Tags(At(root, q).children)
    ensures At(Process(root, c, parent).root, q).attrs
         == if BelowMatching(root, parent, q, NewElement(c.tag, MatchingAttrs(c.attrs)))
            then ApplyOps(At(root, q).attrs, ParseCustomSyntax(c)) else At(root, q).attrs
  {
    ApplyOpsEffect(root, c, parent, q);
    SameCountTags(root, Process(root, c, parent), q);
  }

  /** A plain child under one matched parent: only the parent gains a child, with the copy's tag. */
  lemma PlainChildTags(root: Element, c: Element, parent: Path, q: Path)
    requires ValidPath(root, parent) && ValidPath(root, q)
    ensures ValidPath(AppendCopy(root, parent, c).root, q)
    ensures Tags(At(AppendCopy(root, parent, c).root, q).children)
         == Tags(At(root, q).children) + if q == parent then [c.tag] else []
    ensures At(AppendCopy(root, parent, c).root, q).attrs == At(root, q).attrs
  {
    var o1 := AppendCopy(root, parent, c);
    AppendCopyEffect(root, parent, c, q);
    if q == parent {
      TagsConcat(At(root, q).children, [c]);
    } else {
      KeptChildTags(root, o1, q);
      GrownTags(At(root, q).children, At(o1.root, q).children, []);
    }
  }

  /**
   * One child under one matched parent: only the parent can gain a child,
   * the child's own tag when the child is plain; a child with operations
   * applies them to exactly the nodes below that parent its pattern matches.
   */
  lemma ChildInTags(root: Element, c: Element, parent: Path, q: Path)
    requires ValidPath(root, parent) && ValidPath(root, q) && AttrOnly(c)
    ensures ChildIn(root, c, parent).inserted == [] && ValidPath(ChildIn(root, c, parent).root, q)
    ensures Tags(At(ChildIn(root, c, parent).root, q).children)
         == Tags(At(root, q).children) + if q == parent && |ParseCustomSyntax(c)| == 0 then [c.tag] else []
    ensures At(ChildIn(root, c, parent).root, q).attrs
         == if |ParseCustomSyntax(c)| > 0 && BelowMatching(root, parent, q, NewElement(c.tag, MatchingAttrs(c.attrs)))
            then ApplyOps(At(root, q).attrs, ParseCustomSyntax(c)) else At(root, q).attrs
  {
    if |ParseCustomSyntax(c)| > 0 {
      OpChildTags(root, c, parent, q);
    } else {
      PlainChildTags(root, c, parent, q);
    }
  }

  /** The tags of the children from the `i`-th on that `keep` rejects: the `i`-th child's when it is rejected, then those after it. */
  lemma SelectTagsStep(cs: seq<Element>, i: nat, keep: Element -> bool)
    requires i < |cs|
    ensures Tags(Select(cs[i..], keep, false))
         == (if keep(cs[i]) then [] else [cs[i].tag]) + Tags(Select(cs[i + 1..], keep, false))
  {
    assert cs[i..][1..] == cs[i + 1..];
    var rest := Select(cs[i + 1..], keep, false);
    if !keep(cs[i]) {
      TagsConcat([cs[i]], rest);
    }
  }

  /** The tags of the children from the `i`-th on that ask for no operation, in order. */
  function PlainTagsFrom(cs: seq<Element>, i: nat): seq<string>
    requires i <= |cs|
    decreases |cs| - i
  {
    if i == |cs| then [] else (if |ParseCustomSyntax(cs[i])| > 0 then [] else [cs[i].tag]) + PlainTagsFrom(cs, i + 1)
  }

  lemma {:induction false} PlainTagsFromSelect(cs: seq<Element>, i: nat)
    requires i <= |cs|
    ensures PlainTagsFrom(cs, i) == Tags(Select(cs[i..], Operative(), false))
    decreases |cs| - i
  {
    if i == |cs| {
      assert cs[i..] == [];
    } else {
      PlainTagsFromSelect(cs, i + 1);
      SelectTagsStep(cs, i, Operative());
    }
  }

  /** A child that inserts nothing at the root leaves the parent's path as it was for the children after it. */
  lemma ChildrenInUnfold(root: Element, e: Element, i: nat, parent: Path)
    requires i < |e.children| && ValidPath(root, parent)
    requires ChildIn(root, e.children[i], parent).inserted == []
    ensures ValidPath(ChildIn(root, e.children[i], parent).root, parent)
    ensures ProcessChildrenIn(root, e, i, parent) == ProcessChildrenIn(ChildIn(root, e.children[i], parent).root, e, i + 1, parent)
  {
    var o1 := ChildIn(root, e.children[i], parent);
    assert ValidPath(o1.root, parent) by {
      assert ShiftAll(parent, o1.inserted) == parent;
      KeepsHeld(root, o1, parent);
    }
    var o2 := ProcessChildrenIn(o1.root, e, i + 1, parent);
    assert ProcessChildrenIn(root, e, i, parent) == Outcome(o2.root, o1.inserted + o2.inserted);
    assert o1.inserted + o2.inserted == o2.inserted;
  }

  lemma PlainTagsStep(cs: seq<Element>, i: nat, here: bool)
    requires i < |cs|
    ensures (if here && |ParseCustomSyntax(cs[i])| == 0 then [cs[i].tag] else [])
          + (if here then PlainTagsFrom(cs, i + 1) else [])
         == if here then PlainTagsFrom(cs, i) else []
  {
  }

  lemma AppendAssoc<T>(a: seq<T>, b: seq<T>, c: seq<T>)
    ensures (a + b) + c == a + (b + c)
  {
  }

  /** The children from the `i`-th on under one matched parent: only that parent gains children, the plain ones by tag. */
  lemma {:induction false} ChildrenInEffect(root: Element, e: Element, i: nat, parent: Path, q: Path)
    requires i <= |e.children| && ValidPath(root, parent) && ValidPath(root, q)
    requires forall j :: i <= j < |e.children| ==> AttrOnly(e.children[j])
    ensures var o := ProcessChildrenIn(root, e, i, parent);
      && o.inserted == [] && ValidPath(o.root, q)
      && Tags(At(o.root, q).children)
         == Tags(At(root, q).children) + if q == parent then PlainTagsFrom(e.children, i) else []
    ensures !StrictlyBelow(parent, q) ==> At(ProcessChildrenIn(root, e, i, parent).root, q).attrs == At(root, q).attrs
    decreases |e.children| - i
  {
    if i < |e.children| {
      var c := e.children[i];
      var o1 := ChildIn(root, c, parent);
      ChildInTags(root, c, parent, q);
      ChildInTags(root, c, parent, parent);
      ChildrenInUnfold(root, e, i, parent);
      ChildrenInEffect(o1.root, e, i + 1, parent, q);
      PlainTagsStep(e.children, i, q == parent);
      AppendAssoc(Tags(At(root, q).children),
                  if q == parent && |ParseCustomSyntax(c)| == 0 then [c.tag] else [],
                  if q == parent then PlainTagsFrom(e.children, i + 1) else []);
    }
  }

  /** A parent whose children insert nothing at the root leaves the later parents' paths as they were. */
  lemma ParentsUnfold(root: Element, e: Element, ps: seq<Path>)
    requires |ps| > 0 && forall p :: p in ps ==> ValidPath(root, p)
    requires ProcessChildrenIn(root, e, 0, ps[0]).inserted == []
    ensures forall p :: p in ps[1..] ==> ValidPath(ProcessChildrenIn(root, e, 0, ps[0]).root, p)
    ensures ProcessParents(root, e, ps) == ProcessParents(ProcessChildrenIn(root, e, 0, ps[0]).root, e, ps[1..])
  {
    var o1 := ProcessChildrenIn(root, e, 0, ps[0]);
    forall p | p in ps[1..] ensures ValidPath(o1.root, p) {
      assert ShiftAll(p, o1.inserted) == p;
      KeepsHeld(root, o1, p);
    }
    assert ShiftEach(ps[1..], o1.inserted) == ps[1..] by {
      ShiftEachNone(ps[1..]);
    }
    var o2 := ProcessParents(o1.root, e, ps[1..]);
    assert ProcessParents(root, e, ps) == Outcome(o2.root, o1.inserted + o2.inserted);
    assert o1.inserted + o2.inserted == o2.inserted;
  }

  lemma ShiftEachNone(ps: seq<Path>)
    ensures ShiftEach(ps, []) == ps
  {
    assert forall p :: ShiftAll(p, []) == p;
  }

  /** A node among distinct parents is the first one or a later one, never both. */
  lemma CountedOnce<T>(q: Path, ps: seq<Path>, xs: seq<T>)
    requires |ps| > 0 && Distinct(ps)
    ensures (if q == ps[0] then xs else []) + (if q in ps[1..] then xs else []) == if q in ps then xs else []
  {
    DistinctTail(ps);
    assert q in ps <==> q == ps[0] || q in ps[1..];
  }

  /** Each matched parent in turn: exactly the parents gain the plain children, by tag. */
  lemma {:induction false} ParentsEffect(root: Element, e: Element, ps: seq<Path>, q: Path)
    requires forall p :: p in ps ==> ValidPath(root, p)
    requires Distinct(ps) && ValidPath(root, q)
    requires forall j :: 0 <= j < |e.children| ==> AttrOnly(e.children[j])
    ensures var o := ProcessParents(root, e, ps);
      && o.inserted == [] && ValidPath(o.root, q)
      && Tags(At(o.root, q).children) == Tags(At(root, q).children) + if q in ps then PlainTagsFrom(e.children, 0) else []
    ensures (forall p :: p in ps ==> !StrictlyBelow(p, q)) ==> At(ProcessParents(root, e, ps).root, q).attrs == At(root, q).attrs
    decreases |ps|
  {
    if |ps| > 0 {
      var o1 := ProcessChildrenIn(root, e, 0, ps[0]);
      ChildrenInEffect(root, e, 0, ps[0], q);
      ParentsUnfold(root, e, ps);
      DistinctTail(ps);
      ParentsEffect(o1.root, e, ps[1..], q);
      var plain := PlainTagsFrom(e.children, 0);
      CountedOnce(q, ps, plain);
      AppendAssoc(Tags(At(root, q).children), if q == ps[0] then plain else [], if q in ps[1..] then plain else []);
    }
  }

  /**
   * Path 3, when the children with operations carry attribute operations
   * only: nothing is inserted at the root, every node keeps its tag, and a
   * node gains the plain children (in order, by tag) exactly when the
   * annotation matches it somewhere in the document; no other node gains a
   * child.
   */
  lemma ParentContextEffect(root: Element, e: Element, base: Path, q: Path)
    requires ValidPath(root, base) && ValidPath(root, q)
    requires |ParseCustomSyntax(e)| == 0 && HasOpsChild(e)
    requires forall j :: 0 <= j < |e.children| ==> AttrOnly(e.children[j])
    ensures Process(root, e, base).inserted == []
    ensures ValidPath(Process(root, e, base).root, q)
    ensures At(Process(root, e, base).root, q).tag == At(root, q).tag
    ensures Tags(At(Process(root, e, base).root, q).children)
         == Tags(At(root, q).children) + if |q| > 0 && PatternMatches(e, At(root, q)) then Tags(PlainKids(e)) else []
    ensures (forall p :: p in FindMatching(root, e) ==> !StrictlyBelow(p, q))
        ==> At(Process(root, e, base).root, q).attrs == At(root, q).attrs
  {
    ParentPath(root, e, base);
    var ms := FindMatching(root, e);
    ParentsEffect(root, e, ms, q);
    PlainTagsFromSelect(e.children, 0);
    assert e.children[0..] == e.children;
    assert ShiftAll(q, []) == q;
  }

  /** An annotation with no operations on it or its children takes path 4. */
  lemma PlainPath(root: Element, e: Element, base: Path)
    requires ValidPath(root, base)
    requires |ParseCustomSyntax(e)| == 0 && !HasOpsChild(e)
    ensures Process(root, e, base) == MergePlain(root, e)
  {
    assert ChildrenMatch(ParseCustomSyntax(e)).None?;
  }

  /**
   * Path 4 with a match somewhere: every match gets the annotation's
   * attributes (overwriting) and copies of its children, nothing is
   * inserted at the root, and nothing else changes.
   */
  lemma MergeMatchedEffect(root: Element, e: Element, q: Path)
    requires ValidPath(root, q)
    requires |FindMatching(root, e)| > 0
    ensures MergePlain(root, e).inserted == []
    ensures ValidPath(MergePlain(root, e).root, q)
    ensures At(MergePlain(root, e).root, q).tag == At(root, q).tag
    ensures At(MergePlain(root, e).root, q).attrs
         == if BelowMatching(root, [], q, e) then SetAll(At(root, q).attrs, e.attrs) else At(root, q).attrs
    ensures |At(MergePlain(root, e).root, q).children|
         == |At(root, q).children| + if BelowMatching(root, [], q, e) then |e.children| else 0
    ensures At(MergePlain(root, e).root, q).children[|At(root, q).children|..]
         == if BelowMatching(root, [], q, e) then e.children else []
  {
    var matches := FindMatching(root, e);
    assert q[..0] == [];
    EditEachEffect(root, matches, SetAllWith(e.attrs), e.children, q);
  }

  /**
   * Path 4 with no match and no root child of the tag: the annotation is
   * placed as a new root child, with its attributes and copies of its
   * children, right before `<worldbody>` (last without one), and the step
   * reports that insertion.
   */
  lemma MergeCreatesEffect(root: Element, e: Element)
    requires |FindMatching(root, e)| == 0 && FindChild(root, e.tag).None?
    requires UniqueKeys(e.attrs)
    ensures MergePlain(root, e)
         == Outcome(Insert(root, BeforeWorldbodySlot(root), Element(e.tag, e.attrs, "", e.children)), [BeforeWorldbodySlot(root)])
  {
    var i := BeforeWorldbodySlot(root);
    var r1 := Insert(root, i, NewElement(e.tag, []));
    assert EnsureBeforeWorldbody(root, e.tag) == (r1, i);
    assert MergePlain(root, e) == Outcome(EditEach(r1, [[i]], SetAllWith(e.attrs), e.children), [i]);
    InsertThenEdit(root, i, e.tag, SetAllWith(e.attrs), e.children);
    SetAllFresh([], e.attrs);
    assert [] + e.attrs == e.attrs;
    assert SetAllWith(e.attrs)([]) == e.attrs;
  }

  /** Path 4 with no match but a root child of the tag: the first such child takes the attributes and children. */
  lemma MergeExistingEffect(root: Element, e: Element, i: nat)
    requires |FindMatching(root, e)| == 0 && FindChild(root, e.tag) == Some(i)
    ensures MergePlain(root, e).inserted == []
    ensures MergePlain(root, e).root
         == root.(children := root.children[i := root.children[i].(attrs := SetAll(root.children[i].attrs, e.attrs),
                                                                   children := root.children[i].children + e.children)])
  {
    EditEachOne(root, [i], SetAllWith(e.attrs), e.children);
    EditAtChild(root, i, SetAll(root.children[i].attrs, e.attrs), e.children);
  }

  /** An annotation none of whose parents match consumes nothing and changes nothing. */
  lemma UnmatchedParentNoChange(root: Element, e: Element, base: Path)
    requires ValidPath(root, base)
    requires |ParseCustomSyntax(e)| == 0 && HasOpsChild(e)
    requires |FindMatching(root, e)| == 0
    ensures Process(root, e, base) == Outcome(root, [])
  {
    assert ChildrenMatch(ParseCustomSyntax(e)).None?;
  }
}

=== FILE: matcher.dfy ===
/**
 * Finding target elements by tag and attribute pattern
 * (`find_matching_elements`, its wildcard variant, and the ElementPath
 * queries `.//tag[@k='v']...` the converter issues directly).
 */
module Matcher {

  import opened Options
  import opened AttrList
  import opened Text
  import opened Tree

  /** `fnmatch.fnmatch(v, pat)` where only `*` is special: `*` matches any run of characters. */
  predicate Glob(v: string, pat: string)
    decreases |pat| + |v|
  {
    if |pat| == 0 then |v| == 0
    else if pat[0] == '*' then Glob(v, pat[1..]) || (|v| > 0 && Glob(v[1..], pat))
    else |v| > 0 && v[0] == pat[0] && Glob(v[1..], pat[1..])
  }

  /** A pattern without `*` matches exactly itself. */
  lemma {:induction false} GlobLiteral(v: string, pat: string)
    requires '*' !in pat
    ensures Glob(v, pat) <==> v == pat
    decreases |pat| + |v|
  {
    if |pat| > 0 && |v| > 0 {
      assert '*' !in pat[1..];
      GlobLiteral(v[1..], pat[1..]);
      if v[0] == pat[0] && v[1..] == pat[1..] {
        assert v == [v[0]] + v[1..] && pat == [pat[0]] + pat[1..];
      }
    }
  }

  /** `*` alone matches every value. */
  lemma {:induction false} GlobStar(v: string)
    ensures Glob(v, "*")
    decreases |v|
  {
    assert "*"[1..] == "";
    if |v| > 0 {
      GlobStar(v[1..]);
    }
  }

  /** `prefix*` matches exactly the values that start with `prefix`. */
  lemma {:induction false} GlobPrefix(v: string, prefix: string)
    requires '*' !in prefix
    ensures Glob(v, prefix + "*") <==> StartsWith(v, prefix)
    decreases |prefix|
  {
    if |prefix| == 0 {
      assert prefix + "*" == "*";
      GlobStar(v);
    } else {
      var pat := prefix + "*";
      assert pat[0] == prefix[0] && pat[1..] == prefix[1..] + "*";
      assert '*' !in prefix[1..];
      if |v| > 0 {
        GlobPrefix(v[1..], prefix[1..]);
        assert StartsWith(v, prefix) <==> v[0] == prefix[0] && StartsWith(v[1..], prefix[1..]) by {
          if v[0] == prefix[0] && StartsWith(v[1..], prefix[1..]) {
            assert v[..|prefix|] == [v[0]] + v[1..][..|prefix| - 1];
            assert prefix == [prefix[0]] + prefix[1..];
          }
          if StartsWith(v, prefix) {
            assert v[1..][..|prefix| - 1] == v[..|prefix|][1..];
          }
        }
      }
    }
  }

  /** Every `(k, p)` of `pat` names an attribute of `a` whose value glob-matches `p`. */
  predicate GlobAll(a: Attrs, pat: Attrs) {
    forall i :: 0 <= i < |pat| ==> Get(a, pat[i].0).Some? && Glob(Get(a, pat[i].0).value, pat[i].1)
  }

  /** `any('*' in v for v in attrib.values())`. */
  predicate HasWildcard(pat: Attrs) {
    exists i :: 0 <= i < |pat| && '*' in pat[i].1
  }

  /** With no `*` in any pattern value, glob matching is exact matching. */
  lemma GlobAllLiteral(a: Attrs, pat: Attrs)
    requires !HasWildcard(pat)
    ensures GlobAll(a, pat) <==> HasAll(a, pat)
  {
    forall i | 0 <= i < |pat| && Get(a, pat[i].0).Some?
      ensures Glob(Get(a, pat[i].0).value, pat[i].1) <==> Get(a, pat[i].0) == Some(pat[i].1)
    {
      GlobLiteral(Get(a, pat[i].0).value, pat[i].1);
    }
  }

  /** `ctx.findall(".//tag[@k1='v1'][@k2='v2']...")`: descendants with the tag and every listed attribute, in document order. */
  function FindAll(ctx: Element, tag: string, pat: Attrs): (r: seq<Path>)
    ensures Distinct(r) && InDocumentOrder(r)
    ensures forall p :: p in r <==>
      |p| > 0 && ValidPath(ctx, p) && At(ctx, p).tag == tag && HasAll(At(ctx, p).attrs, pat)
  {
    DescendantsExact(ctx);
    DescendantsOrdered(ctx);
    Filter(ctx, Descendants(ctx), (n: Element) => n.tag == tag && HasAll(n.attrs, pat))
  }

  /** `ctx.find(".//tag[@k='v']...")`: the first such descendant in document order. */
  function FindFirst(ctx: Element, tag: string, pat: Attrs): (r: Option<Path>)
    ensures r.Some? ==>
      |r.value| > 0 && ValidPath(ctx, r.value) && At(ctx, r.value).tag == tag && HasAll(At(ctx, r.value).attrs, pat)
    ensures r.Some? ==> forall p ::
      |p| > 0 && ValidPath(ctx, p) && At(ctx, p).tag == tag && HasAll(At(ctx, p).attrs, pat) ==> p == r.value || Before(r.value, p)
    ensures r.None? ==> forall p :: |p| > 0 && ValidPath(ctx, p) ==>
      !(At(ctx, p).tag == tag && HasAll(At(ctx, p).attrs, pat))
  {
    var all := FindAll(ctx, tag, pat);
    if |all| == 0 then None
    else
      assert all[0] in all;
      assert forall p :: p in all ==> p == all[0] || Before(all[0], p);
      Some(all[0])
  }

  /** The matches listed in document order, each once, are exactly `FindAll`'s result. */
  lemma FindAllUnique(ctx: Element, tag: string, pat: Attrs, ps: seq<Path>)
    requires InDocumentOrder(ps)
    requires forall p :: p in ps <==> |p| > 0 && ValidPath(ctx, p) && At(ctx, p).tag == tag && HasAll(At(ctx, p).attrs, pat)
    ensures ps == FindAll(ctx, tag, pat)
  {
    OrderedUnique(ps, FindAll(ctx, tag, pat));
  }

  /** `find_matching_elements_with_wildcards`: descendants with the tag whose attributes glob-match. */
  function FindWithWildcards(ctx: Element, pattern: Element): (r: seq<Path>)
    ensures Distinct(r) && InDocumentOrder(r)
    ensures forall p :: p in r <==>
      |p| > 0 && ValidPath(ctx, p) && At(ctx, p).tag == pattern.tag && GlobAll(At(ctx, p).attrs, pattern.attrs)
  {
    DescendantsExact(ctx);
    DescendantsOrdered(ctx);
    Filter(ctx, Descendants(ctx), (n: Element) => n.tag == pattern.tag && GlobAll(n.attrs, pattern.attrs))
  }

  /**
   * Whether `find_matching_elements` reports a node. A pattern without
   * attributes matches nothing. Without `*` the source builds one ElementPath
   * predicate joined by ` and `; ElementTree accepts it only for a single
   * attribute and raises for two or more, which the source turns into `[]`.
   */
  predicate PatternMatches(pattern: Element, n: Element) {
    && |pattern.attrs| > 0
    && n.tag == pattern.tag
    && if HasWildcard(pattern.attrs) then GlobAll(n.attrs, pattern.attrs)
       else |pattern.attrs| == 1 && HasAll(n.attrs, pattern.attrs)
  }

  /** `find_matching_elements(ctx, pattern)`. */
  function FindMatching(ctx: Element, pattern: Element): (r: seq<Path>)
    ensures Distinct(r) && InDocumentOrder(r)
    ensures forall p :: p in r <==> |p| > 0 && ValidPath(ctx, p) && PatternMatches(pattern, At(ctx, p))
  {
    if |pattern.attrs| == 0 then []
    else if HasWildcard(pattern.attrs) then FindWithWildcards(ctx, pattern)
    else if |pattern.attrs| == 1 then FindAll(ctx, pattern.tag, pattern.attrs)
    else []
  }

  /** Two or more literal attributes make a query ElementTree rejects, so nothing is ever matched. */
  lemma SeveralLiteralsMatchNothing(ctx: Element, pattern: Element)
    requires |pattern.attrs| >= 2 && !HasWildcard(pattern.attrs)
    ensures FindMatching(ctx, pattern) == []
  {
  }

  /** A pattern without attributes matches nothing, whatever the tree holds. */
  lemma EmptyPatternMatchesNothing(ctx: Element, pattern: Element)
    requires |pattern.attrs| == 0
    ensures FindMatching(ctx, pattern) == []
  {
  }
}

=== FILE: options.dfy ===
/** A minimal optional value, standing in for Python's `None`. */
module Options {

  datatype Option<+T> = None | Some(value: T) {

    /** The wrapped value, or `default` when there is none (Python's `x or default`). */
    function GetOr(default: T): T {
      match this
      case Some(v) => v
      case None => default
    }
  }
}

=== FILE: parser.dfy ===
/**
 * The attribute mini-language of annotation elements. The reserved
 * attributes `inject_attr`, `inject_attrs`, `replace_attrs` and
 * `inject_children` hold `key='value'` pairs (also `key:="value"`), found by
 * scanning for the regular expression `(\w+):?=(['"])(.*?)\2`; this module
 * decodes them into operations.
 */
module AttrParser {

  import opened Options
  import opened Text
  import opened AttrList
  import opened Tree

  predicate IsQuote(c: char) {
    c == '\'' || c == '"'
  }

  /** One match of the pair pattern: the key, whether `:=` was written, the quote character and the value. */
  datatype Token = Token(key: string, walrus: bool, quote: char, value: string)

  /** The text a token spans. */
  function Render(t: Token): string {
    t.key + (if t.walrus then ":=" else "=") + [t.quote] + t.value + [t.quote]
  }

  /** A token the pattern can produce: a non-empty word for a key, and a value holding neither its quote nor a newline. */
  predicate WellFormed(t: Token) {
    && |t.key| > 0 && (forall i :: 0 <= i < |t.key| ==> IsWordChar(t.key[i]))
    && IsQuote(t.quote)
    && t.quote !in t.value && '\n' !in t.value
  }

  /** `s` begins with the text of the well-formed token `t`. */
  predicate MatchesAt(s: string, t: Token) {
    WellFormed(t) && StartsWith(s, Render(t))
  }

  /** The length of the run of word characters `s` starts with. */
  function WordLen(s: string): (n: nat)
    ensures n <= |s|
  {
    if |s| > 0 && IsWordChar(s[0]) then 1 + WordLen(s[1..]) else 0
  }

  /** `WordLen` counts word characters, and stops at the first other one. */
  lemma {:induction false} WordLenRun(s: string)
    ensures forall i :: 0 <= i < WordLen(s) ==> IsWordChar(s[i])
    ensures WordLen(s) < |s| ==> !IsWordChar(s[WordLen(s)])
  {
    if |s| > 0 && IsWordChar(s[0]) {
      WordLenRun(s[1..]);
    }
  }

  /** The index of the first `q` in `s`, unless a newline comes first: the lazy `(.*?)` followed by `\2`. */
  function QuoteEnd(s: string, q: char): (r: Option<nat>)
    ensures r.Some? ==> r.value < |s|
  {
    if |s| == 0 then None
    else if s[0] == q then Some(0)
    else if s[0] == '\n' then None
    else match QuoteEnd(s[1..], q)
      case None => None
      case Some(m) => Some(m + 1)
  }

  /** What `QuoteEnd` finds is the quote, with neither the quote nor a newline before it. */
  lemma {:induction false} QuoteEndRun(s: string, q: char)
    requires QuoteEnd(s, q).Some?
    ensures s[QuoteEnd(s, q).value] == q
    ensures forall i :: 0 <= i < QuoteEnd(s, q).value ==> s[i] != q && s[i] != '\n'
  {
    if s[0] != q {
      QuoteEndRun(s[1..], q);
    }
  }

  /** The length of the assignment sign at index `n` of `s`: 1 for `=`, 2 for `:=`, 0 for neither. */
  function SignLen(s: string, n: nat): (a: nat)
    ensures a <= 2
  {
    if n < |s| && s[n] == '=' then 1
    else if n + 1 < |s| && s[n] == ':' && s[n + 1] == '=' then 2
    else 0
  }

  /** The match of the pair pattern anchored at the start of `s`, if there is one, and the length it spans. */
  function MatchAt(s: string): (r: Option<Token>)
    ensures r.Some? ==> 0 < |Render(r.value)| <= |s|
  {
    var n := WordLen(s);
    var a := SignLen(s, n);
    if n == 0 || a == 0 || n + a >= |s| || !IsQuote(s[n + a]) then None
    else QuotedFrom(s, n, n + a)
  }

  /** The rest of a match once the key spans `s[..n]` and the opening quote sits at index `k`. */
  function QuotedFrom(s: string, n: nat, k: nat): (r: Option<Token>)
    requires n < k < |s|
    ensures r.Some? ==> |Render(r.value)| <= |s| && r.value.walrus == (k == n + 2)
  {
    match QuoteEnd(s[k + 1..], s[k])
    case None => None
    case Some(m) => Some(Token(s[..n], k == n + 2, s[k], s[k + 1..k + 1 + m]))
  }

  /** Whatever the pattern matches at the start of `s` is a well-formed token that `s` begins with. */
  lemma MatchAtSound(s: string)
    requires MatchAt(s).Some?
    ensures MatchesAt(s, MatchAt(s).value)
  {
    var n := WordLen(s);
    var k := n + SignLen(s, n);
    WordLenRun(s);
    QuoteEndRun(s[k + 1..], s[k]);
    var m := QuoteEnd(s[k + 1..], s[k]).value;
    forall i | k + 1 <= i < k + 1 + m ensures s[i] != s[k] && s[i] != '\n' {
      assert s[i] == s[k + 1..][i - k - 1];
    }
    assert s[k + 1 + m] == s[k + 1..][m];
    assert MatchAt(s) == QuotedFrom(s, n, k) == Some(Token(s[..n], k == n + 2, s[k], s[k + 1..k + 1 + m]));
    TokenAt(s, n, k, m);
  }

  /** The pieces `MatchAt` cuts out of `s` make up a well-formed token `s` starts with. */
  lemma TokenAt(s: string, n: nat, k: nat, m: nat)
    requires 0 < n < k < |s| && k + 1 + m < |s|
    requires forall i :: 0 <= i < n ==> IsWordChar(s[i])
    requires (k == n + 1 && s[n] == '=') || (k == n + 2 && s[n] == ':' && s[n + 1] == '=')
    requires IsQuote(s[k]) && s[k + 1 + m] == s[k]
    requires forall i :: k + 1 <= i < k + 1 + m ==> s[i] != s[k] && s[i] != '\n'
    ensures MatchesAt(s, Token(s[..n], k == n + 2, s[k], s[k + 1..k + 1 + m]))
  {
    var t := Token(s[..n], k == n + 2, s[k], s[k + 1..k + 1 + m]);
    assert s[n..k] == if t.walrus then ":=" else "=";
    assert s[..k + 2 + m] == s[..n] + s[n..k] + [s[k]] + s[k + 1..k + 1 + m] + [s[k + 1 + m]];
  }

  /** The word run `s` starts with ends exactly where a non-word character follows `n` word characters. */
  lemma {:induction false} WordLenAt(s: string, n: nat)
    requires n < |s| && !IsWordChar(s[n])
    requires forall i :: 0 <= i < n ==> IsWordChar(s[i])
    ensures WordLen(s) == n
  {
    if n > 0 {
      WordLenAt(s[1..], n - 1);
    }
  }

  /** A quote-free, newline-free run followed by the quote is found by `QuoteEnd`. */
  lemma {:induction false} QuoteEndAt(s: string, q: char, v: string)
    requires q != '\n' && q !in v && '\n' !in v
    requires StartsWith(s, v + [q])
    ensures QuoteEnd(s, q) == Some(|v|)
  {
    if |v| > 0 {
      assert s[0] == v[0];
      assert StartsWith(s[1..], v[1..] + [q]) by {
        assert s[1..][..|v|] == s[..|v| + 1][1..];
      }
      QuoteEndAt(s[1..], q, v[1..]);
    } else {
      assert s[0] == (v + [q])[0];
    }
  }

  /** Where the pieces of a token sit in its text. */
  lemma RenderParts(t: Token)
    ensures var n := |t.key|; var k := if t.walrus then n + 2 else n + 1;
      && |Render(t)| == k + 2 + |t.value|
      && Render(t)[..n] == t.key
      && Render(t)[n] == (if t.walrus then ':' else '=')
      && (t.walrus ==> Render(t)[n + 1] == '=')
      && Render(t)[k] == t.quote
      && Render(t)[k + 1..k + 2 + |t.value|] == t.value + [t.quote]
  {
  }

  /** The pattern matches at the start of `s` exactly when `s` begins with a well-formed token, and then that token. */
  lemma MatchAtComplete(s: string, t: Token)
    requires MatchesAt(s, t)
    ensures MatchAt(s) == Some(t)
  {
    var n := |t.key|;
    var k := if t.walrus then n + 2 else n + 1;
    TokenPrefix(s, t);
    WordLenAt(s, n);
    QuoteEndAt(s[k + 1..], t.quote, t.value);
    MatchAtFrom(s, n, k, |t.value|);
  }

  /** What a string that begins with a token's text holds, piece by piece. */
  lemma TokenPrefix(s: string, t: Token)
    requires MatchesAt(s, t)
    ensures var n := |t.key|; var k := if t.walrus then n + 2 else n + 1;
      && k + 1 + |t.value| < |s|
      && s[..n] == t.key
      && (forall i :: 0 <= i < n ==> IsWordChar(s[i]))
      && !IsWordChar(s[n])
      && ((k == n + 1 && s[n] == '=') || (k == n + 2 && s[n] == ':' && s[n + 1] == '='))
      && s[k] == t.quote
      && StartsWith(s[k + 1..], t.value + [t.quote])
      && s[k + 1..k + 1 + |t.value|] == t.value
  {
    var rt := Render(t);
    var n := |t.key|;
    var k := if t.walrus then n + 2 else n + 1;
    var v := t.value;
    RenderParts(t);
    assert s[..|rt|] == rt;
    assert s[..n] == rt[..n];
    forall i | 0 <= i < n ensures IsWordChar(s[i]) {
      assert s[i] == t.key[i];
    }
    assert s[n] == rt[n] && s[k] == rt[k];
    assert t.walrus ==> s[n + 1] == rt[n + 1];
    assert s[k + 1..][..|v| + 1] == s[k + 1..k + 2 + |v|] == rt[k + 1..k + 2 + |v|];
    assert s[k + 1..k + 1 + |v|] == s[k + 1..][..|v| + 1][..|v|];
  }

  /** `MatchAt` once its three scans are known. */
  lemma MatchAtFrom(s: string, n: nat, k: nat, m: nat)
    requires WordLen(s) == n > 0 && k < |s|
    requires (k == n + 1 && s[n] == '=') || (k == n + 2 && s[n] == ':' && s[n + 1] == '=')
    requires IsQuote(s[k]) && QuoteEnd(s[k + 1..], s[k]) == Some(m)
    ensures MatchAt(s) == Some(Token(s[..n], k == n + 2, s[k], s[k + 1..k + 1 + m]))
  {
    MatchAtQuoted(s, n, k);
    QuotedFromAt(s, n, k, m);
  }

  lemma QuotedFromAt(s: string, n: nat, k: nat, m: nat)
    requires n < k < |s|
    requires QuoteEnd(s[k + 1..], s[k]) == Some(m)
    ensures QuotedFrom(s, n, k) == Some(Token(s[..n], k == n + 2, s[k], s[k + 1..k + 1 + m]))
  {
  }

  lemma MatchAtQuoted(s: string, n: nat, k: nat)
    requires WordLen(s) == n > 0 && k < |s|
    requires (k == n + 1 && s[n] == '=') || (k == n + 2 && s[n] == ':' && s[n + 1] == '=')
    requires IsQuote(s[k])
    ensures MatchAt(s) == QuotedFrom(s, n, k)
  {
    assert SignLen(s, n) == k - n;
  }

  /** `re.findall` with the pair pattern: scanning left to right, resuming after each match, else one character on. */
  function Scan(s: string): (r: seq<Token>)
    decreases |s|
  {
    if |s| == 0 then []
    else match MatchAt(s)
      case Some(t) => [t] + Scan(s[|Render(t)|..])
      case None => Scan(s[1..])
  }

  /** The `(key, value)` pairs of a token list. */
  function Pairs(ts: seq<Token>): (r: Attrs)
    ensures |r| == |ts| && forall i :: 0 <= i < |ts| ==> r[i] == (ts[i].key, ts[i].value)
  {
    seq(|ts|, i requires 0 <= i < |ts| => (ts[i].key, ts[i].value))
  }

  /**
   * `_parse_attr_string`: every pair found, stored in a dict one after
   * another, so a repeated key keeps its first position and its last value.
   * The `separator` argument only appears in a warning and is not modelled.
   */
  function ParseAttrString(s: string): (r: Attrs)
    ensures UniqueKeys(r)
  {
    SetAll([], Pairs(Scan(s)))
  }

  /** Tokens written one after another with a one-character separator between them. */
  function RenderAll(ts: seq<Token>, sep: char): string
  {
    if |ts| == 0 then ""
    else if |ts| == 1 then Render(ts[0])
    else Render(ts[0]) + [sep] + RenderAll(ts[1..], sep)
  }

  /** Every match spans an `=`. */
  lemma MatchNeedsEquals(s: string)
    requires MatchAt(s).Some?
    ensures '=' in s
  {
    MatchAtSound(s);
    var t := MatchAt(s).value;
    RenderParts(t);
    var j := |t.key| + if t.walrus then 1 else 0;
    assert s[..|Render(t)|] == Render(t);
    assert s[j] == Render(t)[j] == '=';
  }

  /** Every pair the scan finds has a word for a key and a value free of its quote and of newlines. */
  lemma {:induction false} ScanSound(s: string)
    ensures forall i :: 0 <= i < |Scan(s)| ==> WellFormed(Scan(s)[i])
    decreases |s|
  {
    if |s| > 0 {
      match MatchAt(s)
      case Some(t) =>
        MatchAtSound(s);
        ScanSound(s[|Render(t)|..]);
      case None =>
        ScanSound(s[1..]);
    }
  }

  /** Scanning never finds a pair in a string without `=`. */
  lemma {:induction false} ScanWithoutEquals(s: string)
    requires '=' !in s
    ensures Scan(s) == []
    decreases |s|
  {
    if |s| > 0 {
      if MatchAt(s).Some? {
        MatchNeedsEquals(s);
      }
      assert '=' !in s[1..];
      ScanWithoutEquals(s[1..]);
    }
  }

  /** A token's text at the front is scanned as that token, and scanning resumes right after it. */
  lemma ScanToken(t: Token, rest: string)
    requires WellFormed(t)
    ensures Scan(Render(t) + rest) == [t] + Scan(rest)
  {
    var s := Render(t) + rest;
    assert s[..|Render(t)|] == Render(t);
    MatchAtComplete(s, t);
    assert s[|Render(t)|..] == rest;
  }

  /** A non-word character at the front starts no match and is skipped. */
  lemma ScanSkip(c: char, rest: string)
    requires !IsWordChar(c)
    ensures Scan([c] + rest) == Scan(rest)
  {
    var s := [c] + rest;
    assert WordLen(s) == 0;
    assert s[1..] == rest;
  }

  /** Scanning the rendering of well-formed tokens, separated by a non-word character, gives the tokens back. */
  lemma {:induction false} ScanRoundTrip(ts: seq<Token>, sep: char)
    requires forall i :: 0 <= i < |ts| ==> WellFormed(ts[i])
    requires !IsWordChar(sep)
    ensures Scan(RenderAll(ts, sep)) == ts
  {
    if |ts| == 1 {
      ScanToken(ts[0], "");
      assert Render(ts[0]) + "" == Render(ts[0]);
    } else if |ts| > 1 {
      var tail := RenderAll(ts[1..], sep);
      assert RenderAll(ts, sep) == Render(ts[0]) + ([sep] + tail);
      ScanCons(ts[0], sep, tail);
      assert forall i :: 0 <= i < |ts[1..]| ==> ts[1..][i] == ts[i + 1];
      ScanRoundTrip(ts[1..], sep);
      assert [ts[0]] + ts[1..] == ts;
    }
  }

  /** A token followed by a separator: the token, then whatever follows the separator. */
  lemma ScanCons(t: Token, sep: char, tail: string)
    requires WellFormed(t) && !IsWordChar(sep)
    ensures Scan(Render(t) + ([sep] + tail)) == [t] + Scan(tail)
  {
    ScanToken(t, [sep] + tail);
    ScanSkip(sep, tail);
  }

  /** The keys of a rendered token list, read back, in order and without repeats, are the dict itself. */
  lemma ParseRoundTrip(ts: seq<Token>, sep: char)
    requires forall i :: 0 <= i < |ts| ==> WellFormed(ts[i])
    requires !IsWordChar(sep)
    requires UniqueKeys(Pairs(ts))
    ensures ParseAttrString(RenderAll(ts, sep)) == Pairs(ts)
  {
    ScanRoundTrip(ts, sep);
    SetAllFresh([], Pairs(ts));
  }

  /** With repeated keys, each key read back has the value written last. */
  lemma ParseLastWins(ts: seq<Token>, sep: char, k: string)
    requires forall i :: 0 <= i < |ts| ==> WellFormed(ts[i])
    requires !IsWordChar(sep)
    ensures Get(ParseAttrString(RenderAll(ts, sep)), k) == GetLast(Pairs(ts), k)
  {
    ScanRoundTrip(ts, sep);
  }

  /** A string without `=` holds no pair. */
  lemma ParseWithoutEquals(s: string)
    requires '=' !in s
    ensures ParseAttrString(s) == []
  {
    ScanWithoutEquals(s);
  }

  /**
   * `_parse_conditional_replacement`: split at the first `:`, strip both
   * sides, read pairs from each; no result when either side holds no pair.
   */
  function ParseConditional(s: string): (r: Option<(Attrs, Attrs)>)
    ensures r.Some? ==> |r.value.0| > 0 && |r.value.1| > 0
    ensures r.Some? ==> UniqueKeys(r.value.0) && UniqueKeys(r.value.1)
    ensures ':' !in s ==> r.None?
  {
    match SplitFirst(s, ':')
    case None => None
    case Some(parts) =>
      var conds := ParseAttrString(Strip(parts.0));
      var repls := ParseAttrString(Strip(parts.1));
      if |conds| == 0 || |repls| == 0 then None else Some((conds, repls))
  }

  /** A rendering starts with a word character and ends with a quote, so stripping leaves it alone. */
  lemma RenderAllStrip(ts: seq<Token>, sep: char)
    requires |ts| > 0 && forall i :: 0 <= i < |ts| ==> WellFormed(ts[i])
    ensures Strip(RenderAll(ts, sep)) == RenderAll(ts, sep)
  {
    var s := RenderAll(ts, sep);
    assert s[0] == ts[0].key[0];
    RenderAllLast(ts, sep);
  }

  lemma {:induction false} RenderAllLast(ts: seq<Token>, sep: char)
    requires |ts| > 0 && forall i :: 0 <= i < |ts| ==> WellFormed(ts[i])
    ensures |RenderAll(ts, sep)| > 0 && IsQuote(RenderAll(ts, sep)[|RenderAll(ts, sep)| - 1])
  {
    if |ts| > 1 {
      RenderAllLast(ts[1..], sep);
    }
  }

  /** No `:` in a rendering whose tokens use `=`, whose values hold no `:`, and whose separator is not `:`. */
  lemma {:induction false} RenderAllColonFree(ts: seq<Token>, sep: char)
    requires forall i :: 0 <= i < |ts| ==> WellFormed(ts[i]) && !ts[i].walrus && ':' !in ts[i].value
    requires sep != ':'
    ensures ':' !in RenderAll(ts, sep)
  {
    if |ts| > 0 {
      var t := ts[0];
      assert ':' !in t.key by {
        forall i | 0 <= i < |t.key| ensures t.key[i] != ':' {
          assert IsWordChar(t.key[i]);
        }
      }
      assert ':' !in Render(t);
      if |ts| > 1 {
        RenderAllColonFree(ts[1..], sep);
      }
    }
  }

  /** `conditions:replacements` written out is read back as those two lists. */
  lemma ConditionalRoundTrip(cs: seq<Token>, rs: seq<Token>, sep: char)
    requires |cs| > 0 && |rs| > 0
    requires forall i :: 0 <= i < |cs| ==> WellFormed(cs[i]) && !cs[i].walrus && ':' !in cs[i].value
    requires forall i :: 0 <= i < |rs| ==> WellFormed(rs[i])
    requires UniqueKeys(Pairs(cs)) && UniqueKeys(Pairs(rs))
    requires !IsWordChar(sep) && sep != ':'
    ensures ParseConditional(RenderAll(cs, sep) + ":" + RenderAll(rs, sep)) == Some((Pairs(cs), Pairs(rs)))
  {
    RenderAllColonFree(cs, sep);
    SplitFirstAt(RenderAll(cs, sep) + ":" + RenderAll(rs, sep), ':', RenderAll(cs, sep), RenderAll(rs, sep));
    RenderAllStrip(cs, sep);
    RenderAllStrip(rs, sep);
    ParseRoundTrip(cs, sep);
    ParseRoundTrip(rs, sep);
  }

  /**
   * Everything before the first `:` is the condition side, so a condition
   * side without `=` (as in the `:=` form `key:='value'`) drops the whole
   * replacement.
   */
  lemma ConditionWithoutEqualsDropped(a: string, b: string)
    requires ':' !in a && '=' !in a
    ensures ParseConditional(a + ":" + b) == None
  {
    SplitFirstAt(a + ":" + b, ':', a, b);
    if '=' in Strip(a) {
      StripKeeps(a, '=');
    }
    ParseWithoutEquals(Strip(a));
  }

  /** The `:=` form in `replace_attrs` never yields a conditional replacement. */
  lemma WalrusConditionDropped(t: Token)
    requires WellFormed(t) && t.walrus
    ensures ParseConditional(Render(t)) == None
  {
    assert ':' !in t.key && '=' !in t.key by {
      forall i | 0 <= i < |t.key| ensures t.key[i] != ':' && t.key[i] != '=' {
        assert IsWordChar(t.key[i]);
      }
    }
    assert Render(t) == t.key + ":" + ("=" + [t.quote] + t.value + [t.quote]);
    ConditionWithoutEqualsDropped(t.key, "=" + [t.quote] + t.value + [t.quote]);
  }

  /** The operations an annotation element asks for. */
  datatype Operation =
    | Inject(attrs: Attrs)
    | Replace(attrs: Attrs)
    | CondReplace(conds: Attrs, repls: Attrs)
    | InjectChildren(attrs: Attrs)

  /** The reserved attribute names, which never take part in matching. */
  const ReservedNames: seq<string> := ["inject_attr", "inject_attrs", "replace_attrs", "inject_children"]

  /** `elem.get(name)` used as a truth value: a missing and an empty attribute both count as absent. */
  function Reserved(e: Element, name: string): (r: Option<string>)
    ensures r.Some? <==> Get(e.attrs, name).Some? && |Get(e.attrs, name).value| > 0
    ensures r.Some? ==> r == Get(e.attrs, name)
  {
    match Get(e.attrs, name)
    case Some(v) => if |v| > 0 then Some(v) else None
    case None => None
  }

  /** The attribute's value, the empty string when it is missing. */
  function AttrText(e: Element, name: string): string {
    GetOr(e.attrs, name, "")
  }

  /** A reserved attribute that counts as absent holds no pair and no colon. */
  lemma ReservedText(e: Element, name: string)
    ensures Reserved(e, name).Some? ==> Reserved(e, name).value == AttrText(e, name)
    ensures Reserved(e, name).None? ==> AttrText(e, name) == ""
    ensures ParseAttrString("") == [] && ParseConditional("") == None
  {
    ParseWithoutEquals("");
  }

  /** The position of an operation kind in the decoding order. */
  function Rank(op: Operation): nat {
    match op
    case Inject(_) => 0
    case Replace(_) => 1
    case CondReplace(_, _) => 1
    case InjectChildren(_) => 2
  }

  /** Every pair list an operation carries is non-empty and has unique keys. */
  predicate Payload(op: Operation) {
    match op
    case CondReplace(cs, rs) => |cs| > 0 && |rs| > 0 && UniqueKeys(cs) && UniqueKeys(rs)
    case _ => |op.attrs| > 0 && UniqueKeys(op.attrs)
  }

  function InjectOp(v: Option<string>): (r: seq<Operation>)
    ensures |r| <= 1 && forall i :: 0 <= i < |r| ==> r[i].Inject? && Payload(r[i])
    ensures forall p :: Inject(p) in r <==> v.Some? && |p| > 0 && p == ParseAttrString(v.value)
  {
    if v.None? then []
    else
      var a := ParseAttrString(v.value);
      if |a| == 0 then [] else [Inject(a)]
  }

  function ReplaceOp(v: Option<string>): (r: seq<Operation>)
    ensures |r| <= 1 && forall i :: 0 <= i < |r| ==> Rank(r[i]) == 1 && Payload(r[i])
    ensures |r| > 0 ==> v.Some?
    ensures |r| > 0 ==> (r[0].CondReplace? <==> ':' in v.value)
    ensures forall p :: Replace(p) in r <==> v.Some? && ':' !in v.value && |p| > 0 && p == ParseAttrString(v.value)
    ensures forall cs, rs :: CondReplace(cs, rs) in r <==> v.Some? && ':' in v.value && ParseConditional(v.value) == Some((cs, rs))
  {
    if v.None? then []
    else if ':' in v.value then
      match ParseConditional(v.value)
      case Some(p) => [CondReplace(p.0, p.1)]
      case None => []
    else
      var a := ParseAttrString(v.value);
      if |a| == 0 then [] else [Replace(a)]
  }

  function ChildrenOp(v: Option<string>): (r: seq<Operation>)
    ensures |r| <= 1 && forall i :: 0 <= i < |r| ==> r[i].InjectChildren? && Payload(r[i])
    ensures forall m :: InjectChildren(m) in r <==> v.Some? && |m| > 0 && m == ParseAttrString(v.value)
  {
    if v.None? then []
    else
      var a := ParseAttrString(v.value);
      if |a| == 0 then [] else [InjectChildren(a)]
  }

  /** Ranks rise along the list; only the two injects may share one. */
  predicate Ordered(ops: seq<Operation>) {
    forall i :: 0 <= i < |ops| - 1 ==> Rank(ops[i]) < Rank(ops[i + 1]) || Rank(ops[i]) == Rank(ops[i + 1]) == 0
  }

  /**
   * `_parse_custom_syntax`: `inject_attr` and `inject_attrs` become injects,
   * `replace_attrs` a replace (conditional when it holds a `:`),
   * `inject_children` a child injection, in that order; a reserved attribute
   * that is missing, empty or holds no pair yields nothing.
   */
  function ParseCustomSyntax(e: Element): (r: seq<Operation>)
    ensures |r| <= 4
    ensures forall i :: 0 <= i < |r| ==> Payload(r[i])
    ensures Ordered(r)
    ensures forall i :: 0 <= i < |r| && r[i].InjectChildren? ==> i == |r| - 1
  {
    var a := InjectOp(Reserved(e, "inject_attr"));
    var b := InjectOp(Reserved(e, "inject_attrs"));
    var c := ReplaceOp(Reserved(e, "replace_attrs"));
    var d := ChildrenOp(Reserved(e, "inject_children"));
    OrderedJoin(a, b, c, d);
    a + b + c + d
  }

  /**
   * What the operations of an element are, attribute by attribute: an
   * injection for each non-empty `inject_attr`/`inject_attrs` list, a
   * replacement or a conditional replacement for `replace_attrs` depending on
   * whether it holds a `:`, and a children injection for a non-empty
   * `inject_children` list; nothing else.
   */
  lemma Decoding(e: Element)
    ensures forall p :: Inject(p) in ParseCustomSyntax(e) <==>
      |p| > 0 && (p == ParseAttrString(AttrText(e, "inject_attr")) || p == ParseAttrString(AttrText(e, "inject_attrs")))
    ensures forall p :: Replace(p) in ParseCustomSyntax(e) <==>
      |p| > 0 && ':' !in AttrText(e, "replace_attrs") && p == ParseAttrString(AttrText(e, "replace_attrs"))
    ensures forall cs, rs :: CondReplace(cs, rs) in ParseCustomSyntax(e) <==>
      ':' in AttrText(e, "replace_attrs") && ParseConditional(AttrText(e, "replace_attrs")) == Some((cs, rs))
    ensures forall m :: InjectChildren(m) in ParseCustomSyntax(e) <==>
      |m| > 0 && m == ParseAttrString(AttrText(e, "inject_children"))
    ensures var x := ParseAttrString(AttrText(e, "inject_attr"));
      |x| > 0 ==> |ParseCustomSyntax(e)| > 0 && ParseCustomSyntax(e)[0] == Inject(x)
    ensures var x, y := ParseAttrString(AttrText(e, "inject_attr")), ParseAttrString(AttrText(e, "inject_attrs"));
      |x| > 0 && |y| > 0 ==> |ParseCustomSyntax(e)| > 1 && ParseCustomSyntax(e)[1] == Inject(y)
  {
    DecodedKinds(e);
    DecodedOrder(e);
  }

  /** Which operation each reserved attribute yields. */
  lemma DecodedKinds(e: Element)
    ensures forall p :: Inject(p) in ParseCustomSyntax(e) <==>
      |p| > 0 && (p == ParseAttrString(AttrText(e, "inject_attr")) || p == ParseAttrString(AttrText(e, "inject_attrs")))
    ensures forall p :: Replace(p) in ParseCustomSyntax(e) <==>
      |p| > 0 && ':' !in AttrText(e, "replace_attrs") && p == ParseAttrString(AttrText(e, "replace_attrs"))
    ensures forall cs, rs :: CondReplace(cs, rs) in ParseCustomSyntax(e) <==>
      ':' in AttrText(e, "replace_attrs") && ParseConditional(AttrText(e, "replace_attrs")) == Some((cs, rs))
    ensures forall m :: InjectChildren(m) in ParseCustomSyntax(e) <==>
      |m| > 0 && m == ParseAttrString(AttrText(e, "inject_children"))
  {
    var a := InjectOp(Reserved(e, "inject_attr"));
    var b := InjectOp(Reserved(e, "inject_attrs"));
    var c := ReplaceOp(Reserved(e, "replace_attrs"));
    var d := ChildrenOp(Reserved(e, "inject_children"));
    assert ParseCustomSyntax(e) == a + b + c + d;
    DecodedInjects(e, a, b, c, d);
    DecodedReplaces(e, a, b, c, d);
    DecodedChildren(e, a, b, c, d);
  }

  /** The two injections come first, `inject_attr` before `inject_attrs`. */
  lemma DecodedOrder(e: Element)
    ensures var x := ParseAttrString(AttrText(e, "inject_attr"));
      |x| > 0 ==> |ParseCustomSyntax(e)| > 0 && ParseCustomSyntax(e)[0] == Inject(x)
    ensures var x, y := ParseAttrString(AttrText(e, "inject_attr")), ParseAttrString(AttrText(e, "inject_attrs"));
      |x| > 0 && |y| > 0 ==> |ParseCustomSyntax(e)| > 1 && ParseCustomSyntax(e)[1] == Inject(y)
  {
    var a := InjectOp(Reserved(e, "inject_attr"));
    var b := InjectOp(Reserved(e, "inject_attrs"));
    var c := ReplaceOp(Reserved(e, "replace_attrs"));
    var d := ChildrenOp(Reserved(e, "inject_children"));
    assert ParseCustomSyntax(e) == a + b + c + d;
    DecodedInjectOrder(e, a, b, c, d);
  }

  /** The `inject_attr` injection comes first, then the `inject_attrs` one. */
  lemma DecodedInjectOrder(e: Element, a: seq<Operation>, b: seq<Operation>, c: seq<Operation>, d: seq<Operation>)
    requires a == InjectOp(Reserved(e, "inject_attr")) && b == InjectOp(Reserved(e, "inject_attrs"))
    ensures var x := ParseAttrString(AttrText(e, "inject_attr"));
      |x| > 0 ==> |a + b + c + d| > 0 && (a + b + c + d)[0] == Inject(x)
    ensures var x, y := ParseAttrString(AttrText(e, "inject_attr")), ParseAttrString(AttrText(e, "inject_attrs"));
      |x| > 0 && |y| > 0 ==> |a + b + c + d| > 1 && (a + b + c + d)[1] == Inject(y)
  {
    ReservedText(e, "inject_attr");
    ReservedText(e, "inject_attrs");
  }

  lemma DecodedInjects(e: Element, a: seq<Operation>, b: seq<Operation>, c: seq<Operation>, d: seq<Operation>)
    requires a == InjectOp(Reserved(e, "inject_attr")) && b == InjectOp(Reserved(e, "inject_attrs"))
    requires forall i :: 0 <= i < |c| ==> Rank(c[i]) == 1
    requires forall i :: 0 <= i < |d| ==> d[i].InjectChildren?
    ensures forall p :: Inject(p) in a + b + c + d <==>
      |p| > 0 && (p == ParseAttrString(AttrText(e, "inject_attr")) || p == ParseAttrString(AttrText(e, "inject_attrs")))
  {
    ReservedText(e, "inject_attr");
    ReservedText(e, "inject_attrs");
    forall p ensures Inject(p) in a + b + c + d <==> Inject(p) in a || Inject(p) in b {
      assert forall i :: 0 <= i < |c| ==> c[i] != Inject(p);
      assert forall i :: 0 <= i < |d| ==> d[i] != Inject(p);
    }
  }

  lemma DecodedReplaces(e: Element, a: seq<Operation>, b: seq<Operation>, c: seq<Operation>, d: seq<Operation>)
    requires c == ReplaceOp(Reserved(e, "replace_attrs"))
    requires forall i :: 0 <= i < |a| ==> a[i].Inject?
    requires forall i :: 0 <= i < |b| ==> b[i].Inject?
    requires forall i :: 0 <= i < |d| ==> d[i].InjectChildren?
    ensures forall p :: Replace(p) in a + b + c + d <==>
      |p| > 0 && ':' !in AttrText(e, "replace_attrs") && p == ParseAttrString(AttrText(e, "replace_attrs"))
    ensures forall cs, rs :: CondReplace(cs, rs) in a + b + c + d <==>
      ':' in AttrText(e, "replace_attrs") && ParseConditional(AttrText(e, "replace_attrs")) == Some((cs, rs))
  {
    ReservedText(e, "replace_attrs");
    forall x: Operation | x.Replace? || x.CondReplace?
      ensures x in a + b + c + d <==> x in c
    {
      assert forall i :: 0 <= i < |a| ==> a[i] != x;
      assert forall i :: 0 <= i < |b| ==> b[i] != x;
      assert forall i :: 0 <= i < |d| ==> d[i] != x;
    }
  }

  lemma DecodedChildren(e: Element, a: seq<Operation>, b: seq<Operation>, c: seq<Operation>, d: seq<Operation>)
    requires d == ChildrenOp(Reserved(e, "inject_children"))
    requires forall i :: 0 <= i < |a| ==> a[i].Inject?
    requires forall i :: 0 <= i < |b| ==> b[i].Inject?
    requires forall i :: 0 <= i < |c| ==> Rank(c[i]) == 1
    ensures forall m :: InjectChildren(m) in a + b + c + d <==>
      |m| > 0 && m == ParseAttrString(AttrText(e, "inject_children"))
  {
    ReservedText(e, "inject_children");
    forall m ensures InjectChildren(m) in a + b + c + d <==> InjectChildren(m) in d {
      ChildrenLast(a + b + c, d, InjectChildren(m));
    }
  }

  lemma ChildrenLast(front: seq<Operation>, d: seq<Operation>, x: Operation)
    requires x.InjectChildren? && forall i :: 0 <= i < |front| ==> Rank(front[i]) <= 1
    ensures x in front + d <==> x in d
  {
    assert forall i :: 0 <= i < |front| ==> front[i] != x;
  }

  /** An element none of whose reserved attributes is set asks for nothing. */
  lemma NoReservedNoOps(e: Element)
    requires forall n :: n in ReservedNames ==> Reserved(e, n).None?
    ensures ParseCustomSyntax(e) == []
  {
    assert Reserved(e, ReservedNames[0]).None? && Reserved(e, ReservedNames[1]).None?;
    assert Reserved(e, ReservedNames[2]).None? && Reserved(e, ReservedNames[3]).None?;
  }

  lemma OrderedJoin(a: seq<Operation>, b: seq<Operation>, c: seq<Operation>, d: seq<Operation>)
    requires |a| <= 1 && |b| <= 1 && |c| <= 1 && |d| <= 1
    requires forall i :: 0 <= i < |a| ==> Rank(a[i]) == 0 && Payload(a[i])
    requires forall i :: 0 <= i < |b| ==> Rank(b[i]) == 0 && Payload(b[i])
    requires forall i :: 0 <= i < |c| ==> Rank(c[i]) == 1 && Payload(c[i])
    requires forall i :: 0 <= i < |d| ==> d[i].InjectChildren? && Payload(d[i])
    ensures forall i :: 0 <= i < |a + b + c + d| ==> Payload((a + b + c + d)[i])
    ensures Ordered(a + b + c + d)
    ensures forall i :: 0 <= i < |a + b + c + d| && (a + b + c + d)[i].InjectChildren? ==> i == |a + b + c + d| - 1
  {
    var r := a + b + c + d;
    assert forall i :: 0 <= i < |a + b| ==> Rank((a + b)[i]) == 0;
    assert forall i :: 0 <= i < |a + b + c| ==> Rank((a + b + c)[i]) <= 1;
    forall i | 0 <= i < |r| ensures Payload(r[i]) && (r[i].InjectChildren? ==> i == |r| - 1) && (i < |r| - 1 ==> Rank(r[i]) <= 1) {
      if i < |a + b + c| {
        assert r[i] == (a + b + c)[i];
      } else {
        assert r[i] == d[0];
      }
    }
  }

  /** An annotation whose only reserved attribute is `inject_attr`, holding at least one pair, yields one inject of its pairs. */
  lemma InjectAttrOnly(e: Element, s: string)
    requires Get(e.attrs, "inject_attr") == Some(s) && |ParseAttrString(s)| > 0
    requires Get(e.attrs, "inject_attrs").None? && Get(e.attrs, "replace_attrs").None? && Get(e.attrs, "inject_children").None?
    ensures ParseCustomSyntax(e) == [Inject(ParseAttrString(s))]
  {
    assert |s| > 0;
    assert Reserved(e, "inject_attr") == Some(s);
  }

  /** `replace_attrs="key:='value'"`, on its own, yields no operation at all. */
  lemma WalrusReplaceIgnored(e: Element, t: Token)
    requires WellFormed(t) && t.walrus
    requires Get(e.attrs, "replace_attrs") == Some(Render(t))
    requires Reserved(e, "inject_attr").None? && Reserved(e, "inject_attrs").None? && Reserved(e, "inject_children").None?
    ensures ParseCustomSyntax(e) == []
  {
    WalrusConditionDropped(t);
    assert ':' in Render(t) by {
      assert Render(t)[|t.key|] == ':';
    }
  }
}

=== FILE: placement.dfy ===
/**
 * The `ensure_*` helpers: return the root's existing section with a given
 * tag, or create it at a fixed position relative to anchor sections.
 * Each returns the new root and the index of the section among its children.
 */
module Placement {

  import opened Options
  import opened AttrList
  import opened Tree

  /** Where `ensure_extension_node` puts a new `<extension>`: after `<compiler>`, else before `<worldbody>`, else last. */
  function ExtensionSlot(root: Element): (i: nat)
    ensures i <= |root.children|
  {
    match FindChild(root, "compiler")
    case Some(c) => c + 1
    case None =>
      match FindChild(root, "worldbody")
      case Some(w) => w
      case None => |root.children|
  }

  /** `ensure_extension_node(root)`. */
  function EnsureExtension(root: Element): (r: (Element, nat))
    ensures r.1 < |r.0.children| && r.0.children[r.1].tag == "extension"
    ensures FindChild(root, "extension").Some? ==> r == (root, FindChild(root, "extension").value)
    ensures FindChild(root, "extension").None? ==>
      && r.1 <= |root.children|
      && r.0 == root.(children := root.children[..r.1] + [NewElement("extension", [])] + root.children[r.1..])
      && (FindChild(root, "compiler").Some? ==> r.1 == FindChild(root, "compiler").value + 1)
      && (FindChild(root, "compiler").None? && FindChild(root, "worldbody").Some? ==>
            r.1 == FindChild(root, "worldbody").value)
      && (FindChild(root, "compiler").None? && FindChild(root, "worldbody").None? ==> r.1 == |root.children|)
  {
    match FindChild(root, "extension")
    case Some(i) => (root, i)
    case None =>
      var i := ExtensionSlot(root);
      (Insert(root, i, NewElement("extension", [])), i)
  }

  /** `ensure_child_after(root, tag, after)`: a new section goes right after `after`, else first. */
  function EnsureChildAfter(root: Element, tag: string, after: string): (r: (Element, nat))
    ensures r.1 < |r.0.children| && r.0.children[r.1].tag == tag
    ensures FindChild(root, tag).Some? ==> r == (root, FindChild(root, tag).value)
    ensures FindChild(root, tag).None? ==>
      && r.1 <= |root.children|
      && r.0 == root.(children := root.children[..r.1] + [NewElement(tag, [])] + root.children[r.1..])
      && r.1 == match FindChild(root, after) case Some(a) => a + 1 case None => 0
  {
    match FindChild(root, tag)
    case Some(i) => (root, i)
    case None =>
      var i := match FindChild(root, after) case Some(a) => a + 1 case None => 0;
      (Insert(root, i, NewElement(tag, [])), i)
  }

  /** `ensure_node_before_worldbody(root, tag)`: a new section goes right before `<worldbody>`, else last. */
  function EnsureBeforeWorldbody(root: Element, tag: string): (r: (Element, nat))
    ensures r.1 < |r.0.children| && r.0.children[r.1].tag == tag
    ensures FindChild(root, tag).Some? ==> r == (root, FindChild(root, tag).value)
    ensures FindChild(root, tag).None? ==>
      && r.1 <= |root.children|
      && r.0 == root.(children := root.children[..r.1] + [NewElement(tag, [])] + root.children[r.1..])
      && r.1 == match FindChild(root, "worldbody") case Some(w) => w case None => |root.children|
  {
    match FindChild(root, tag)
    case Some(i) => (root, i)
    case None =>
      var i := BeforeWorldbodySlot(root);
      (Insert(root, i, NewElement(tag, [])), i)
  }

  /** The index of `<worldbody>` among the root's children, or the end. */
  function BeforeWorldbodySlot(root: Element): (i: nat)
    ensures i <= |root.children|
  {
    match FindChild(root, "worldbody") case Some(w) => w case None => |root.children|
  }

  /** Where the actuator passes put a missing `<actuator>`: right after `<worldbody>`, else last. */
  function AfterWorldbodySlot(root: Element): (i: nat)
    ensures i <= |root.children|
  {
    match FindChild(root, "worldbody") case Some(w) => w + 1 case None => |root.children|
  }

  /** The root's section `tag`, created right after `<worldbody>` (else last) when missing. */
  function EnsureAfterWorldbody(root: Element, tag: string): (r: (Element, nat))
    ensures r.1 < |r.0.children| && r.0.children[r.1].tag == tag
    ensures FindChild(root, tag).Some? ==> r == (root, FindChild(root, tag).value)
    ensures FindChild(root, tag).None? ==>
      && r.1 <= |root.children|
      && r.0 == root.(children := root.children[..r.1] + [NewElement(tag, [])] + root.children[r.1..])
      && r.1 == match FindChild(root, "worldbody") case Some(w) => w + 1 case None => |root.children|
  {
    match FindChild(root, tag)
    case Some(i) => (root, i)
    case None =>
      var i := AfterWorldbodySlot(root);
      (Insert(root, i, NewElement(tag, [])), i)
  }

  /** Where the root's child `a` sits once `ensure_extension_node` has run. */
  function AfterExtension(root: Element, a: nat): (b: nat)
    requires a < |root.children|
    ensures b < |EnsureExtension(root).0.children| && EnsureExtension(root).0.children[b] == root.children[a]
  {
    if FindChild(root, "extension").None? && EnsureExtension(root).1 <= a then a + 1 else a
  }

  /** `section.append(...)` for each of `kids`, on the root's child `i`. */
  function AppendTo(root: Element, i: nat, kids: seq<Element>): (r: Element)
    requires i < |root.children|
    ensures r.tag == root.tag && r.attrs == root.attrs && r.text == root.text && |r.children| == |root.children|
    ensures r.children[i] == root.children[i].(children := root.children[i].children + kids)
    ensures forall j :: 0 <= j < |root.children| && j != i ==> r.children[j] == root.children[j]
  {
    root.(children := root.children[i := root.children[i].(children := root.children[i].children + kids)])
  }

  /**
   * A section inserted as a new child never precedes an earlier child with
   * the same tag, so the section an `ensure_*` call returns is the one the
   * next `find` returns.
   */
  lemma InsertedIsFound(root: Element, i: nat, tag: string)
    requires i <= |root.children|
    requires FindChild(root, tag).None?
    ensures FindChild(Insert(root, i, NewElement(tag, [])), tag) == Some(i)
  {
    var r := Insert(root, i, NewElement(tag, []));
    assert forall j :: 0 <= j < i ==> r.children[j] == root.children[j];
  }

  /** Ensuring the same section twice changes the tree only once. */
  lemma EnsureExtensionIdempotent(root: Element)
    ensures EnsureExtension(EnsureExtension(root).0) == EnsureExtension(root)
  {
    if FindChild(root, "extension").None? {
      InsertedIsFound(root, ExtensionSlot(root), "extension");
    }
  }

  lemma EnsureChildAfterIdempotent(root: Element, tag: string, after: string)
    ensures EnsureChildAfter(EnsureChildAfter(root, tag, after).0, tag, after) == EnsureChildAfter(root, tag, after)
  {
    if FindChild(root, tag).None? {
      var i := match FindChild(root, after) case Some(a) => a + 1 case None => 0;
      InsertedIsFound(root, i, tag);
    }
  }

  lemma EnsureBeforeWorldbodyIdempotent(root: Element, tag: string)
    ensures EnsureBeforeWorldbody(EnsureBeforeWorldbody(root, tag).0, tag) == EnsureBeforeWorldbody(root, tag)
  {
    if FindChild(root, tag).None? {
      InsertedIsFound(root, BeforeWorldbodySlot(root), tag);
    }
  }

  lemma EnsureAfterWorldbodyIdempotent(root: Element, tag: string)
    ensures EnsureAfterWorldbody(EnsureAfterWorldbody(root, tag).0, tag) == EnsureAfterWorldbody(root, tag)
  {
    if FindChild(root, tag).None? {
      InsertedIsFound(root, AfterWorldbodySlot(root), tag);
    }
  }
}

=== FILE: preprocess.dfy ===
/**
 * The URDF side of the conversion (`preprocess_urdf`): the `<mujoco>` blocks
 * of a robot description are merged into one, its `<compiler>` is given the
 * converter's defaults and the user's options, and its other children are
 * taken out to be injected into the MJCF later. The same pass reads the
 * mimic joints and the ros2_control command interfaces of the description.
 */
module Preprocess {

  import opened Options
  import opened Text
  import opened AttrList
  import opened Tree
  import opened Matcher
  import opened Table

  // ---------------------------------------------------------------------
  // Merging `<mujoco>` blocks (`_merge_nodes_recursively`)
  // ---------------------------------------------------------------------

  /** Same tag, equal attribute dicts and equal stripped text: children the merge treats as one. */
  predicate Equivalent(x: Element, y: Element) {
    x.tag == y.tag && SameAttrs(x.attrs, y.attrs) && Strip(x.text) == Strip(y.text)
  }

  /** Same tag, attributes and text: everything `Equivalent` looks at. */
  predicate SameHead(x: Element, y: Element) {
    x.tag == y.tag && x.attrs == y.attrs && x.text == y.text
  }

  /** The index of the first child from `i` on that is equivalent to `c`. */
  function FindEquivalent(cs: seq<Element>, c: Element, i: nat): (r: Option<nat>)
    requires i <= |cs|
    ensures r.Some? ==> i <= r.value < |cs| && Equivalent(cs[r.value], c)
    ensures r.None? ==> forall j :: i <= j < |cs| ==> !Equivalent(cs[j], c)
    decreases |cs| - i
  {
    if i == |cs| then None
    else if Equivalent(cs[i], c) then Some(i)
    else FindEquivalent(cs, c, i + 1)
  }

  /**
   * One incoming child `c` merged into `m`: appended when no child of `m` is
   * equivalent; otherwise, when either side has children, the first
   * equivalent child is taken out, merged with `c`, and put back at the end;
   * two equivalent leaves leave `m` as it is.
   */
  function MergeChild(m: Element, c: Element): (r: Element)
    ensures SameHead(r, m)
    ensures |r.children| >= |m.children|
    ensures FindEquivalent(m.children, c, 0).None? ==> r.children == m.children + [c]
    ensures FindEquivalent(m.children, c, 0).Some? ==> |r.children| == |m.children|
    ensures match FindEquivalent(m.children, c, 0)
      case None => true
      case Some(i) =>
        if |c.children| == 0 && |m.children[i].children| == 0 then r == m
        else (r.children[..|r.children| - 1] == m.children[..i] + m.children[i + 1..]
              && Equivalent(r.children[|r.children| - 1], c))
    decreases c, 2
  {
    match FindEquivalent(m.children, c, 0)
    case None => m.(children := m.children + [c])
    case Some(i) =>
      if |c.children| > 0 || |m.children[i].children| > 0 then
        m.(children := m.children[..i] + m.children[i + 1..] + [MergeInto(m.children[i], c, 0)])
      else m
  }

  /** The children of `node` from index `k` on, merged one by one into `m`. */
  function MergeInto(m: Element, node: Element, k: nat): (r: Element)
    requires k <= |node.children|
    ensures SameHead(r, m)
    ensures |r.children| >= |m.children|
    decreases node, 1, |node.children| - k
  {
    if k == |node.children| then m
    else MergeInto(MergeChild(m, node.children[k]), node, k + 1)
  }

  /** Every node of `nodes` merged into `m` in turn. */
  function MergeFrom(m: Element, nodes: seq<Element>): (r: Element)
    ensures SameHead(r, m)
    decreases |nodes|
  {
    if |nodes| == 0 then m else MergeFrom(MergeInto(m, nodes[0], 0), nodes[1..])
  }

  /** `_merge_nodes_recursively(nodes)`: nothing for no nodes, else the first node with the rest merged in. */
  function MergeNodes(nodes: seq<Element>): (r: Option<Element>)
    ensures r.Some? <==> |nodes| > 0
    ensures r.Some? ==> SameHead(r.value, nodes[0])
    ensures |nodes| == 1 ==> r == Some(nodes[0])
  {
    if |nodes| == 0 then None else Some(MergeFrom(nodes[0], nodes[1..]))
  }

  /** Every child of `n` is a leaf. */
  predicate LeafChildren(n: Element) {
    forall j :: 0 <= j < |n.children| ==> |n.children[j].children| == 0
  }

  /** Merging a node whose children are all leaves into itself changes nothing. */
  lemma {:induction false} MergeIntoSelfLeaves(n: Element, k: nat)
    requires k <= |n.children| && LeafChildren(n)
    ensures MergeInto(n, n, k) == n
    decreases |n.children| - k
  {
    if k < |n.children| {
      EquivalentSelf(n.children[k]);
      assert FindEquivalent(n.children, n.children[k], 0).Some?;
      assert MergeChild(n, n.children[k]) == n;
      MergeIntoSelfLeaves(n, k + 1);
    }
  }

  /** A block given twice, with only leaf children, merges to itself: no leaf is duplicated. */
  lemma MergeSelfLeaves(n: Element)
    requires LeafChildren(n)
    ensures MergeNodes([n, n]) == Some(n)
  {
    MergeIntoSelfLeaves(n, 0);
    assert [n, n][1..] == [n];
    assert MergeFrom(n, [n]) == MergeFrom(MergeInto(n, n, 0), []);
  }

  /** Some child of `m` is equivalent to `c`. */
  ghost predicate Covers(m: Element, c: Element) {
    exists j :: 0 <= j < |m.children| && Equivalent(m.children[j], c)
  }

  lemma EquivalentSelf(x: Element)
    ensures Equivalent(x, x)
  {
  }

  /** A child of `m` covers itself. */
  lemma CoversOwn(m: Element, j: nat)
    requires j < |m.children|
    ensures Covers(m, m.children[j])
  {
    EquivalentSelf(m.children[j]);
  }

  lemma CoversAt(m: Element, j: nat, x: Element)
    requires j < |m.children| && Equivalent(m.children[j], x)
    ensures Covers(m, x)
  {
  }

  lemma EquivalentHead(x: Element, y: Element, c: Element)
    requires SameHead(x, y) && Equivalent(y, c)
    ensures Equivalent(x, c)
  {
  }

  /** The incoming child is covered once merged. */
  lemma MergeChildCoversNew(m: Element, c: Element)
    ensures Covers(MergeChild(m, c), c)
  {
    var r := MergeChild(m, c);
    match FindEquivalent(m.children, c, 0)
    case None =>
      EquivalentSelf(c);
      CoversAt(r, |m.children|, c);
    case Some(i) =>
      if |c.children| > 0 || |m.children[i].children| > 0 {
        var last := |r.children| - 1;
        EquivalentHead(r.children[last], m.children[i], c);
        CoversAt(r, last, c);
      } else {
        CoversAt(r, i, c);
      }
  }

  /** A child that was covered stays covered: its equivalent either stays put or moves to the end merged. */
  lemma MergeChildKeeps(m: Element, c: Element, x: Element, j: nat)
    requires j < |m.children| && Equivalent(m.children[j], x)
    ensures Covers(MergeChild(m, c), x)
  {
    var r := MergeChild(m, c);
    match FindEquivalent(m.children, c, 0)
    case None =>
      assert r.children[j] == m.children[j];
      CoversAt(r, j, x);
    case Some(i) =>
      if |c.children| > 0 || |m.children[i].children| > 0 {
        var y := MergeInto(m.children[i], c, 0);
        assert r.children == m.children[..i] + m.children[i + 1..] + [y];
        if j == i {
          EquivalentHead(y, m.children[i], x);
          CoversAt(r, |r.children| - 1, x);
        } else {
          var k := MovedIndex(m.children, i, y, j);
          CoversAt(r, k, x);
        }
      } else {
        CoversAt(r, j, x);
      }
  }

  /** Taking child `i` out and appending `y` moves every other child `j` to some index `k`. */
  lemma MovedIndex(cs: seq<Element>, i: nat, y: Element, j: nat) returns (k: nat)
    requires i < |cs| && j < |cs| && j != i
    ensures k < |cs[..i] + cs[i + 1..] + [y]| && (cs[..i] + cs[i + 1..] + [y])[k] == cs[j]
  {
    k := if j < i then j else j - 1;
  }

  /** Merging one child covers it and keeps everything `m` covered covered. */
  lemma MergeChildCovers(m: Element, c: Element, x: Element)
    ensures Covers(MergeChild(m, c), c)
    ensures Covers(m, x) ==> Covers(MergeChild(m, c), x)
  {
    MergeChildCoversNew(m, c);
    if Covers(m, x) {
      var j :| 0 <= j < |m.children| && Equivalent(m.children[j], x);
      MergeChildKeeps(m, c, x, j);
    }
  }

  /** Merging the children of `node` from `k` on covers each of them and keeps what was covered. */
  lemma {:induction false} MergeIntoCovers(m: Element, node: Element, k: nat, x: Element)
    requires k <= |node.children|
    requires Covers(m, x) || exists j :: k <= j < |node.children| && node.children[j] == x
    ensures Covers(MergeInto(m, node, k), x)
    decreases |node.children| - k
  {
    if k < |node.children| {
      var m1 := MergeChild(m, node.children[k]);
      MergeChildCovers(m, node.children[k], x);
      if !Covers(m1, x) {
        var j :| k <= j < |node.children| && node.children[j] == x;
        assert j != k;
      }
      MergeIntoCovers(m1, node, k + 1, x);
    }
  }

  lemma {:induction false} MergeFromCovers(m: Element, nodes: seq<Element>, x: Element)
    requires Covers(m, x) || exists i :: 0 <= i < |nodes| && x in nodes[i].children
    ensures Covers(MergeFrom(m, nodes), x)
    decreases |nodes|
  {
    if |nodes| > 0 {
      var m1 := MergeInto(m, nodes[0], 0);
      if x in nodes[0].children {
        var j :| 0 <= j < |nodes[0].children| && nodes[0].children[j] == x;
        MergeIntoCovers(m, nodes[0], 0, x);
      } else if Covers(m, x) {
        MergeIntoCovers(m, nodes[0], 0, x);
      } else {
        var i :| 0 <= i < |nodes| && x in nodes[i].children;
        assert x in nodes[1..][i - 1].children;
      }
      MergeFromCovers(m1, nodes[1..], x);
    }
  }

  /**
   * Nothing is lost in a merge: every child of every merged node has an
   * equivalent child (same tag, attributes and stripped text) in the result.
   */
  lemma MergeNodesCovers(nodes: seq<Element>, i: nat, x: Element)
    requires i < |nodes| && x in nodes[i].children
    ensures Covers(MergeNodes(nodes).value, x)
  {
    if i == 0 {
      var j :| 0 <= j < |nodes[0].children| && nodes[0].children[j] == x;
      CoversOwn(nodes[0], j);
      MergeFromCovers(nodes[0], nodes[1..], x);
    } else {
      assert x in nodes[1..][i - 1].children;
      MergeFromCovers(nodes[0], nodes[1..], x);
    }
  }

  /**
   * When the incoming child and its equivalent are not two leaves, the child
   * put back last is their recursive merge: it keeps the equivalent child's
   * tag, attributes and text, and covers every child of either.
   */
  lemma MergeChildMerges(m: Element, c: Element, i: nat, x: Element)
    requires FindEquivalent(m.children, c, 0) == Some(i)
    requires |c.children| > 0 || |m.children[i].children| > 0
    requires x in m.children[i].children || x in c.children
    ensures var r := MergeChild(m, c);
      && |r.children| == |m.children| && SameHead(r.children[|r.children| - 1], m.children[i])
      && Covers(r.children[|r.children| - 1], x)
  {
    MergeChildLast(m, c, i);
    MergedCovers(m.children[i], c, x);
  }

  lemma MergeChildLast(m: Element, c: Element, i: nat)
    requires FindEquivalent(m.children, c, 0) == Some(i)
    requires |c.children| > 0 || |m.children[i].children| > 0
    ensures MergeChild(m, c).children == m.children[..i] + m.children[i + 1..] + [MergeInto(m.children[i], c, 0)]
  {
  }

  /** Merging `c`'s children into `y` covers the children of both. */
  lemma MergedCovers(y: Element, c: Element, x: Element)
    requires x in y.children || x in c.children
    ensures SameHead(MergeInto(y, c, 0), y) && Covers(MergeInto(y, c, 0), x)
  {
    if x in y.children {
      var j :| 0 <= j < |y.children| && y.children[j] == x;
      CoversOwn(y, j);
    }
    MergeIntoCovers(y, c, 0, x);
  }

  /** A child with no equivalent is appended unchanged at the end. */
  lemma MergeChildAppends(m: Element, c: Element)
    requires forall j :: 0 <= j < |m.children| ==> !Equivalent(m.children[j], c)
    ensures MergeChild(m, c).children == m.children + [c]
  {
  }

  // ---------------------------------------------------------------------
  // The `<compiler>` settings
  // ---------------------------------------------------------------------

  /** The settings the converter starts from, `meshdir` being the caller's default mesh directory. */
  function CompilerDefaults(meshdir: string): Attrs {
    [("meshdir", meshdir), ("balanceinertia", "false"), ("discardvisual", "false"),
     ("fusestatic", "false"), ("inertiafromgeom", "false")]
  }

  lemma DefaultsUnique(meshdir: string)
    ensures UniqueKeys(CompilerDefaults(meshdir))
  {
    var d := CompilerDefaults(meshdir);
    var a4: Attrs := [d[4]];
    UniqueCons(d[4], []);
    HasCons(d[4], [], d[3].0);
    UniqueCons(d[3], a4);
    var a3 := [d[3]] + a4;
    HasCons(d[3], a4, d[2].0);
    HasCons(d[4], [], d[2].0);
    UniqueCons(d[2], a3);
    var a2 := [d[2]] + a3;
    HasCons(d[2], a3, d[1].0);
    HasCons(d[3], a4, d[1].0);
    HasCons(d[4], [], d[1].0);
    UniqueCons(d[1], a2);
    var a1 := [d[1]] + a2;
    HasCons(d[1], a2, d[0].0);
    HasCons(d[2], a3, d[0].0);
    HasCons(d[3], a4, d[0].0);
    HasCons(d[4], [], d[0].0);
    UniqueCons(d[0], a1);
    assert d == [d[0]] + a1;
  }

  /** The `KEY=VALUE` options in order, split at the first `=`; an option without `=` is skipped. */
  function OptionPairs(options: seq<string>): (r: Attrs)
    ensures |r| <= |options|
    decreases |options|
  {
    if |options| == 0 then []
    else
      var rest := OptionPairs(options[..|options| - 1]);
      match SplitFirst(options[|options| - 1], '=')
      case Some(kv) => rest + [kv]
      case None => rest
  }

  /** The settings written to the `<compiler>` node: defaults, then its own attributes, then the options. */
  function CompilerAttrs(meshdir: string, own: Attrs, options: seq<string>): Attrs {
    SetAll(SetAll(CompilerDefaults(meshdir), own), OptionPairs(options))
  }

  /** The value a setting ends with: an option's, else the node's own, else the default, else none. */
  function Precedence(meshdir: string, own: Attrs, options: seq<string>, k: string): Option<string> {
    if Has(OptionPairs(options), k) then GetLast(OptionPairs(options), k)
    else if Has(own, k) then GetLast(own, k)
    else Get(CompilerDefaults(meshdir), k)
  }

  /**
   * The `<compiler>` node after the settings are applied. An option beats the
   * node's own attribute, which beats the converter's default; keys none of
   * them name stay absent.
   */
  function ConfigureCompiler(c: Element, meshdir: string, options: seq<string>): (r: Element)
    ensures r.tag == c.tag && r.text == c.text && r.children == c.children
    ensures forall k {:trigger Get(r.attrs, k)} :: Get(r.attrs, k) == Precedence(meshdir, c.attrs, options, k)
  {
    var d := CompilerDefaults(meshdir);
    var own := SetAll(d, c.attrs);
    var f := SetAll(own, OptionPairs(options));
    DefaultsUnique(meshdir);
    assert UniqueKeys(f);
    var r := c.(attrs := SetAll(c.attrs, f));
    forall k ensures Get(r.attrs, k) == Precedence(meshdir, c.attrs, options, k) {
      if Has(f, k) {
        GetLastUnique(f, k);
      } else {
        assert Get(f, k) == None;
        assert Get(own, k) == None;
      }
    }
    r
  }

  lemma {:induction false} GetLastSnoc(a: Attrs, k: string, v: string)
    ensures GetLast(a + [(k, v)], k) == Some(v)
    decreases |a|
  {
    if |a| == 0 {
      assert GetLast([(k, v)][1..], k) == None;
    } else {
      assert (a + [(k, v)])[1..] == a[1..] + [(k, v)];
      GetLastSnoc(a[1..], k, v);
    }
  }

  /** The last option naming a key decides it, whatever the node or the defaults say. */
  lemma OptionOverrides(c: Element, meshdir: string, options: seq<string>, k: string, v: string)
    requires '=' !in k
    ensures Get(ConfigureCompiler(c, meshdir, options + [k + "=" + v]).attrs, k) == Some(v)
  {
    var opts := options + [k + "=" + v];
    assert opts[..|opts| - 1] == options;
    SplitFirstAt(k + "=" + v, '=', k, v);
    assert OptionPairs(opts) == OptionPairs(options) + [(k, v)];
    GetLastSnoc(OptionPairs(options), k, v);
  }

  /** An option without `=` changes nothing. */
  lemma MalformedOptionSkipped(c: Element, meshdir: string, options: seq<string>, o: string)
    requires '=' !in o
    ensures ConfigureCompiler(c, meshdir, options + [o]) == ConfigureCompiler(c, meshdir, options)
  {
    assert (options + [o])[..|options|] == options;
  }

  // ---------------------------------------------------------------------
  // Extracting the `<mujoco>` block
  // ---------------------------------------------------------------------

  /** The merged `<mujoco>` children of a robot description, or a fresh block when it has none. */
  function MujocoBlock(root: Element): (b: Element)
    ensures b.tag == "mujoco"
  {
    var blocks := ChildrenTagged(root, "mujoco");
    if |blocks| == 0 then NewElement("mujoco", [])
    else assert blocks[0] in blocks; MergeNodes(blocks).value
  }

  /** The block's first `<compiler>` child, or a fresh one appended when it has none. */
  function WithCompiler(b: Element): (r: (Element, nat))
    ensures r.1 < |r.0.children| && r.0.children[r.1].tag == "compiler"
    ensures forall j :: 0 <= j < r.1 ==> r.0.children[j].tag != "compiler"
  {
    match FindChild(b, "compiler")
    case Some(i) => (b, i)
    case None => (b.(children := b.children + [NewElement("compiler", [])]), |b.children|)
  }

  /** Adding a `<compiler>` leaves the block's other children as they were. */
  lemma WithCompilerOthers(b: Element)
    ensures forall c :: c in WithCompiler(b).0.children && c.tag != "compiler" <==> c in b.children && c.tag != "compiler"
  {
  }

  /** The compiler node the settings go to. */
  function FirstCompiler(b: Element): Element {
    match FindChild(b, "compiler")
    case Some(i) => b.children[i]
    case None => NewElement("compiler", [])
  }

  /** What the `<mujoco>` pass returns: the edited description, and the custom elements and plugins it took out. */
  datatype Extracted = Extracted(root: Element, elements: seq<Element>, plugins: seq<Element>)

  /**
   * The `<mujoco>` pass of `preprocess_urdf`. The description's `<mujoco>`
   * children are replaced by their merge at the front; the block keeps only
   * its `<compiler>` children, the first of them configured; its other
   * children become the custom elements, `<plugin>`s apart.
   */
  function ExtractMujoco(root: Element, meshdir: string, options: seq<string>): (x: Extracted)
    ensures x.root.tag == root.tag && x.root.attrs == root.attrs && x.root.text == root.text
    ensures |x.root.children| > 0 && x.root.children[0].tag == "mujoco"
    ensures forall c :: c in x.root.children[1..] <==> c in root.children && c.tag != "mujoco"
    ensures |x.root.children[0].children| > 0
    ensures x.root.children[0].children[0] == ConfigureCompiler(FirstCompiler(MujocoBlock(root)), meshdir, options)
    ensures forall c :: c in x.root.children[0].children ==> c.tag == "compiler"
    ensures forall c :: c in x.elements <==> c in MujocoBlock(root).children && c.tag != "compiler" && c.tag != "plugin"
    ensures forall c :: c in x.plugins <==> c in MujocoBlock(root).children && c.tag == "plugin"
  {
    var b := MujocoBlock(root);
    var (block, i) := WithCompiler(b);
    var others := Select(block.children, Tagged("compiler"), false);
    var compilers := [ConfigureCompiler(block.children[i], meshdir, options)]
                   + Select(block.children[i + 1..], Tagged("compiler"), true);
    WithCompilerOthers(b);
    Extracted(root.(children := [block.(children := compilers)] + Select(root.children, Tagged("mujoco"), false)),
              Select(others, Tagged("plugin"), false),
              Select(others, Tagged("plugin"), true))
  }

  /**
   * The custom elements and the plugins split the block's non-compiler
   * children: each lands in exactly one of them, as often as it occurs.
   */
  lemma ExtractPartition(root: Element, meshdir: string, options: seq<string>)
    ensures var x := ExtractMujoco(root, meshdir, options);
      multiset(x.elements) + multiset(x.plugins) == multiset(Select(MujocoBlock(root).children, Tagged("compiler"), false))
  {
    var b := MujocoBlock(root);
    var (block, i) := WithCompiler(b);
    var others := Select(block.children, Tagged("compiler"), false);
    if FindChild(b, "compiler").None? {
      SelectConcat(b.children, [NewElement("compiler", [])], Tagged("compiler"), false);
    }
    assert others == Select(b.children, Tagged("compiler"), false);
    SelectPartition(others, Tagged("plugin"));
  }

  /**
   * The order of what the pass keeps and takes out: the description's
   * children other than `<mujoco>` follow the block in their original
   * order, and the custom elements and the plugins are the block's
   * non-compiler children, each group in block order.
   */
  lemma ExtractOrder(root: Element, meshdir: string, options: seq<string>)
    ensures var x := ExtractMujoco(root, meshdir, options);
      var others := Select(MujocoBlock(root).children, Tagged("compiler"), false);
      && x.root.children[1..] == Select(root.children, Tagged("mujoco"), false)
      && x.elements == Select(others, Tagged("plugin"), false)
      && x.plugins == Select(others, Tagged("plugin"), true)
  {
    var b := MujocoBlock(root);
    var (block, i) := WithCompiler(b);
    if FindChild(b, "compiler").None? {
      SelectConcat(b.children, [NewElement("compiler", [])], Tagged("compiler"), false);
    }
    assert Select(block.children, Tagged("compiler"), false) == Select(b.children, Tagged("compiler"), false);
  }

  /**
   * A description without `<mujoco>` gets a fresh block in front holding
   * only a configured `<compiler>`, and nothing is extracted.
   */
  lemma NoMujocoBlock(root: Element, meshdir: string, options: seq<string>)
    requires forall c :: c in root.children ==> c.tag != "mujoco"
    ensures var x := ExtractMujoco(root, meshdir, options);
      && x.root.children == [Element("mujoco", [], "", [ConfigureCompiler(NewElement("compiler", []), meshdir, options)])] + root.children
      && x.elements == [] && x.plugins == []
  {
    SelectEvery(root.children, Tagged("mujoco"), false);
    var b := NewElement("mujoco", []);
    assert MujocoBlock(root) == b;
    assert b.children + [NewElement("compiler", [])] == [NewElement("compiler", [])];
    assert WithCompiler(b) == (b.(children := [NewElement("compiler", [])]), 0);
    var block := b.(children := [NewElement("compiler", [])]);
    assert block.children[1..] == [];
    var others := Select(block.children, Tagged("compiler"), false);
    assert others == [];
    var x := ExtractMujoco(root, meshdir, options);
    assert x.root.children[0] == block.(children := [ConfigureCompiler(block.children[0], meshdir, options)]);
    assert x.root.children[1..] == root.children;
  }

  // ---------------------------------------------------------------------
  // Mimic joints
  // ---------------------------------------------------------------------

  /** How a joint follows another: `joint * multiplier + offset`, the numbers kept as written. */
  datatype MimicInfo = MimicInfo(joint: string, multiplier: string, offset: string)

  /**
   * The entry a `<joint>` contributes: its name and its first `<mimic>`
   * child's settings, multiplier and offset defaulting to `1.0` and `0.0`;
   * nothing unless both joint names are non-empty.
   */
  function MimicOf(j: Element): Option<(string, MimicInfo)> {
    match FindChild(j, "mimic")
    case None => None
    case Some(i) =>
      var m := j.children[i].attrs;
      var name := GetOr(j.attrs, "name", "");
      var leader := GetOr(m, "joint", "");
      if name != "" && leader != "" then
        Some((name, MimicInfo(leader, GetOr(m, "multiplier", "1.0"), GetOr(m, "offset", "0.0"))))
      else None
  }

  /** The entries the joints yield, in order. */
  function MimicEntries(joints: seq<Element>): (es: seq<Option<(string, MimicInfo)>>)
    ensures |es| == |joints| && forall i :: 0 <= i < |joints| ==> es[i] == MimicOf(joints[i])
  {
    seq(|joints|, i requires 0 <= i < |joints| => MimicOf(joints[i]))
  }

  /** The mimic table built from `joints` in order; a later joint of the same name overwrites in place. */
  function MimicFrom(joints: seq<Element>): Table<MimicInfo> {
    FromEntries(MimicEntries(joints))
  }

  /** The mimic pass of `preprocess_urdf`: every `<joint>` of the description, in document order. */
  function MimicJoints(root: Element): Table<MimicInfo> {
    MimicFrom(Nodes(root, FindAll(root, "joint", [])))
  }

  /** A name is in the table exactly when some joint yields an entry under it. */
  lemma MimicNames(joints: seq<Element>, k: string)
    ensures k in Names(MimicFrom(joints)) <==>
      exists i :: 0 <= i < |joints| && MimicOf(joints[i]).Some? && MimicOf(joints[i]).value.0 == k
  {
    FromEntriesNames(MimicEntries(joints), k);
    assert forall i :: Yields(MimicEntries(joints), i, k) <==>
      0 <= i < |joints| && MimicOf(joints[i]).Some? && MimicOf(joints[i]).value.0 == k;
  }

  /** Every entry names both joints: neither name is empty. */
  lemma MimicNonEmpty(joints: seq<Element>, k: string)
    requires k in Names(MimicFrom(joints))
    ensures k != "" && Lookup(MimicFrom(joints), k).value.joint != ""
  {
    FromEntriesValues(MimicEntries(joints), k);
  }

  /** The entry under a name is the one from the last joint yielding that name. */
  lemma MimicLastWins(joints: seq<Element>, i: nat)
    requires i < |joints| && MimicOf(joints[i]).Some?
    requires forall j :: i < j < |joints| && MimicOf(joints[j]).Some? ==> MimicOf(joints[j]).value.0 != MimicOf(joints[i]).value.0
    ensures Lookup(MimicFrom(joints), MimicOf(joints[i]).value.0) == Some(MimicOf(joints[i]).value.1)
  {
    FromEntriesLast(MimicEntries(joints), i);
  }

  /** A `<mimic>` without `multiplier` and `offset` gives the entry `1.0` and `0.0`, for any joint. */
  lemma MimicDefaults(j: Element, i: nat)
    requires FindChild(j, "mimic") == Some(i)
    requires GetOr(j.attrs, "name", "") != "" && GetOr(j.children[i].attrs, "joint", "") != ""
    requires !Has(j.children[i].attrs, "multiplier") && !Has(j.children[i].attrs, "offset")
    ensures MimicOf(j) == Some((GetOr(j.attrs, "name", ""), MimicInfo(GetOr(j.children[i].attrs, "joint", ""), "1.0", "0.0")))
  {
  }

  // ---------------------------------------------------------------------
  // ros2_control command interfaces
  // ---------------------------------------------------------------------

  /** A `<command_interface>`'s name: its `name` attribute when non-empty, else its stripped text. */
  function InterfaceName(ci: Element): string {
    var n := GetOr(ci.attrs, "name", "");
    if n != "" then n else Strip(ci.text)
  }

  /** The non-empty interface names of a `<joint>`'s `<command_interface>` children. */
  function Interfaces(j: Element): (r: set<string>)
    ensures forall x :: x in r <==>
      x != "" && exists ci :: ci in j.children && ci.tag == "command_interface" && InterfaceName(ci) == x
  {
    set ci | ci in ChildrenTagged(j, "command_interface") && InterfaceName(ci) != "" :: InterfaceName(ci)
  }

  /** `x` is a `<joint>` child of one of the nodes `rcs`. */
  ghost predicate ControlJoint(rcs: seq<Element>, x: Element) {
    exists i :: 0 <= i < |rcs| && x in rcs[i].children && x.tag == "joint"
  }

  /** The `<joint>` children of every `<ros2_control>` node, in order. */
  function ControlJoints(rcs: seq<Element>): (r: seq<Element>)
    ensures forall x :: x in r <==> ControlJoint(rcs, x)
    decreases |rcs|
  {
    if |rcs| == 0 then []
    else
      var r := ChildrenTagged(rcs[0], "joint") + ControlJoints(rcs[1..]);
      forall x
        ensures x in r <==> ControlJoint(rcs, x)
      {
        ControlJointCons(rcs, x);
      }
      r
  }

  /**
   * The joints come node by node: those of earlier `<ros2_control>` nodes
   * before those of later ones, each node's own `<joint>` children in order.
   */
  lemma {:induction false} ControlJointsConcat(a: seq<Element>, b: seq<Element>)
    ensures ControlJoints(a + b) == ControlJoints(a) + ControlJoints(b)
    ensures forall rc :: ControlJoints([rc]) == ChildrenTagged(rc, "joint")
    decreases |a|
  {
    forall rc ensures ControlJoints([rc]) == ChildrenTagged(rc, "joint") {
      assert [rc][1..] == [];
    }
    if |a| == 0 {
      assert a + b == b;
    } else {
      assert (a + b)[0] == a[0] && (a + b)[1..] == a[1..] + b;
      ControlJointsConcat(a[1..], b);
    }
  }

  lemma ControlJointCons(rcs: seq<Element>, x: Element)
    requires |rcs| > 0
    ensures ControlJoint(rcs, x) <==> (x in rcs[0].children && x.tag == "joint") || ControlJoint(rcs[1..], x)
  {
    if ControlJoint(rcs, x) {
      var i :| 0 <= i < |rcs| && x in rcs[i].children && x.tag == "joint";
      if i > 0 {
        assert rcs[1..][i - 1] == rcs[i];
      }
    }
    if ControlJoint(rcs[1..], x) {
      var i :| 0 <= i < |rcs[1..]| && x in rcs[1..][i].children && x.tag == "joint";
      assert rcs[i + 1] == rcs[1..][i];
    }
  }

  /** The entry a `<joint>` of a `<ros2_control>` node sets: its name and interfaces, when it has both. */
  function InterfaceEntry(j: Element): (r: Option<(string, set<string>)>)
    ensures r.Some? ==> r.value.0 != "" && r.value.1 != {}
  {
    var name := GetOr(j.attrs, "name", "");
    var ifs := Interfaces(j);
    if name == "" || ifs == {} then None else Some((name, ifs))
  }

  function InterfaceEntries(joints: seq<Element>): (es: seq<Option<(string, set<string>)>>)
    ensures |es| == |joints| && forall i :: 0 <= i < |joints| ==> es[i] == InterfaceEntry(joints[i])
  {
    seq(|joints|, i requires 0 <= i < |joints| => InterfaceEntry(joints[i]))
  }

  /**
   * The interface table built from `joints` in order: a joint with a
   * non-empty name and at least one interface sets its entry; others are
   * skipped, leaving an earlier entry of that name as it was.
   */
  function InterfaceFrom(joints: seq<Element>): Table<set<string>> {
    FromEntries(InterfaceEntries(joints))
  }

  /** The ros2_control pass of `preprocess_urdf`: every `<ros2_control>` node, in document order. */
  function InterfaceMap(root: Element): Table<set<string>> {
    InterfaceFrom(ControlJoints(Nodes(root, FindAll(root, "ros2_control", []))))
  }

  /** A joint name is a key exactly when some joint of that name has an interface. */
  lemma InterfaceKeys(joints: seq<Element>, k: string)
    ensures k in Names(InterfaceFrom(joints)) <==>
      exists i :: 0 <= i < |joints| && InterfaceEntry(joints[i]).Some? && InterfaceEntry(joints[i]).value.0 == k
  {
    FromEntriesNames(InterfaceEntries(joints), k);
    assert forall i :: Yields(InterfaceEntries(joints), i, k) <==>
      0 <= i < |joints| && InterfaceEntry(joints[i]).Some? && InterfaceEntry(joints[i]).value.0 == k;
  }

  /** Every key is a non-empty joint name with at least one interface. */
  lemma InterfaceNonEmpty(joints: seq<Element>, k: string)
    requires k in Names(InterfaceFrom(joints))
    ensures k != "" && Lookup(InterfaceFrom(joints), k).value != {}
  {
    FromEntriesValues(InterfaceEntries(joints), k);
  }

  /** A joint's interfaces are the entry when no later joint sets that name. */
  lemma InterfaceLastWins(joints: seq<Element>, i: nat)
    requires i < |joints| && InterfaceEntry(joints[i]).Some?
    requires forall j :: i < j < |joints| && InterfaceEntry(joints[j]).Some? ==>
      InterfaceEntry(joints[j]).value.0 != InterfaceEntry(joints[i]).value.0
    ensures Lookup(InterfaceFrom(joints), InterfaceEntry(joints[i]).value.0) == Some(InterfaceEntry(joints[i]).value.1)
  {
    FromEntriesLast(InterfaceEntries(joints), i);
  }

  // ---------------------------------------------------------------------
  // The modelled part of `preprocess_urdf`
  // ---------------------------------------------------------------------

  /** What the modelled passes hand to the MJCF side. */
  datatype Preprocessed = Preprocessed(
    root: Element, mimic: Table<MimicInfo>, elements: seq<Element>, plugins: seq<Element>, interfaces: Table<set<string>>)

  /**
   * The `<mujoco>` pass, then the mimic and ros2_control passes, which read
   * the description as the `<mujoco>` pass left it.
   */
  function PreprocessUrdf(root: Element, meshdir: string, options: seq<string>): (r: Preprocessed)
    ensures r.root.tag == root.tag && |r.root.children| > 0 && r.root.children[0].tag == "mujoco"
    ensures forall k :: k in Names(r.mimic) ==> k != "" && Lookup(r.mimic, k).value.joint != ""
    ensures forall k :: k in Names(r.interfaces) ==> k != "" && Lookup(r.interfaces, k).value != {}
    ensures var x := ExtractMujoco(root, meshdir, options);
      r.root == x.root && r.elements == x.elements && r.plugins == x.plugins
    ensures r.mimic == MimicJoints(r.root) && r.interfaces == InterfaceMap(r.root)
  {
    var x := ExtractMujoco(root, meshdir, options);
    var joints := Nodes(x.root, FindAll(x.root, "joint", []));
    var controls := ControlJoints(Nodes(x.root, FindAll(x.root, "ros2_control", [])));
    TablesWellFormed(joints, controls);
    Preprocessed(x.root, MimicJoints(x.root), x.elements, x.plugins, InterfaceMap(x.root))
  }

  /** A name is in the mimic table exactly when some `<joint>` anywhere in the description yields an entry under it. */
  lemma MimicTableNames(root: Element, k: string)
    ensures k in Names(MimicJoints(root)) <==> exists p :: p in FindAll(root, "joint", []) && MimicNamed(At(root, p), k)
  {
    MimicNodesNames(root, FindAll(root, "joint", []), k);
  }

  lemma MimicNodesNames(root: Element, ps: seq<Path>, k: string)
    requires forall p :: p in ps ==> ValidPath(root, p)
    ensures k in Names(MimicFrom(Nodes(root, ps))) <==> exists p :: p in ps && MimicNamed(At(root, p), k)
  {
    var joints := Nodes(root, ps);
    MimicNames(joints, k);
    if k in Names(MimicFrom(joints)) {
      var i :| 0 <= i < |joints| && MimicOf(joints[i]).Some? && MimicOf(joints[i]).value.0 == k;
      assert ps[i] in ps && MimicNamed(At(root, ps[i]), k);
    }
    if exists p :: p in ps && MimicNamed(At(root, p), k) {
      var p :| p in ps && MimicNamed(At(root, p), k);
      var i :| 0 <= i < |ps| && ps[i] == p;
      assert joints[i] == At(root, p);
    }
  }

  /** Joint `j` yields a mimic entry under name `k`. */
  predicate MimicNamed(j: Element, k: string) {
    MimicOf(j).Some? && MimicOf(j).value.0 == k
  }

  /**
   * A name is in the interface table exactly when some `<joint>` child of a
   * `<ros2_control>` node anywhere in the description yields an entry under it.
   */
  lemma InterfaceTableNames(root: Element, k: string)
    ensures k in Names(InterfaceMap(root)) <==>
      exists p, j :: p in FindAll(root, "ros2_control", []) && j in At(root, p).children && j.tag == "joint" && InterfaceNamed(j, k)
  {
    InterfaceNodesNames(root, FindAll(root, "ros2_control", []), k);
  }

  lemma InterfaceNodesNames(root: Element, ps: seq<Path>, k: string)
    requires forall p :: p in ps ==> ValidPath(root, p)
    ensures k in Names(InterfaceFrom(ControlJoints(Nodes(root, ps)))) <==>
      exists p, j :: p in ps && j in At(root, p).children && j.tag == "joint" && InterfaceNamed(j, k)
  {
    var controls := ControlJoints(Nodes(root, ps));
    InterfaceKeys(controls, k);
    if k in Names(InterfaceFrom(controls)) {
      var i :| 0 <= i < |controls| && InterfaceEntry(controls[i]).Some? && InterfaceEntry(controls[i]).value.0 == k;
      InterfaceJointFrom(root, ps, controls[i], k);
    }
    if exists p, j :: p in ps && j in At(root, p).children && j.tag == "joint" && InterfaceNamed(j, k) {
      var p, j :| p in ps && j in At(root, p).children && j.tag == "joint" && InterfaceNamed(j, k);
      var i := InterfaceJointIn(root, ps, p, j);
      assert InterfaceEntry(controls[i]).Some? && InterfaceEntry(controls[i]).value.0 == k;
    }
  }

  /** A joint of the collected `<ros2_control>` joints is a `<joint>` child of one of the nodes. */
  lemma InterfaceJointFrom(root: Element, ps: seq<Path>, j: Element, k: string)
    requires forall p :: p in ps ==> ValidPath(root, p)
    requires j in ControlJoints(Nodes(root, ps)) && InterfaceNamed(j, k)
    ensures exists p, j' :: p in ps && j' in At(root, p).children && j'.tag == "joint" && InterfaceNamed(j', k)
  {
    var rcs := Nodes(root, ps);
    var b :| 0 <= b < |rcs| && j in rcs[b].children && j.tag == "joint";
    assert ps[b] in ps && j in At(root, ps[b]).children;
  }

  /** A `<joint>` child of one of the nodes is among the collected joints. */
  lemma InterfaceJointIn(root: Element, ps: seq<Path>, p: Path, j: Element) returns (i: nat)
    requires forall p :: p in ps ==> ValidPath(root, p)
    requires p in ps && j in At(root, p).children && j.tag == "joint"
    ensures i < |ControlJoints(Nodes(root, ps))| && ControlJoints(Nodes(root, ps))[i] == j
  {
    var rcs := Nodes(root, ps);
    var b :| 0 <= b < |ps| && ps[b] == p;
    assert rcs[b] == At(root, p);
    assert ControlJoint(rcs, j);
    var controls := ControlJoints(rcs);
    assert j in controls;
    i :| 0 <= i < |controls| && controls[i] == j;
  }

  /** Joint `j` yields an interface entry under name `k`. */
  predicate InterfaceNamed(j: Element, k: string) {
    InterfaceEntry(j).Some? && InterfaceEntry(j).value.0 == k
  }

  lemma TablesWellFormed(joints: seq<Element>, controls: seq<Element>)
    ensures forall k :: k in Names(MimicFrom(joints)) ==> k != "" && Lookup(MimicFrom(joints), k).value.joint != ""
    ensures forall k :: k in Names(InterfaceFrom(controls)) ==> k != "" && Lookup(InterfaceFrom(controls), k).value != {}
  {
    forall k | k in Names(MimicFrom(joints))
      ensures k != "" && Lookup(MimicFrom(joints), k).value.joint != ""
    {
      MimicNonEmpty(joints, k);
    }
    forall k | k in Names(InterfaceFrom(controls))
      ensures k != "" && Lookup(InterfaceFrom(controls), k).value != {}
    {
      InterfaceNonEmpty(controls, k);
    }
  }
}

=== FILE: sections.dfy ===
/**
 * The smaller MJCF passes of the post-processor: grouping the
 * MujocoRosUtils plugins at the end of `<extension>`, making the base body
 * floating, setting the simulation options, and adding a floor.
 */
module Sections {

  import opened Options
  import opened Text
  import opened AttrList
  import opened Tree
  import opened Matcher
  import opened Placement

  // ---------------------------------------------------------------------
  // Grouping the MujocoRosUtils plugins (`post_process_group_ros_utils_plugins`)
  // ---------------------------------------------------------------------

  /** A `<plugin>` whose `plugin` attribute starts with `MujocoRosUtils::`. */
  predicate IsRosUtils(c: Element) {
    c.tag == "plugin" && StartsWith(GetOr(c.attrs, "plugin", ""), "MujocoRosUtils::")
  }

  function RosUtils(): Element -> bool {
    (c: Element) => IsRosUtils(c)
  }

  /** The extension's children with the MujocoRosUtils plugins taken out and appended, both parts in their old order. */
  function Grouped(cs: seq<Element>): seq<Element> {
    Select(cs, RosUtils(), false) + Select(cs, RosUtils(), true)
  }

  /** `post_process_group_ros_utils_plugins`: regroups the first `<extension>`, if any. */
  function GroupRosUtilsPlugins(root: Element): (r: Element)
    ensures FindChild(root, "extension").None? ==> r == root
    ensures FindChild(root, "extension").Some? ==>
      var x := FindChild(root, "extension").value;
      r == root.(children := root.children[x := root.children[x].(children := Grouped(root.children[x].children))])
  {
    match FindChild(root, "extension")
    case None => root
    case Some(x) =>
      var ext := root.children[x];
      if |Select(ext.children, RosUtils(), true)| == 0 then
        SelectEvery(ext.children, RosUtils(), false);
        assert Grouped(ext.children) == ext.children;
        assert root.children[x := ext] == root.children;
        root
      else root.(children := root.children[x := ext.(children := Grouped(ext.children))])
  }

  /** Grouping moves children, never adds, drops or duplicates one. */
  lemma GroupedPermutation(cs: seq<Element>)
    ensures multiset(Grouped(cs)) == multiset(cs)
  {
    SelectPartition(cs, RosUtils());
  }

  /** Within each part the order is the old one: selecting either part of the result gives the same as selecting it before. */
  lemma GroupedStable(cs: seq<Element>, want: bool)
    ensures Select(Grouped(cs), RosUtils(), want) == Select(cs, RosUtils(), want)
  {
    var others := Select(cs, RosUtils(), false);
    var plugins := Select(cs, RosUtils(), true);
    SelectConcat(others, plugins, RosUtils(), want);
    if want {
      SelectNone(others, RosUtils(), true);
      SelectEvery(plugins, RosUtils(), true);
    } else {
      SelectEvery(others, RosUtils(), false);
      SelectNone(plugins, RosUtils(), false);
    }
  }

  /** After grouping, no other child follows a MujocoRosUtils plugin. */
  lemma GroupedAtEnd(cs: seq<Element>, i: nat, j: nat)
    requires i < j < |Grouped(cs)| && IsRosUtils(Grouped(cs)[i])
    ensures IsRosUtils(Grouped(cs)[j])
  {
    var others := Select(cs, RosUtils(), false);
    var plugins := Select(cs, RosUtils(), true);
    assert forall k :: 0 <= k < |others| ==> Grouped(cs)[k] == others[k] && others[k] in others;
    assert i >= |others|;
    assert Grouped(cs)[j] == plugins[j - |others|];
    assert plugins[j - |others|] in plugins;
  }

  /** Grouping twice is grouping once. */
  lemma GroupedIdempotent(cs: seq<Element>)
    ensures Grouped(Grouped(cs)) == Grouped(cs)
  {
    GroupedStable(cs, true);
    GroupedStable(cs, false);
  }

  // ---------------------------------------------------------------------
  // Floating base (`post_process_make_base_floating`)
  // ---------------------------------------------------------------------

  /** A direct `<joint type="free">` child. */
  predicate HasFreeJoint(body: Element) {
    exists c :: c in body.children && c.tag == "joint" && Get(c.attrs, "type") == Some("free")
  }

  /** The base body made floating: a free joint named `root` appended if it has none, and `pos="0 0 <height>"` if it has no position. */
  function Floating(body: Element, height: string): (r: Element)
    ensures HasFreeJoint(r) && Has(r.attrs, "pos")
    ensures r.tag == body.tag && body.children <= r.children
    ensures forall k :: k != "pos" ==> Get(r.attrs, k) == Get(body.attrs, k)
    ensures Has(body.attrs, "pos") ==> r.attrs == body.attrs
    ensures !Has(body.attrs, "pos") ==> Get(r.attrs, "pos") == Some("0 0 " + height)
    ensures r.children == body.children + if HasFreeJoint(body) then [] else [NewElement("joint", [("name", "root"), ("type", "free")])]
  {
    var j := NewElement("joint", [("name", "root"), ("type", "free")]);
    var b1 := if HasFreeJoint(body) then body else body.(children := body.children + [j]);
    assert Get(j.attrs, "type") == Some("free");
    assert HasFreeJoint(b1) by {
      if !HasFreeJoint(body) {
        assert j in b1.children;
      }
    }
    if Has(b1.attrs, "pos") then b1 else b1.(attrs := Set(b1.attrs, "pos", "0 0 " + height))
  }

  /** Making a floating body floating again changes nothing. */
  lemma FloatingIdempotent(body: Element, height: string)
    ensures Floating(Floating(body, height), height) == Floating(body, height)
  {
  }

  /** `post_process_make_base_floating`: the first `<body>` of the first `<worldbody>`, if both exist. */
  function MakeBaseFloating(root: Element, height: string): (r: Element)
    ensures r.tag == root.tag && |r.children| == |root.children|
  {
    match FindChild(root, "worldbody")
    case None => root
    case Some(w) =>
      var wb := root.children[w];
      match FindChild(wb, "body")
      case None => root
      case Some(b) =>
        root.(children := root.children[w := wb.(children := wb.children[b := Floating(wb.children[b], height)])])
  }

  /** Only the base body changes: every other node of the tree is where it was. */
  lemma MakeBaseFloatingLocal(root: Element, height: string, w: nat, b: nat)
    requires FindChild(root, "worldbody") == Some(w) && FindChild(root.children[w], "body") == Some(b)
    ensures var r := MakeBaseFloating(root, height);
      && (forall i :: 0 <= i < |root.children| && i != w ==> r.children[i] == root.children[i])
      && |r.children[w].children| == |root.children[w].children|
      && (forall i :: 0 <= i < |root.children[w].children| && i != b ==> r.children[w].children[i] == root.children[w].children[i])
      && r.children[w].children[b] == Floating(root.children[w].children[b], height)
  {
  }

  /** Running the pass twice is running it once. */
  lemma MakeBaseFloatingIdempotent(root: Element, height: string)
    ensures MakeBaseFloating(MakeBaseFloating(root, height), height) == MakeBaseFloating(root, height)
  {
    var r := MakeBaseFloating(root, height);
    match FindChild(root, "worldbody")
    case None =>
    case Some(w) =>
      var wb := root.children[w];
      match FindChild(wb, "body")
      case None =>
      case Some(b) =>
        assert FindChild(r, "worldbody") == Some(w) by {
          assert forall i :: 0 <= i < |r.children| ==> r.children[i].tag == root.children[i].tag;
        }
        assert FindChild(r.children[w], "body") == Some(b) by {
          assert forall i :: 0 <= i < |wb.children| ==> r.children[w].children[i].tag == wb.children[i].tag;
        }
        FloatingIdempotent(wb.children[b], height);
        var wb2 := r.children[w];
        assert wb2.children[b := Floating(wb2.children[b], height)] == wb2.children;
        assert r.children[w := wb2] == r.children;
  }

  // ---------------------------------------------------------------------
  // Simulation options (`post_process_set_simulation_options`)
  // ---------------------------------------------------------------------

  /** `d[k] = v` when `v` is given; the empty string stands for "not given". */
  function SetIfGiven(a: Attrs, k: string, v: string): (r: Attrs)
    ensures Get(r, k) == if v != "" then Some(v) else Get(a, k)
    ensures forall k' :: k' != k ==> Get(r, k') == Get(a, k')
  {
    if v != "" then Set(a, k, v) else a
  }

  /**
   * `post_process_set_simulation_options`. With neither setting given,
   * nothing changes; otherwise the `<option>` section (created right after
   * `<compiler>`, else first, when missing) gets each given setting.
   */
  function SetSimulationOptions(root: Element, solver: string, integrator: string): (r: Element)
    ensures solver == "" && integrator == "" ==> r == root
  {
    if solver == "" && integrator == "" then root
    else
      var (r1, o) := EnsureChildAfter(root, "option", "compiler");
      var opt := r1.children[o];
      r1.(children := r1.children[o := opt.(attrs := SetIfGiven(SetIfGiven(opt.attrs, "solver", solver), "integrator", integrator))])
  }

  /**
   * After the pass, the section `find("option")` returns holds each given
   * setting, and every other attribute it had.
   */
  lemma SimulationOptionsSet(root: Element, solver: string, integrator: string)
    requires solver != "" || integrator != ""
    ensures var r := SetSimulationOptions(root, solver, integrator);
      var (r1, o) := EnsureChildAfter(root, "option", "compiler");
      && FindChild(r, "option") == Some(o)
      && (solver != "" ==> Get(r.children[o].attrs, "solver") == Some(solver))
      && (integrator != "" ==> Get(r.children[o].attrs, "integrator") == Some(integrator))
      && (forall k :: k != "solver" && k != "integrator" ==> Get(r.children[o].attrs, k) == Get(r1.children[o].attrs, k))
  {
    var (r1, o) := EnsureChildAfter(root, "option", "compiler");
    if FindChild(root, "option").None? {
      var i := match FindChild(root, "compiler") case Some(a) => a + 1 case None => 0;
      InsertedIsFound(root, i, "option");
    }
    var r := SetSimulationOptions(root, solver, integrator);
    assert forall i :: 0 <= i < |r.children| ==> r.children[i].tag == r1.children[i].tag;
  }

  /** Setting the options twice is setting them once. */
  lemma SimulationOptionsIdempotent(root: Element, solver: string, integrator: string)
    ensures SetSimulationOptions(SetSimulationOptions(root, solver, integrator), solver, integrator)
         == SetSimulationOptions(root, solver, integrator)
  {
    if solver != "" || integrator != "" {
      var (r1, o) := EnsureChildAfter(root, "option", "compiler");
      var r := SetSimulationOptions(root, solver, integrator);
      SimulationOptionsSet(root, solver, integrator);
      assert EnsureChildAfter(r, "option", "compiler") == (r, o);
      var a := r1.children[o].attrs;
      var a1 := SetIfGiven(SetIfGiven(a, "solver", solver), "integrator", integrator);
      var a2 := SetIfGiven(SetIfGiven(a1, "solver", solver), "integrator", integrator);
      SetIfGivenTwice(a, solver, integrator);
      assert r.children[o].attrs == a1;
      assert r.children[o := r.children[o].(attrs := a2)] == r.children;
    }
  }

  lemma SetIfGivenTwice(a: Attrs, solver: string, integrator: string)
    ensures var a1 := SetIfGiven(SetIfGiven(a, "solver", solver), "integrator", integrator);
      SetIfGiven(SetIfGiven(a1, "solver", solver), "integrator", integrator) == a1
  {
    var s1 := SetIfGiven(a, "solver", solver);
    var a1 := SetIfGiven(s1, "integrator", integrator);
    if solver != "" {
      SetExisting(a1, "solver", solver);
    }
    if integrator != "" {
      SetExisting(a1, "integrator", integrator);
    }
  }

  /** Setting a key to the value it already has changes nothing. */
  lemma {:induction false} SetExisting(a: Attrs, k: string, v: string)
    requires Get(a, k) == Some(v)
    ensures Set(a, k, v) == a
    decreases |a|
  {
    if a[0].0 != k {
      SetExisting(a[1..], k, v);
      assert a == [a[0]] + a[1..];
    } else {
      assert a == [(k, v)] + a[1..];
    }
  }

  // ---------------------------------------------------------------------
  // Floor (`post_process_add_floor`)
  // ---------------------------------------------------------------------

  const FloorTexture: Element := NewElement("texture", [
    ("name", "floor"), ("type", "2d"), ("builtin", "checker"), ("rgb1", "0.1 0.2 0.3"), ("rgb2", "0.2 0.3 0.4"),
    ("width", "300"), ("height", "300"), ("mark", "edge"), ("markrgb", "0.2 0.3 0.4")])

  const FloorMaterial: Element := NewElement("material", [
    ("name", "floor"), ("texture", "floor"), ("texrepeat", "10 10"), ("texuniform", "true")])

  const FloorGeom: Element := NewElement("geom", [
    ("name", "floor"), ("type", "plane"), ("size", "20 20 0.1"), ("material", "floor")])

  /** `root.find(".//geom[@name='floor']")` finds something. */
  predicate HasFloor(root: Element) {
    FindFirst(root, "geom", [("name", "floor")]).Some?
  }

  /**
   * `post_process_add_floor`. With a geom named `floor` anywhere, nothing
   * changes. Otherwise the `<asset>` section (created before `<worldbody>`,
   * else last, when missing) gets the checker texture and the floor
   * material, and the `<worldbody>`, if any, gets the floor plane.
   */
  function AddFloor(root: Element): (r: Element)
    ensures HasFloor(root) ==> r == root
    ensures r.tag == root.tag
  {
    if HasFloor(root) then root
    else
      var (r1, a) := EnsureBeforeWorldbody(root, "asset");
      var r2 := AppendTo(r1, a, [FloorTexture, FloorMaterial]);
      match FindChild(r2, "worldbody")
      case None => r2
      case Some(w) => AppendTo(r2, w, [FloorGeom])
  }

  /** The sections `AddFloor` may touch. */
  function FloorSections(): Element -> bool {
    (x: Element) => x.tag == "asset" || x.tag == "worldbody"
  }

  /** Placing the asset section and appending the two assets keeps the `<worldbody>` sections and every other section. */
  lemma FloorAssetsKeepSections(root: Element)
    ensures var (r1, a) := EnsureBeforeWorldbody(root, "asset");
      var r2 := AppendTo(r1, a, [FloorTexture, FloorMaterial]);
      && Select(r2.children, Tagged("worldbody"), true) == Select(root.children, Tagged("worldbody"), true)
      && Select(r2.children, FloorSections(), false) == Select(root.children, FloorSections(), false)
  {
    var (r1, a) := EnsureBeforeWorldbody(root, "asset");
    var r2 := AppendTo(r1, a, [FloorTexture, FloorMaterial]);
    if FindChild(root, "asset").None? {
      SelectInsert(root.children, a, NewElement("asset", []), Tagged("worldbody"), true);
      SelectInsert(root.children, a, NewElement("asset", []), FloorSections(), false);
    }
    assert r2.children == r1.children[a := r2.children[a]];
    SelectUpdate(r1.children, a, r2.children[a], Tagged("worldbody"), true);
    SelectUpdate(r1.children, a, r2.children[a], FloorSections(), false);
  }

  /**
   * Without a floor, the plane goes at the end of the first `<worldbody>`,
   * which otherwise stays as it was, and every root child other than the
   * `<asset>` and `<worldbody>` sections is unchanged, in order.
   */
  lemma AddFloorPlacement(root: Element, w: nat)
    requires !HasFloor(root) && FindChild(root, "worldbody") == Some(w)
    ensures var r := AddFloor(root);
      && FindChild(r, "worldbody").Some?
      && r.children[FindChild(r, "worldbody").value] == root.children[w].(children := root.children[w].children + [FloorGeom])
      && Select(r.children, FloorSections(), false) == Select(root.children, FloorSections(), false)
  {
    var (r1, a) := EnsureBeforeWorldbody(root, "asset");
    var r2 := AppendTo(r1, a, [FloorTexture, FloorMaterial]);
    FloorAssetsKeepSections(root);
    FindChildSelect(root, "worldbody");
    FindChildSelect(r2, "worldbody");
    GeomPlaced(r2);
  }

  /** Appending the plane to the first `<worldbody>` keeps it first and touches no other section. */
  lemma GeomPlaced(r2: Element)
    requires FindChild(r2, "worldbody").Some?
    ensures var w2 := FindChild(r2, "worldbody").value;
      var r := AppendTo(r2, w2, [FloorGeom]);
      && FindChild(r, "worldbody") == Some(w2)
      && r.children[w2] == r2.children[w2].(children := r2.children[w2].children + [FloorGeom])
      && Select(r.children, FloorSections(), false) == Select(r2.children, FloorSections(), false)
  {
    var w2 := FindChild(r2, "worldbody").value;
    var r := AppendTo(r2, w2, [FloorGeom]);
    assert r.children == r2.children[w2 := r.children[w2]];
    SelectUpdate(r2.children, w2, r.children[w2], FloorSections(), false);
  }

  /** With a `<worldbody>`, the pass leaves a floor behind, so running it again changes nothing. */
  lemma AddFloorIdempotent(root: Element)
    requires FindChild(root, "worldbody").Some?
    ensures AddFloor(AddFloor(root)) == AddFloor(root)
  {
    AddFloorLeavesFloor(root);
  }

  /** With a `<worldbody>`, the result has a geom named `floor`. */
  lemma AddFloorLeavesFloor(root: Element)
    requires FindChild(root, "worldbody").Some?
    ensures HasFloor(AddFloor(root))
  {
    if !HasFloor(root) {
      var (r1, a) := EnsureBeforeWorldbody(root, "asset");
      var r2 := AppendTo(r1, a, [FloorTexture, FloorMaterial]);
      WorldbodyKept(root);
      var w := FindChild(r2, "worldbody").value;
      GeomAppendedIsFloor(r2, w);
    }
  }

  /** Adding the asset section and the two assets keeps a `<worldbody>` child. */
  lemma WorldbodyKept(root: Element)
    requires FindChild(root, "worldbody").Some?
    ensures var (r1, a) := EnsureBeforeWorldbody(root, "asset");
      FindChild(AppendTo(r1, a, [FloorTexture, FloorMaterial]), "worldbody").Some?
  {
    var (r1, a) := EnsureBeforeWorldbody(root, "asset");
    var r2 := AppendTo(r1, a, [FloorTexture, FloorMaterial]);
    var w0 := FindChild(root, "worldbody").value;
    var w1 := if FindChild(root, "asset").None? && a <= w0 then w0 + 1 else w0;
    assert r1.children[w1].tag == "worldbody";
    assert r2.children[w1].tag == "worldbody";
  }

  /** A floor plane appended to a child of the root is found by `HasFloor`. */
  lemma GeomAppendedIsFloor(r2: Element, w: nat)
    requires w < |r2.children|
    ensures HasFloor(AppendTo(r2, w, [FloorGeom]))
  {
    var r := AppendTo(r2, w, [FloorGeom]);
    var sec := r.children[w];
    var k := |sec.children| - 1;
    assert sec.children[k] == FloorGeom;
    var p: Path := [w, k];
    assert p[1..] == [k] && [k][1..] == [];
    assert ValidPath(sec.children[k], []) && At(sec.children[k], []) == FloorGeom;
    assert ValidPath(sec, [k]) && At(sec, [k]) == FloorGeom;
    assert ValidPath(r, p) && At(r, p) == FloorGeom;
    assert HasAll(FloorGeom.attrs, [("name", "floor")]);
  }

  /** The asset section ends with the checker texture and then the floor material. */
  lemma AddFloorAssets(root: Element)
    requires !HasFloor(root)
    ensures var (r1, a) := EnsureBeforeWorldbody(root, "asset");
      var r := AddFloor(root);
      && a < |r.children| && r.children[a].tag == "asset"
      && r.children[a].children == r1.children[a].children + [FloorTexture, FloorMaterial]
  {
    var (r1, a) := EnsureBeforeWorldbody(root, "asset");
    var r2 := AppendTo(r1, a, [FloorTexture, FloorMaterial]);
    match FindChild(r2, "worldbody")
    case None =>
    case Some(w) =>
      assert w != a;
  }
}

=== FILE: table.dfy ===
/**
 * A Python dict from names to values of any type, in insertion order:
 * overwriting a key keeps its position, a new key goes to the end. The
 * attribute dictionary of an element is the string-valued case (`AttrList`).
 */
module Table {

  import opened Options

  type Table<V> = seq<(string, V)>

  function Names<V>(t: Table<V>): (ks: seq<string>)
    ensures |ks| == |t|
    ensures forall i :: 0 <= i < |t| ==> ks[i] == t[i].0
  {
    if |t| == 0 then [] else [t[0].0] + Names(t[1..])
  }

  /** `d.get(k)`: the value of the first entry named `k`. */
  function Lookup<V>(t: Table<V>, k: string): (r: Option<V>)
    ensures r.Some? <==> k in Names(t)
  {
    if |t| == 0 then None
    else if t[0].0 == k then Some(t[0].1)
    else Lookup(t[1..], k)
  }

  /** `d[k] = v`. */
  function Put<V>(t: Table<V>, k: string, v: V): (r: Table<V>)
    ensures forall k' {:trigger Lookup(r, k')} :: Lookup(r, k') == if k' == k then Some(v) else Lookup(t, k')
    ensures k in Names(t) ==> Names(r) == Names(t)
    ensures k !in Names(t) ==> Names(r) == Names(t) + [k]
  {
    if |t| == 0 then [(k, v)]
    else if t[0].0 == k then [(k, v)] + t[1..]
    else [t[0]] + Put(t[1..], k, v)
  }

  /**
   * The table a loop builds by writing, for each item in order, the entry
   * it yields (when it yields one).
   */
  function FromEntries<V>(es: seq<Option<(string, V)>>): (t: Table<V>)
    decreases |es|
  {
    if |es| == 0 then []
    else
      var t := FromEntries(es[..|es| - 1]);
      match es[|es| - 1]
      case Some(e) => Put(t, e.0, e.1)
      case None => t
  }

  /** Item `i` yields an entry named `k`. */
  predicate Yields<V>(es: seq<Option<(string, V)>>, i: int, k: string) {
    0 <= i < |es| && es[i].Some? && es[i].value.0 == k
  }

  /** Writing the last item's entry, if any, onto the table of the others. */
  lemma FromEntriesStep<V>(es: seq<Option<(string, V)>>, k: string)
    requires |es| > 0
    ensures var init := FromEntries(es[..|es| - 1]);
      && (k in Names(FromEntries(es)) <==> k in Names(init) || Yields(es, |es| - 1, k))
      && (!Yields(es, |es| - 1, k) ==> Lookup(FromEntries(es), k) == Lookup(init, k))
      && (Yields(es, |es| - 1, k) ==> Lookup(FromEntries(es), k) == Some(es[|es| - 1].value.1))
  {
  }

  /** A name is in the table exactly when some item yields an entry under it. */
  lemma {:induction false} FromEntriesNames<V>(es: seq<Option<(string, V)>>, k: string)
    ensures k in Names(FromEntries(es)) <==> exists i :: Yields(es, i, k)
    decreases |es|
  {
    if |es| > 0 {
      var n := |es| - 1;
      var init := es[..n];
      FromEntriesNames(init, k);
      FromEntriesStep(es, k);
      if exists i :: Yields(init, i, k) {
        var i :| Yields(init, i, k);
        assert Yields(es, i, k);
      }
      if exists i :: Yields(es, i, k) {
        var i :| Yields(es, i, k);
        if i < n {
          assert Yields(init, i, k);
        }
      }
    }
  }

  /** Every value in the table is one some item yielded under that name. */
  lemma {:induction false} FromEntriesValues<V>(es: seq<Option<(string, V)>>, k: string)
    requires Lookup(FromEntries(es), k).Some?
    ensures exists i :: 0 <= i < |es| && es[i] == Some((k, Lookup(FromEntries(es), k).value))
    decreases |es|
  {
    var n := |es| - 1;
    var init := es[..n];
    var v := Lookup(FromEntries(es), k).value;
    FromEntriesStep(es, k);
    if Yields(es, n, k) {
      assert es[n] == Some((k, v));
    } else {
      FromEntriesValues(init, k);
      var i :| 0 <= i < |init| && init[i] == Some((k, v));
      assert es[i] == init[i];
    }
  }

  /** The value under a name is the one the last item yielding that name wrote. */
  lemma {:induction false} FromEntriesLast<V>(es: seq<Option<(string, V)>>, i: nat)
    requires i < |es| && es[i].Some?
    requires forall j :: i < j < |es| ==> !Yields(es, j, es[i].value.0)
    ensures Lookup(FromEntries(es), es[i].value.0) == Some(es[i].value.1)
    decreases |es|
  {
    var n := |es| - 1;
    var k := es[i].value.0;
    FromEntriesStep(es, k);
    if i < n {
      var init := es[..n];
      assert !Yields(es, n, k);
      assert init[i] == es[i];
      forall j | i < j < |init|
        ensures !Yields(init, j, k)
      {
        assert !Yields(es, j, k);
        assert init[j] == es[j];
      }
      FromEntriesLast(init, i);
      assert Lookup(FromEntries(es), k) == Lookup(FromEntries(init), k);
    } else {
      assert Yields(es, n, k);
    }
  }

  /** No name occurs twice among the keys. */
  predicate DistinctNames<V>(t: Table<V>) {
    forall a, b :: 0 <= a < b < |t| ==> t[a].0 != t[b].0
  }

  /** Writing a key keeps the keys distinct. */
  lemma PutDistinct<V>(t: Table<V>, k: string, v: V)
    requires DistinctNames(t)
    ensures DistinctNames(Put(t, k, v))
  {
    var r := Put(t, k, v);
    forall a, b | 0 <= a < b < |r| ensures r[a].0 != r[b].0 {
      assert Names(r)[a] == r[a].0 && Names(r)[b] == r[b].0;
      if k !in Names(t) && b == |t| {
        assert Names(t)[a] == t[a].0;
      } else {
        assert Names(t)[a] == t[a].0 && Names(t)[b] == t[b].0;
      }
    }
  }

  /** A table built entry by entry, like a dict, never holds a key twice. */
  lemma {:induction false} FromEntriesDistinct<V>(es: seq<Option<(string, V)>>)
    ensures DistinctNames(FromEntries(es))
    decreases |es|
  {
    if |es| > 0 {
      FromEntriesDistinct(es[..|es| - 1]);
      match es[|es| - 1]
      case Some(e) => PutDistinct(FromEntries(es[..|es| - 1]), e.0, e.1);
      case None =>
    }
  }
}

=== FILE: text.dfy ===
/** Character classes and the few string operations the converter relies on. */
module Text {

  import opened Options

  /** `\w` of a Python regular expression, restricted to ASCII. */
  predicate IsWordChar(c: char) {
    ('a' <= c <= 'z') || ('A' <= c <= 'Z') || ('0' <= c <= '9') || c == '_'
  }

  /** The characters Python's `str.strip()` removes (those for which `str.isspace()` holds). */
  predicate IsSpace(c: char) {
    c == ' ' || c == '\t' || c == '\n' || c == '\r' || c == '\U{000B}' || c == '\U{000C}'
    || ('\U{001C}' <= c <= '\U{001F}') || c == '\U{0085}' || c == '\U{00A0}' || c == '\U{1680}'
    || ('\U{2000}' <= c <= '\U{200A}') || c == '\U{2028}' || c == '\U{2029}' || c == '\U{202F}'
    || c == '\U{205F}' || c == '\U{3000}'
  }

  /** How many whitespace characters `s` starts with. */
  function LeadingSpaces(s: string): (n: nat)
    ensures n <= |s|
    ensures n < |s| ==> !IsSpace(s[n])
  {
    if |s| > 0 && IsSpace(s[0]) then 1 + LeadingSpaces(s[1..]) else 0
  }

  /** How many whitespace characters `s` ends with. */
  function TrailingSpaces(s: string): (n: nat)
    ensures n <= |s|
    ensures n < |s| ==> !IsSpace(s[|s| - 1 - n])
  {
    if |s| > 0 && IsSpace(s[|s| - 1]) then 1 + TrailingSpaces(s[..|s| - 1]) else 0
  }

  /** Python's `s.strip()`: `s` without its leading and trailing whitespace. */
  function Strip(s: string): (r: string)
    ensures |r| > 0 ==> !IsSpace(r[0]) && !IsSpace(r[|r| - 1])
    ensures (|s| == 0 || (!IsSpace(s[0]) && !IsSpace(s[|s| - 1]))) ==> r == s
  {
    var t := s[LeadingSpaces(s)..];
    t[..|t| - TrailingSpaces(t)]
  }

  /** Stripping only removes characters. */
  lemma StripKeeps(s: string, c: char)
    requires c in Strip(s)
    ensures c in s
  {
    var t := s[LeadingSpaces(s)..];
    var r := Strip(s);
    var i :| 0 <= i < |r| && r[i] == c;
    assert s[LeadingSpaces(s) + i] == c;
  }

  predicate StartsWith(s: string, prefix: string) {
    |prefix| <= |s| && s[..|prefix|] == prefix
  }

  /**
   * Python's `s.split(sep, 1)` for a one-character separator: the parts
   * before and after the first occurrence, or None when `sep` does not occur.
   */
  function SplitFirst(s: string, sep: char): (r: Option<(string, string)>)
    ensures r.None? <==> sep !in s
    ensures r.Some? ==> s == r.value.0 + [sep] + r.value.1 && sep !in r.value.0
  {
    if |s| == 0 then None
    else if s[0] == sep then Some(([], s[1..]))
    else match SplitFirst(s[1..], sep)
      case None => None
      case Some(parts) => Some(([s[0]] + parts.0, parts.1))
  }

  /** The split is determined by the first occurrence of the separator. */
  lemma {:induction false} SplitFirstAt(s: string, sep: char, a: string, b: string)
    requires s == a + [sep] + b && sep !in a
    ensures SplitFirst(s, sep) == Some((a, b))
    decreases |a|
  {
    if |a| == 0 {
      assert s[1..] == b;
    } else {
      assert s[1..] == a[1..] + [sep] + b;
      SplitFirstAt(s[1..], sep, a[1..], b);
      assert [s[0]] + a[1..] == a;
    }
  }
}

=== FILE: tree.dfy ===
/**
 * The element tree the converter edits in place. Python holds references to
 * nodes; the model names a node by its path of child indices from the root.
 * Setting attributes and appending children keep every existing path valid
 * and pointing at the same node; inserting a child of the root moves the
 * later siblings one place right, which `Shift` accounts for.
 */
module Tree {

  import opened Options
  import opened AttrList

  /** An ElementTree element. Python's `text` of None is the empty string here; tail text is not modelled. */
  datatype Element = Element(tag: string, attrs: Attrs, text: string, children: seq<Element>)

  /** `ET.Element(tag, attrs)`: no text, no children. */
  function NewElement(tag: string, attrs: Attrs): Element {
    Element(tag, attrs, "", [])
  }

  type Path = seq<nat>

  predicate ValidPath(e: Element, p: Path)
    decreases |p|
  {
    |p| == 0 || (p[0] < |e.children| && ValidPath(e.children[p[0]], p[1..]))
  }

  /** The node a path names. */
  function At(e: Element, p: Path): Element
    requires ValidPath(e, p)
    decreases |p|
  {
    if |p| == 0 then e else At(e.children[p[0]], p[1..])
  }

  /** Following `p` and then `q` is following `p + q`. */
  lemma {:induction false} AtConcat(e: Element, p: Path, q: Path)
    requires ValidPath(e, p)
    ensures ValidPath(e, p + q) <==> ValidPath(At(e, p), q)
    ensures ValidPath(e, p + q) ==> At(e, p + q) == At(At(e, p), q)
    decreases |p|
  {
    if |p| > 0 {
      assert (p + q)[0] == p[0] && (p + q)[1..] == p[1..] + q;
      AtConcat(e.children[p[0]], p[1..], q);
    } else {
      assert p + q == q;
    }
  }

  /**
   * The node at `p` gets attributes `a` and the extra children `kids`
   * appended: the one edit every mutation of the tree is made of.
   */
  function EditAt(e: Element, p: Path, a: Attrs, kids: seq<Element>): Element
    requires ValidPath(e, p)
    decreases |p|
  {
    if |p| == 0 then e.(attrs := a, children := e.children + kids)
    else e.(children := e.children[p[0] := EditAt(e.children[p[0]], p[1..], a, kids)])
  }

  /** Same tag, attributes and text, and as many children. */
  predicate SameNode(x: Element, y: Element) {
    x.tag == y.tag && x.attrs == y.attrs && x.text == y.text && |x.children| == |y.children|
  }

  lemma {:induction false} EditAtEffect(e: Element, p: Path, a: Attrs, kids: seq<Element>, q: Path)
    requires ValidPath(e, p) && ValidPath(e, q)
    ensures ValidPath(EditAt(e, p, a, kids), q)
    ensures q == p ==> At(EditAt(e, p, a, kids), q) == At(e, q).(attrs := a, children := At(e, q).children + kids)
    ensures !(q <= p) ==> At(EditAt(e, p, a, kids), q) == At(e, q)
    ensures q < p ==> SameNode(At(EditAt(e, p, a, kids), q), At(e, q))
    ensures q < p ==> forall i :: 0 <= i < |At(e, q).children| && i != p[|q|] ==>
      At(EditAt(e, p, a, kids), q).children[i] == At(e, q).children[i]
    decreases |p|
  {
    if |p| > 0 && |q| > 0 && q[0] == p[0] {
      EditAtEffect(e.children[p[0]], p[1..], a, kids, q[1..]);
      assert q <= p ==> q[1..] <= p[1..];
      assert q[1..] <= p[1..] ==> q <= p by {
        if q[1..] <= p[1..] { assert q == [q[0]] + q[1..] && p == [p[0]] + p[1..]; }
      }
      assert q == p <==> q[1..] == p[1..] by {
        if q[1..] == p[1..] { assert q == [q[0]] + q[1..] && p == [p[0]] + p[1..]; }
      }
    }
  }

  lemma EditAtKeepsPaths(e: Element, p: Path, a: Attrs, kids: seq<Element>)
    requires ValidPath(e, p)
    ensures forall q :: ValidPath(e, q) ==> ValidPath(EditAt(e, p, a, kids), q)
  {
    forall q | ValidPath(e, q) ensures ValidPath(EditAt(e, p, a, kids), q) {
      EditAtEffect(e, p, a, kids, q);
    }
  }

  /**
   * Edits every node of `ps` in turn: its attributes become `f` of its current
   * ones and `kids` are appended to its children. The paths are all computed
   * before the first edit, as the source computes its match list first.
   */
  function EditEach(e: Element, ps: seq<Path>, f: Attrs -> Attrs, kids: seq<Element>): (r: Element)
    requires forall p :: p in ps ==> ValidPath(e, p)
    ensures forall q :: ValidPath(e, q) ==> ValidPath(r, q)
    decreases |ps|
  {
    if |ps| == 0 then e
    else
      var e1 := EditAt(e, ps[0], f(At(e, ps[0]).attrs), kids);
      EditAtKeepsPaths(e, ps[0], f(At(e, ps[0]).attrs), kids);
      assert forall p :: p in ps[1..] ==> p in ps;
      EditEach(e1, ps[1..], f, kids)
  }

  /** Editing a list of one node is editing that node. */
  lemma EditEachOne(e: Element, p: Path, f: Attrs -> Attrs, kids: seq<Element>)
    requires ValidPath(e, p)
    ensures EditEach(e, [p], f, kids) == EditAt(e, p, f(At(e, p).attrs), kids)
  {
    assert [p][1..] == [];
  }

  /** Editing a root child. */
  lemma EditAtChild(e: Element, i: nat, a: Attrs, kids: seq<Element>)
    requires i < |e.children|
    ensures EditAt(e, [i], a, kids)
         == e.(children := e.children[i := e.children[i].(attrs := a, children := e.children[i].children + kids)])
  {
    assert [i][1..] == [];
  }

  /** Inserting an empty root child and then editing it is inserting the edited child. */
  lemma InsertThenEdit(e: Element, i: nat, tag: string, f: Attrs -> Attrs, kids: seq<Element>)
    requires i <= |e.children|
    ensures ValidPath(Insert(e, i, NewElement(tag, [])), [i])
    ensures EditEach(Insert(e, i, NewElement(tag, [])), [[i]], f, kids) == Insert(e, i, Element(tag, f([]), "", kids))
  {
    var r1 := Insert(e, i, NewElement(tag, []));
    var made := Element(tag, f([]), "", kids);
    EditEachOne(r1, [i], f, kids);
    EditAtChild(r1, i, f([]), kids);
    assert r1.children[i].children + kids == kids;
    assert r1.children[i].(attrs := f([]), children := r1.children[i].children + kids) == made;
    assert r1.children[i := made] == Insert(e, i, made).children;
  }

  /** `EditEach` keeps every path valid and every node's tag, whatever the edited paths. */
  lemma {:induction false} EditEachKeeps(e: Element, ps: seq<Path>, f: Attrs -> Attrs, kids: seq<Element>, q: Path)
    requires forall p :: p in ps ==> ValidPath(e, p)
    requires ValidPath(e, q)
    ensures ValidPath(EditEach(e, ps, f, kids), q) && At(EditEach(e, ps, f, kids), q).tag == At(e, q).tag
    decreases |ps|
  {
    if |ps| > 0 {
      var a0 := f(At(e, ps[0]).attrs);
      var e1 := EditAt(e, ps[0], a0, kids);
      EditAtKeepsPaths(e, ps[0], a0, kids);
      EditAtEffect(e, ps[0], a0, kids, q);
      assert forall p :: p in ps[1..] ==> p in ps;
      EditEachKeeps(e1, ps[1..], f, kids, q);
    }
  }

  /**
   * What `EditEach` does to one node: the edited nodes get `f` of their
   * attributes and `kids` after their old children, every other node keeps
   * its tag, text, attributes and number of children.
   */
  lemma EditEachEffect(e: Element, ps: seq<Path>, f: Attrs -> Attrs, kids: seq<Element>, q: Path)
    requires forall p :: p in ps ==> ValidPath(e, p)
    requires Distinct(ps)
    requires ValidPath(e, q)
    ensures ValidPath(EditEach(e, ps, f, kids), q)
    ensures At(EditEach(e, ps, f, kids), q).tag == At(e, q).tag
    ensures At(EditEach(e, ps, f, kids), q).text == At(e, q).text
    ensures At(EditEach(e, ps, f, kids), q).attrs == if q in ps then f(At(e, q).attrs) else At(e, q).attrs
    ensures |At(EditEach(e, ps, f, kids), q).children| == |At(e, q).children| + if q in ps then |kids| else 0
    ensures At(EditEach(e, ps, f, kids), q).children[|At(e, q).children|..] == if q in ps then kids else []
  {
    var n := |At(e, q).children|;
    forall p | p in ps && q < p ensures p[|q|] < n {
      AtConcat(e, q, p[|q|..]);
      assert q + p[|q|..] == p;
    }
    EditEachTail(e, ps, f, kids, q, n);
  }

  lemma {:induction false} EditEachTail(e: Element, ps: seq<Path>, f: Attrs -> Attrs, kids: seq<Element>, q: Path, n: nat)
    requires forall p :: p in ps ==> ValidPath(e, p)
    requires Distinct(ps)
    requires ValidPath(e, q)
    requires n <= |At(e, q).children|
    requires forall p :: p in ps && q < p ==> p[|q|] < n
    ensures ValidPath(EditEach(e, ps, f, kids), q)
    ensures At(EditEach(e, ps, f, kids), q).tag == At(e, q).tag
    ensures At(EditEach(e, ps, f, kids), q).text == At(e, q).text
    ensures At(EditEach(e, ps, f, kids), q).attrs == if q in ps then f(At(e, q).attrs) else At(e, q).attrs
    ensures |At(EditEach(e, ps, f, kids), q).children| == |At(e, q).children| + if q in ps then |kids| else 0
    ensures At(EditEach(e, ps, f, kids), q).children[n..] == At(e, q).children[n..] + if q in ps then kids else []
    decreases |ps|
  {
    if |ps| > 0 {
      var p0 := ps[0];
      var a0 := f(At(e, p0).attrs);
      var e1 := EditAt(e, p0, a0, kids);
      EditAtKeepsPaths(e, p0, a0, kids);
      EditAtEffect(e, p0, a0, kids, q);
      DistinctTail(ps);
      assert forall p :: p in ps[1..] ==> p in ps;
      assert q in ps <==> q == p0 || q in ps[1..];
      if q < p0 {
        var before, cur := At(e, q).children, At(e1, q).children;
        assert cur[n..] == before[n..] by {
          forall i | 0 <= i < |before| - n ensures cur[n..][i] == before[n..][i] {
            assert cur[n + i] == before[n + i];
          }
        }
      }
      EditEachTail(e1, ps[1..], f, kids, q, n);
      assert EditEach(e, ps, f, kids) == EditEach(e1, ps[1..], f, kids);
    }
  }

  /** A root child inserted at index `i` moves every node below a later root child one place right. */
  function Shift(p: Path, i: nat): (r: Path)
    ensures |r| == |p|
    ensures |p| > 0 ==> r[1..] == p[1..]
  {
    if |p| > 0 && p[0] >= i then [p[0] + 1] + p[1..] else p
  }

  /** A path after a series of root insertions, oldest first. */
  function ShiftAll(p: Path, ins: seq<nat>): (r: Path)
    ensures |r| == |p|
    decreases |ins|
  {
    if |ins| == 0 then p else ShiftAll(Shift(p, ins[0]), ins[1..])
  }

  lemma {:induction false} ShiftAllConcat(p: Path, a: seq<nat>, b: seq<nat>)
    ensures ShiftAll(p, a + b) == ShiftAll(ShiftAll(p, a), b)
    decreases |a|
  {
    if |a| > 0 {
      assert (a + b)[0] == a[0] && (a + b)[1..] == a[1..] + b;
      ShiftAllConcat(Shift(p, a[0]), a[1..], b);
    } else {
      assert a + b == b;
    }
  }

  /** `e.insert(i, c)`. */
  function Insert(e: Element, i: nat, c: Element): (r: Element)
    requires i <= |e.children|
    ensures r.children == e.children[..i] + [c] + e.children[i..]
    ensures r.children[i] == c && r.tag == e.tag && r.attrs == e.attrs
  {
    e.(children := e.children[..i] + [c] + e.children[i..])
  }

  /** Inserting a root child keeps every node, at its shifted path. */
  lemma InsertKeepsNodes(e: Element, i: nat, c: Element, q: Path)
    requires i <= |e.children|
    requires ValidPath(e, q) && |q| > 0
    ensures ValidPath(Insert(e, i, c), Shift(q, i))
    ensures At(Insert(e, i, c), Shift(q, i)) == At(e, q)
  {
    var r := Insert(e, i, c);
    var s := Shift(q, i);
    assert r.children[s[0]] == e.children[q[0]];
  }

  /** `e.find(tag)`: the index of the first child with that tag. */
  function FindChild(e: Element, tag: string): (r: Option<nat>)
    ensures r.Some? ==> r.value < |e.children| && e.children[r.value].tag == tag
    ensures r.Some? ==> forall j :: 0 <= j < r.value ==> e.children[j].tag != tag
    ensures r.None? ==> forall j :: 0 <= j < |e.children| ==> e.children[j].tag != tag
  {
    FindChildFrom(e.children, tag, 0)
  }

  function FindChildFrom(cs: seq<Element>, tag: string, i: nat): (r: Option<nat>)
    requires i <= |cs|
    ensures r.Some? ==> i <= r.value < |cs| && cs[r.value].tag == tag
    ensures r.Some? ==> forall j :: i <= j < r.value ==> cs[j].tag != tag
    ensures r.None? ==> forall j :: i <= j < |cs| ==> cs[j].tag != tag
    decreases |cs| - i
  {
    if i == |cs| then None
    else if cs[i].tag == tag then Some(i)
    else FindChildFrom(cs, tag, i + 1)
  }

  /** `base + p` for every `p`. */
  function Under(base: Path, ps: seq<Path>): (r: seq<Path>)
    ensures |r| == |ps| && forall k :: 0 <= k < |ps| ==> r[k] == base + ps[k]
  {
    seq(|ps|, k requires 0 <= k < |ps| => base + ps[k])
  }

  /** Every proper descendant of `e`, in document order (`e.iter()` without `e` itself). */
  function Descendants(e: Element): seq<Path>
    decreases e, 1, 0
  {
    DescendantsFrom(e, 0)
  }

  function DescendantsFrom(e: Element, i: nat): seq<Path>
    decreases e, 0, |e.children| - i
  {
    if i >= |e.children| then []
    else [[i]] + Under([i], Descendants(e.children[i])) + DescendantsFrom(e, i + 1)
  }

  /**
   * `p` comes before `q` in document order (preorder): `p` is a proper
   * prefix of `q`, or `p` branches off to an earlier sibling.
   */
  predicate Before(p: Path, q: Path)
    decreases |p|
  {
    |q| > 0 && (|p| == 0 || p[0] < q[0] || (p[0] == q[0] && Before(p[1..], q[1..])))
  }

  /** Every path of `ps` comes before every later one. */
  predicate InDocumentOrder(ps: seq<Path>) {
    forall i, j :: 0 <= i < j < |ps| ==> Before(ps[i], ps[j])
  }

  lemma BeforeUnder(i: nat, p: Path, q: Path)
    ensures Before([i] + p, [i] + q) <==> Before(p, q)
  {
    assert ([i] + p)[1..] == p && ([i] + q)[1..] == q;
  }

  lemma {:induction false} BeforeIrreflexive(p: Path)
    ensures !Before(p, p)
    decreases |p|
  {
    if |p| > 0 {
      BeforeIrreflexive(p[1..]);
    }
  }

  lemma {:induction false} BeforeAsymmetric(p: Path, q: Path)
    ensures !(Before(p, q) && Before(q, p))
    decreases |p|
  {
    if |p| > 0 && |q| > 0 {
      BeforeAsymmetric(p[1..], q[1..]);
    }
  }

  /** Two different paths are always ordered one way or the other. */
  lemma {:induction false} BeforeTotal(p: Path, q: Path)
    requires p != q
    ensures Before(p, q) || Before(q, p)
    decreases |p|
  {
    if |p| > 0 && |q| > 0 && p[0] == q[0] {
      assert p == [p[0]] + p[1..] && q == [q[0]] + q[1..];
      BeforeTotal(p[1..], q[1..]);
    }
  }

  /** `e.iter()` visits the descendants in document order. */
  lemma {:induction false} DescendantsOrdered(e: Element)
    ensures InDocumentOrder(Descendants(e))
    decreases e, 1
  {
    DescendantsFromOrdered(e, 0);
  }

  lemma {:induction false} DescendantsFromOrdered(e: Element, i: nat)
    ensures InDocumentOrder(DescendantsFrom(e, i))
    decreases e, 0, |e.children| - i
  {
    if i < |e.children| {
      var c := e.children[i];
      var ds := Descendants(c);
      DescendantsOrdered(c);
      DescendantsExact(c);
      DescendantsFromOrdered(e, i + 1);
      DescendantsFromExact(e, i + 1);
      forall p | p in DescendantsFrom(e, i + 1) ensures |p| > 0 && i < p[0] { }
      forall k | 0 <= k < |ds| ensures |ds[k]| > 0 { assert ds[k] in ds; }
      OrderedBlock(i, ds, DescendantsFrom(e, i + 1));
    }
  }

  /** A node, its subtree in order, then paths under later siblings in order: the whole is in order. */
  lemma OrderedBlock(i: nat, ds: seq<Path>, tail: seq<Path>)
    requires InDocumentOrder(ds) && InDocumentOrder(tail)
    requires forall k :: 0 <= k < |ds| ==> |ds[k]| > 0
    requires forall p :: p in tail ==> |p| > 0 && i < p[0]
    ensures InDocumentOrder([[i]] + Under([i], ds) + tail)
  {
    var mid := Under([i], ds);
    var all := [[i]] + mid + tail;
    assert forall k :: 0 <= k < |mid| ==> mid[k][0] == i && mid[k] == [i] + ds[k];
    forall a, b | 0 <= a < b < |all| ensures Before(all[a], all[b]) {
      if b <= |mid| {
        if a == 0 {
          assert all[b][1..] == ds[b - 1];
        } else {
          BeforeUnder(i, ds[a - 1], ds[b - 1]);
        }
      } else {
        assert all[b] == tail[b - 1 - |mid|];
        if a > |mid| {
          assert all[a] == tail[a - 1 - |mid|];
        } else {
          assert tail[b - 1 - |mid|] in tail;
        }
      }
    }
  }

  /** Two lists in document order with the same members are the same list. */
  lemma {:induction false} OrderedUnique(a: seq<Path>, b: seq<Path>)
    requires InDocumentOrder(a) && InDocumentOrder(b)
    requires forall p :: p in a <==> p in b
    ensures a == b
    decreases |a|
  {
    assert |a| > 0 ==> a[0] in b;
    assert |b| > 0 ==> b[0] in a;
    if |a| > 0 && |b| > 0 {
      assert a[0] in b && b[0] in a;
      var k :| 0 <= k < |b| && b[k] == a[0];
      var m :| 0 <= m < |a| && a[m] == b[0];
      BeforeAsymmetric(a[0], b[0]);
      assert a[0] == b[0];
      forall p ensures p in a[1..] <==> p in b[1..] {
        BeforeIrreflexive(p);
        if p in a[1..] {
          var j :| 0 <= j < |a| - 1 && a[1..][j] == p;
          assert a[j + 1] == p && Before(a[0], p);
          assert p in b && p != b[0];
          assert b == [b[0]] + b[1..];
        }
        if p in b[1..] {
          var j :| 0 <= j < |b| - 1 && b[1..][j] == p;
          assert b[j + 1] == p && Before(b[0], p);
          assert p in a && p != a[0];
          assert a == [a[0]] + a[1..];
        }
      }
      OrderedUnique(a[1..], b[1..]);
      assert a == [a[0]] + a[1..] && b == [b[0]] + b[1..];
    }
  }

  predicate Distinct<T(==)>(s: seq<T>) {
    forall i, j :: 0 <= i < j < |s| ==> s[i] != s[j]
  }

  /** The descendants are exactly the non-empty valid paths, each listed once. */
  lemma {:induction false} DescendantsExact(e: Element)
    ensures Distinct(Descendants(e))
    ensures forall p :: p in Descendants(e) <==> |p| > 0 && ValidPath(e, p)
    decreases e, 1
  {
    DescendantsFromExact(e, 0);
  }

  lemma {:induction false} DescendantsFromExact(e: Element, i: nat)
    ensures Distinct(DescendantsFrom(e, i))
    ensures forall p :: p in DescendantsFrom(e, i) <==> |p| > 0 && i <= p[0] && ValidPath(e, p)
    decreases e, 0, |e.children| - i
  {
    if i < |e.children| {
      var c := e.children[i];
      DescendantsExact(c);
      DescendantsFromExact(e, i + 1);
      UnderExact(i, Descendants(c));
      var mid := Under([i], Descendants(c));
      forall p | |p| > 0 && p[0] == i ensures ValidPath(e, p) <==> ValidPath(c, p[1..]) { }
      JoinBlocks(e, i, mid, DescendantsFrom(e, i + 1));
    }
  }

  /** The three parts of `DescendantsFrom(e, i)` are disjoint and together cover the paths from child `i` on. */
  lemma JoinBlocks(e: Element, i: nat, mid: seq<Path>, tail: seq<Path>)
    requires i < |e.children|
    requires Distinct(mid) && Distinct(tail)
    requires forall p :: p in mid <==> |p| > 1 && p[0] == i && ValidPath(e, p)
    requires forall p :: p in tail <==> |p| > 0 && i + 1 <= p[0] && ValidPath(e, p)
    ensures Distinct([[i]] + mid + tail)
    ensures forall p :: p in [[i]] + mid + tail <==> |p| > 0 && i <= p[0] && ValidPath(e, p)
  {
    var head: seq<Path> := [[i]];
    DistinctConcat(head, mid);
    DistinctConcat(head + mid, tail);
    forall p ensures p in head + mid + tail <==> |p| > 0 && i <= p[0] && ValidPath(e, p) {
      if |p| == 1 && p[0] == i {
        assert p == [i];
        assert ValidPath(e.children[i], p[1..]);
      }
    }
  }

  lemma UnderExact(i: nat, ds: seq<Path>)
    requires Distinct(ds)
    ensures Distinct(Under([i], ds))
    ensures forall p :: p in Under([i], ds) <==> |p| > 0 && p[0] == i && p[1..] in ds
  {
    var u := Under([i], ds);
    forall p ensures p in u <==> |p| > 0 && p[0] == i && p[1..] in ds {
      if p in u {
        var k :| 0 <= k < |u| && u[k] == p;
        assert p[1..] == ds[k];
      }
      if |p| > 0 && p[0] == i && p[1..] in ds {
        var k :| 0 <= k < |ds| && ds[k] == p[1..];
        assert u[k] == [i] + p[1..] == p;
      }
    }
    forall a, b | 0 <= a < b < |u| ensures u[a] != u[b] {
      assert u[a][1..] == ds[a] && u[b][1..] == ds[b];
    }
  }

  lemma DistinctConcat<T>(a: seq<T>, b: seq<T>)
    requires Distinct(a) && Distinct(b)
    requires forall x :: x in a ==> x !in b
    ensures Distinct(a + b)
  {
    forall i, j | 0 <= i < j < |a + b| ensures (a + b)[i] != (a + b)[j] {
      if i < |a| && j >= |a| {
        assert (a + b)[i] in a && (a + b)[j] in b;
      }
    }
  }

  lemma DistinctTail<T>(s: seq<T>)
    requires |s| > 0 && Distinct(s)
    ensures Distinct(s[1..]) && s[0] !in s[1..]
  {
    forall a, b | 0 <= a < b < |s[1..]| ensures s[1..][a] != s[1..][b] {
      assert s[1..][a] == s[a + 1] && s[1..][b] == s[b + 1];
    }
  }

  /** The paths of `ps` whose node satisfies `keep`, in their original order. */
  function Filter(e: Element, ps: seq<Path>, keep: Element -> bool): (r: seq<Path>)
    requires forall p :: p in ps ==> ValidPath(e, p)
    ensures forall p :: p in r <==> p in ps && keep(At(e, p))
    ensures Distinct(ps) ==> Distinct(r)
    ensures InDocumentOrder(ps) ==> InDocumentOrder(r)
  {
    if |ps| == 0 then []
    else
      var rest := Filter(e, ps[1..], keep);
      assert forall p :: p in ps[1..] ==> p in ps;
      assert InDocumentOrder(ps) ==> InDocumentOrder(ps[1..]) && forall p :: p in ps[1..] ==> Before(ps[0], p);
      if Distinct(ps) then DistinctTail(ps); if keep(At(e, ps[0])) then [ps[0]] + rest else rest
      else if keep(At(e, ps[0])) then [ps[0]] + rest else rest
  }

  /** The tags of `cs`, in order. */
  function Tags(cs: seq<Element>): (r: seq<string>)
    ensures |r| == |cs| && forall i :: 0 <= i < |cs| ==> r[i] == cs[i].tag
  {
    seq(|cs|, i requires 0 <= i < |cs| => cs[i].tag)
  }

  lemma TagsConcat(a: seq<Element>, b: seq<Element>)
    ensures Tags(a + b) == Tags(a) + Tags(b)
  {
  }

  /** The nodes at `ps`, in order. */
  function Nodes(e: Element, ps: seq<Path>): (r: seq<Element>)
    requires forall p :: p in ps ==> ValidPath(e, p)
    ensures |r| == |ps| && forall k :: 0 <= k < |ps| ==> r[k] == At(e, ps[k])
  {
    seq(|ps|, k requires 0 <= k < |ps| => At(e, ps[k]))
  }

  /** The elements of `cs` for which `keep` is `want`, in their original order. */
  function Select(cs: seq<Element>, keep: Element -> bool, want: bool): (r: seq<Element>)
    ensures forall x :: x in r <==> x in cs && keep(x) == want
    ensures |r| <= |cs|
  {
    if |cs| == 0 then []
    else if keep(cs[0]) == want then [cs[0]] + Select(cs[1..], keep, want)
    else Select(cs[1..], keep, want)
  }

  /** The two selections split `cs`: together they hold every element exactly as often as `cs` does. */
  lemma {:induction false} SelectPartition(cs: seq<Element>, keep: Element -> bool)
    ensures multiset(Select(cs, keep, true)) + multiset(Select(cs, keep, false)) == multiset(cs)
  {
    if |cs| > 0 {
      SelectPartition(cs[1..], keep);
      assert cs == [cs[0]] + cs[1..];
    }
  }

  /** The test "has this tag", as a value `Select` can take. */
  function Tagged(tag: string): Element -> bool {
    (x: Element) => x.tag == tag
  }

  /** `e.findall(tag)`: the children with that tag. */
  function ChildrenTagged(e: Element, tag: string): (r: seq<Element>)
    ensures forall x :: x in r <==> x in e.children && x.tag == tag
  {
    Select(e.children, Tagged(tag), true)
  }

  /** Selecting from a concatenation selects from each part. */
  lemma {:induction false} SelectConcat(a: seq<Element>, b: seq<Element>, keep: Element -> bool, want: bool)
    ensures Select(a + b, keep, want) == Select(a, keep, want) + Select(b, keep, want)
  {
    if |a| > 0 {
      assert (a + b)[0] == a[0] && (a + b)[1..] == a[1..] + b;
      SelectConcat(a[1..], b, keep, want);
    } else {
      assert a + b == b;
    }
  }

  /** When every element passes, the selection is the whole sequence. */
  lemma {:induction false} SelectEvery(cs: seq<Element>, keep: Element -> bool, want: bool)
    requires forall x :: x in cs ==> keep(x) == want
    ensures Select(cs, keep, want) == cs
  {
    if |cs| > 0 {
      assert forall x :: x in cs[1..] ==> x in cs;
      SelectEvery(cs[1..], keep, want);
      assert cs == [cs[0]] + cs[1..];
    }
  }

  /** When no element passes, the selection is empty. */
  lemma {:induction false} SelectNone(cs: seq<Element>, keep: Element -> bool, want: bool)
    requires forall x :: x in cs ==> keep(x) != want
    ensures Select(cs, keep, want) == []
  {
    if |cs| > 0 {
      assert forall x :: x in cs[1..] ==> x in cs;
      SelectNone(cs[1..], keep, want);
    }
  }

  /** An element the selection skips, between two parts, adds nothing to it. */
  lemma SelectSkip(a: seq<Element>, v: Element, b: seq<Element>, keep: Element -> bool, want: bool)
    requires keep(v) != want
    ensures Select(a + [v] + b, keep, want) == Select(a + b, keep, want)
  {
    SelectConcat(a + [v], b, keep, want);
    SelectConcat(a, [v], keep, want);
    SelectConcat(a, b, keep, want);
    assert Select([v], keep, want) == Select([v][1..], keep, want);
    assert [v][1..] == [];
  }

  /** Inserting an element the selection skips leaves the selection as it was. */
  lemma SelectInsert(cs: seq<Element>, k: nat, v: Element, keep: Element -> bool, want: bool)
    requires k <= |cs| && keep(v) != want
    ensures Select(cs[..k] + [v] + cs[k..], keep, want) == Select(cs, keep, want)
  {
    SelectSkip(cs[..k], v, cs[k..], keep, want);
    assert cs[..k] + cs[k..] == cs;
  }

  /** Replacing an element the selection skips by another it skips leaves the selection as it was. */
  lemma SelectUpdate(cs: seq<Element>, k: nat, v: Element, keep: Element -> bool, want: bool)
    requires k < |cs| && keep(cs[k]) != want && keep(v) != want
    ensures Select(cs[k := v], keep, want) == Select(cs, keep, want)
  {
    assert cs[k := v] == cs[..k] + [v] + cs[k + 1..];
    assert cs == cs[..k] + [cs[k]] + cs[k + 1..];
    SelectInsert(cs[..k] + cs[k + 1..], k, v, keep, want);
    SelectInsert(cs[..k] + cs[k + 1..], k, cs[k], keep, want);
    assert (cs[..k] + cs[k + 1..])[..k] == cs[..k];
    assert (cs[..k] + cs[k + 1..])[k..] == cs[k + 1..];
  }

  /** The first child with a tag heads the selection of the children with that tag. */
  lemma FindChildSelect(e: Element, tag: string)
    ensures FindChild(e, tag).None? <==> Select(e.children, Tagged(tag), true) == []
    ensures FindChild(e, tag).Some? ==> Select(e.children, Tagged(tag), true)[0] == e.children[FindChild(e, tag).value]
  {
    var cs := e.children;
    match FindChild(e, tag)
    case None =>
      SelectNone(cs, Tagged(tag), true);
    case Some(i) =>
      assert cs == cs[..i] + ([cs[i]] + cs[i + 1..]);
      SelectConcat(cs[..i], [cs[i]] + cs[i + 1..], Tagged(tag), true);
      SelectNone(cs[..i], Tagged(tag), true);
  }
}

